=== FILE: README.md ===
# Portal de inscrições: a Dafny model

This project models the data core of a university admissions portal: the
static pages that list, for each campus ("unidade"), the courses offered in
each study modality and shift, and the page of enrolment links with its
filters, quality panel and CSV export.

It covers four scripts.

- **`courses-data.js`**: the course table builder.
  - Course names are folded to a comparison key (`normalizeKey`).
  - Spelling variants are mapped to one canonical name through the `CANON` table (`canonicalizeName`).
  - Each name gets an identifier (`toId`).
  - The raw offer table (campus → modality → list) is turned into a catalog plus, for every campus and modality, a list of courses with their shifts ("turnos"), sorted by name (`build`).
  - The `semipresencial` and `ead` modalities force their shifts.
  - The two small expanders `expandTurnosMap` and `expandFixedTurnos` are also modelled.
- **`legacy.js`**: flattens the built offers into the older `{nome, turno}` rows and stores them in `window.coursesData`. This is the same shape that `app.js` reads, but `app.js` reads it from `window.PORTAL_COURSES`, which none of the modelled scripts sets.
- **`app.js`**: the campus page.
  - Rows are grouped by trimmed course name (`groupCoursesByName`), with shifts ordered morning, afternoon, evening (`sortTurno`).
  - The search box and the shift chip filter the cards (`normalize`, the `renderList` filter).
  - An empty tab is told apart from a filter that matches nothing.
  - Card text is escaped (`escapeHtml`).
- **`links-page.js`**: the enrolment-links page.
  - The text normalisation `norm`.
  - The classifiers `parseType` and `parseModality`.
  - Unit keys and display names (`unitKeyFromName`, `humanUnit`).
  - The canonical wizard link (`normalizeWizardUrl`).
  - The title reader `splitTitle` and the unit check `hasUnitInTitle`.
  - The two adapters: the spreadsheet one (`normalizeFromDataJson`) and the portal one (`normalizeFromPortalLinks`).
  - De-duplication and ordering (`dedupeAndSort`).
  - The quality counts (`buildQA`).
  - The filter predicate of `applyFilters`.
  - The CSV export (`toCSV`).

Each module follows one concern of the scripts:

- **Shared:** `Wrappers` (Option), `Seqs`, `Sorting`, `Text`, and `Assoc`. `Assoc` models a JavaScript object or `Map` as an insertion-ordered list of pairs.
- **Course table:** `Naming` (normalizeKey, toId), `Canon`, `Turnos`, `Catalog` (build).
- **Older shape:** `Legacy`.
- **Campus page:** `Panel`.
- **Links page:**
  - `Links` holds the helpers.
  - `Titles` is the title reader.
  - `Records` holds the two adapters.
  - `Listing` covers dedupe, order, QA and filters.
  - `Csv` is the export.

The browser's `localeCompare(…, "pt-BR")` is passed as a parameter `coll`. A comparator `cmp` is read as the relation `cmp(a, b) <= 0`. Sortedness is promised whenever `coll` is a total preorder. In the same way, the URL parser is a parameter `parse`, and a throwing parse is `None`.

## Model

| member | source | states |
|---|---|---|
| Naming.NormalizeKey | assets/js/courses-data.js:6-12 | a key holds no combining mark, and every whitespace in it is a single plain space |
| Naming.NormalizeKeyPlain | assets/js/courses-data.js:6-12 | for a name made of plain words with no space at its ends, the key is the name folded letter by letter (lower case, accent dropped) |
| Naming.KeyOfWords | assets/js/courses-data.js:6-12 | the key of words joined by single spaces is the folded words joined by single spaces |
| Naming.NormalizeKeyOfTrim | assets/js/courses-data.js:6-12 | trimming a name before taking its key changes nothing |
| Naming.ToId | assets/js/courses-data.js:14-17 | an id holds only `[A-Za-z0-9_]` and is no longer than the key |
| Naming.ToIdOfWordKey | assets/js/courses-data.js:14-17 | when the key has no punctuation, the id is the key with each space replaced by `_` |
| Seqs.Uniq | assets/js/courses-data.js:19 | `uniq` keeps exactly the values of its input, without repeats, in the order of their first occurrences; an input with no repeats comes back unchanged |
| Seqs.UniqOfUniq | assets/js/courses-data.js:563 | merging step by step (`uniq(uniq(a).concat(b))`) equals merging everything at once |
| Seqs.UniqAbsorb | assets/js/courses-data.js:563 | appending only values already present leaves the merged list as it was |
| Turnos.Pairs | assets/js/courses-data.js:103 | one name paired with each of its shifts, position by position |
| Turnos.TurnosMapBlocks | assets/js/courses-data.js:101-104 | one block per map entry; a missing shift list counts as empty |
| Turnos.ExpandTurnosMap | assets/js/courses-data.js:101-104 | the result has as many pairs as the map has shifts in total |
| Turnos.ExpandTurnosMapOrder | assets/js/courses-data.js:101-104 | shift j of entry k sits at the offset of block k plus j: map order first, then list order |
| Turnos.ExpandTurnosMapMembers | assets/js/courses-data.js:101-104 | a pair is produced exactly when that shift is listed under that name |
| Turnos.ExpandFixedTurnos | assets/js/courses-data.js:106-109 | names times shifts pairs, name-major; shift j of name i is at i times the number of shifts plus j; a missing list is empty |
| Turnos.FixedLayout | assets/js/courses-data.js:106-109 | the flattened blocks have the product length and the name-major layout |
| Turnos.ExpandFixedTurnosMembers | assets/js/courses-data.js:106-109 | a pair is produced exactly when its name and its shift are both listed |
| Assoc.Keys | assets/js/courses-data.js:566 | `Object.keys`/`Object.entries` order: the keys in insertion order |
| Assoc.Get | assets/js/courses-data.js:546 | a lookup finds a value exactly when the key is present, and the value is stored under that key |
| Assoc.Upsert | assets/js/courses-data.js:558-563 | a write appends a new key at the end or keeps the key order; only the written key changes |
| Assoc.MapValues | assets/js/courses-data.js:590-598 | transforming every value keeps keys and their order |
| Assoc.GetStored | assets/js/courses-data.js:546 | with duplicate-free keys, a stored pair is what lookup finds |
| Canon.CanonCalls | assets/js/courses-data.js:29-90 | the 42 `set` calls, in source order, each keyed by the normalised raw spelling |
| Canon.MapOfConsistentCalls | assets/js/courses-data.js:24-26 | when no two calls disagree, the map holds exactly the keys set, each with its value |
| Canon.CallsConsistent | assets/js/courses-data.js:29-90 | no two `set` calls give one key two different canonical names |
| Canon.CanonEntries | assets/js/courses-data.js:23-93 | `CANON` maps the key of every listed spelling to its canonical name and holds nothing else |
| Canon.AliasKeyWords | assets/js/courses-data.js:26 | the key of each call is its raw words, folded and joined by spaces, and is never empty |
| Canon.AliasKeysConsistent | assets/js/courses-data.js:29-90 | two calls with the same key give the same canonical name |
| Canon.SignatureDecides | assets/js/courses-data.js:29-90 | every raw spelling's word signature leads to a call whose raw spelling is that spelling's canonical name, with the same canonical name |
| Canon.RawWordsPlain | assets/js/courses-data.js:29-90 | every raw spelling is a non-empty sequence of plain words |
| Canon.CanonicalIsListed | assets/js/courses-data.js:29-90 | every canonical name is itself listed and maps to itself |
| Canon.CanonicalizeName | assets/js/courses-data.js:95-99 | empty exactly when the key is empty; a listed key gives its call's canonical name; an unlisted non-empty key gives the trimmed name |
| Canon.KeyOfBlank | assets/js/courses-data.js:95-99 | a name that trims to nothing has the empty key |
| Canon.Listed | assets/js/courses-data.js:98 | a listed key belongs to a call and maps to a non-empty name, so the fallback to the trimmed name is never taken for it |
| Canon.Unlisted | assets/js/courses-data.js:98 | the fallback is the trimmed name, which is non-empty when the key is |
| Canon.CanonicalizeIdempotent | assets/js/courses-data.js:95-99 | canonicalising a canonicalised name changes nothing |
| Catalog.ListContributions | assets/js/courses-data.js:573-586 | the contributions of a list are exactly those of its string and object elements: they are the present values of the elements' contributions, taken in list order |
| Catalog.ContributionOrigin | assets/js/courses-data.js:566-587 | every contribution comes from a unit and modality of the table; in a forcing modality it carries the forced shifts |
| Catalog.UnitOrigin | assets/js/courses-data.js:567-586 | a contribution of one unit comes from one of that unit's modality lists |
| Catalog.ContributionComplete | assets/js/courses-data.js:573-586 | every string or object element of every array in the table contributes |
| Catalog.DegreeByPrefix | assets/js/courses-data.js:550 | the degree is `tecnologo` exactly when the first fourteen characters, lower-cased, spell "tecnologia em " |
| Catalog.UpsertKeys | assets/js/courses-data.js:546-547 | writing a key into a dictionary whose keys are first occurrences gives the first occurrences of the longer key list |
| Catalog.TurnosOfMembers | assets/js/courses-data.js:563 | a shift is collected for an id exactly when some placement of that id carries it |
| Catalog.SlotsKeys | assets/js/courses-data.js:562 | a modality map lists each course id once, in order of first appearance |
| Catalog.SlotsGet | assets/js/courses-data.js:562-563 | a course's slot holds all the shifts its placements carried, first occurrences in order; an unplaced course has no slot |
| Catalog.ModalitiesKeys | assets/js/courses-data.js:559 | a unit lists each modality once, in order of first appearance |
| Catalog.ModalitiesGet | assets/js/courses-data.js:559-560 | a modality holds the slots built from that modality's placements alone |
| Catalog.OffersKeys | assets/js/courses-data.js:558 | the offers list each unit once, in order of first appearance |
| Catalog.OffersGet | assets/js/courses-data.js:558-560 | a unit holds the modalities built from that unit's placements alone |
| Catalog.CatalogKeys | assets/js/courses-data.js:546-553 | the catalog lists each id once, in order of first appearance |
| Catalog.CatalogFirst | assets/js/courses-data.js:546-553 | the catalog keeps the course of the first placement of each id; later spellings with the same id do not rename it |
| Catalog.CatalogNew | assets/js/courses-data.js:546-553 | a placement with a new id puts its own course in the catalog |
| Catalog.CatalogEntriesKeyed | assets/js/courses-data.js:547-548 | every catalog entry is stored under its own id |
| Catalog.ProcessSlot | assets/js/courses-data.js:557-564 | after the loops `offers[u][m][id]` exists exactly when some placement was there for that course, and holds its shifts without repeats in order of first appearance |
| Catalog.UniformTurnos | assets/js/courses-data.js:563 | when every placement carries the same duplicate-free shifts, each course collects exactly those |
| Catalog.UniformSlot | assets/js/courses-data.js:568-578 | in a modality whose placements all carry the same shifts, every slot holds exactly those |
| Catalog.ForcedDistinct | assets/js/courses-data.js:571 | the forced shifts have no repeats |
| Catalog.PlacementsForced | assets/js/courses-data.js:571-584 | every placement in a forcing modality carries the forced shifts |
| Catalog.BuildForced | assets/js/courses-data.js:568-584 | in `semipresencial` and `ead` every listed course has exactly the forced shifts, whatever its `turno` says |
| Catalog.SlotOffers | assets/js/courses-data.js:594-595 | one offer per map entry, with its shifts de-duplicated |
| Catalog.SlotOffersDistinct | assets/js/courses-data.js:594-595 | the offers of a map name each course once |
| Catalog.SortOffersDistinct | assets/js/courses-data.js:593-596 | a final list has each course of the map once |
| Catalog.SortOffersMembers | assets/js/courses-data.js:593-596 | a final list holds, for every course of the map, its de-duplicated shifts, and nothing else |
| Catalog.SortOffersSorted | assets/js/courses-data.js:596 | a final list is in catalog-name order when the collation is a total preorder |
| Catalog.FinalizeList | assets/js/courses-data.js:589-599 | the built list of a unit and modality is the sorted form of the map the loops left there, and exists exactly when that map does |
| Catalog.FinalOffers | assets/js/courses-data.js:557-599 | for any placements: a list exists exactly where something was placed; it names each placed course once, sorted, with all its shifts, and nothing else |
| Catalog.BuildOffers | assets/js/courses-data.js:539-606 | the same for `build` on a raw table |
| Catalog.Build | assets/js/courses-data.js:539-606 | `build` itself: the offers list each unit that places at least one course exactly once, in order of first appearance; the catalog and the lists themselves are stated by `BuildCatalog` and `BuildOffers` |
| Catalog.BuildCatalog | assets/js/courses-data.js:543-555 | the catalog has one entry per id met, in order of first appearance, each the course of the first element that produced that id |
| Legacy.RowName | assets/js/legacy.js:17 | the catalog's name when the course is present with a non-empty name, else the id |
| Legacy.OfferBlocks | assets/js/legacy.js:16-19 | one block per offer: its course name with each of its shifts |
| Legacy.Flatten | assets/js/legacy.js:12-22 | the same units, and under each the same modalities, as the built offers |
| Legacy.FlattenAt | assets/js/legacy.js:12-22 | the rows at a unit and modality are the flattening of the list built there, and exist exactly where the list does |
| Legacy.Rows | assets/js/legacy.js:15-19 | the rows of one list: as many as the blocks of its offers hold, one per offer and shift |
| Legacy.RowCount | assets/js/legacy.js:16-19 | one row per offer and shift |
| Legacy.RowOrder | assets/js/legacy.js:16-19 | rows follow the offers' order, and each offer's shifts in order |
| Legacy.RowMembers | assets/js/legacy.js:16-19 | a row is present exactly when some offer with that name lists that shift |
| Legacy.BuiltRowNames | assets/js/legacy.js:17 | for a built list every offer's course is in the catalog, so a row carries the catalog name (or the id when that name is empty) |
| Links.Norm | assets/js/links-page.js:56-61 | normalised text holds no diacritic |
| Links.NormContains | assets/js/links-page.js:56-61 | normalisation keeps substrings |
| Links.NormStable | assets/js/links-page.js:56-61 | every character of normalised text is lower-case, fully decomposed and not a diacritic |
| Links.NormLower | assets/js/links-page.js:56-61 | text that is stable once lower-cased normalises to its lower-case form |
| Links.NfdLowerChars | assets/js/links-page.js:58-59 | after lower-casing and decomposing, each character is stable or a diacritic |
| Links.ParseType | assets/js/links-page.js:73-78 | vestibular exactly when the text mentions `vestib`; matricula exactly when it mentions `matric` and not `vestib`; otherwise other |
| Links.ParseModality | assets/js/links-page.js:80-88 | each of the six modalities exactly when its word occurs in the normalised text and no earlier test's word does (flex, then semi, then ead or online, then hibrid, then presencial, else other), so "semipresencial" is never taken for "presencial" |
| Links.FirstMatch | assets/js/links-page.js:80-88 | the key of the first rule that fires, or the fallback when none does |
| Links.ParseTypeIsFirstMatch | assets/js/links-page.js:73-78 | the type classifier is the first-match rule table on normalised text |
| Links.ParseModalityIsFirstMatch | assets/js/links-page.js:80-88 | the modality classifier is the first-match rule table on normalised text |
| Links.UnitAlias | assets/js/links-page.js:29-33 | the alias table keeps the key shape and changes only "oeste" and "oeste compensa" |
| Links.UnitKeyFromName | assets/js/links-page.js:90-93 | a derived key is in normal form: stable characters, single plain spaces, none at the ends |
| Links.KeyShape | assets/js/links-page.js:90-93 | the text before the alias lookup already has the key shape |
| Links.KeyOfNormalKey | assets/js/links-page.js:90-93 | a name whose normal form already has the key shape only goes through the alias table |
| Links.NormOfKey | assets/js/links-page.js:56-61 | a key is its own normal form |
| Links.UnitKeyIdempotent | assets/js/links-page.js:90-93 | deriving the key of a key gives the key |
| Links.WestName | assets/js/links-page.js:29-33 | "Oeste" names the Compensa campus |
| Links.CompensaName | assets/js/links-page.js:29-33 | "compensa" is already the Compensa key |
| Links.HumanUnit | assets/js/links-page.js:95-104 | the Compensa key shows its two-name form; every other key is shown upper-cased |
| Links.WestDisplay | assets/js/links-page.js:95-104 | the Compensa display name leads back to its key |
| Links.UpperKey | assets/js/links-page.js:90-104 | upper-casing a key and deriving the key again gives the key back, through the alias table |
| Links.DisplayRoundTrip | assets/js/links-page.js:90-104 | for every key other than Compensa, the display name leads back to the key |
| Links.DashedName | assets/js/links-page.js:90-93 | two words separated by spaces and dashes give the key of the two words joined by one space |
| Links.NormalizeWizardUrl | assets/js/links-page.js:63-71 | a link exists exactly when the text parses with an http(s) protocol; it ends in the wizard fragment and keeps origin, path and query |
| Links.HashIgnored | assets/js/links-page.js:63-71 | two addresses that differ only in their fragment get the same link |
| Links.WizardUrlIdempotent | assets/js/links-page.js:63-71 | normalising a canonical link changes nothing, for a parser that reads back what it builds |
| Links.AliasWords | assets/js/links-page.js:136-141 | a unit has at least one name to look for |
| Links.HasUnitInTitle | assets/js/links-page.js:131-143 | a title that contains the unit's normalised name names it; in general, it names it exactly when it mentions the unit or one of its alias words |
| Links.OtherUnitMentioned | assets/js/links-page.js:131-143 | any unit but Compensa is named exactly when the title contains its normalised name |
| Links.WestMentioned | assets/js/links-page.js:131-143 | Compensa is named exactly when the title contains its name, "oeste" or "compensa" |
| Links.UnitInTitle | assets/js/links-page.js:131-143 | a title that contains the unit name as written names the unit |
| Links.AliasesNormal | assets/js/links-page.js:136-142 | the alias words are already in normal form |
| Titles.MatchFrom | assets/js/links-page.js:114-126 | the leftmost position from which the pattern matches up to the end of the text, or none if there is no such position |
| Titles.RemoveMatch | assets/js/links-page.js:124-126 | removing an end-anchored match leaves a prefix of the text |
| Titles.RemoveAtLeftmost | assets/js/links-page.js:124-126 | the cut happens at the leftmost match |
| Titles.StripOne | assets/js/links-page.js:124-126 | one suffix removed and the rest trimmed leaves a trimmed piece of the text |
| Titles.StripAll | assets/js/links-page.js:124-126 | removing every suffix in turn leaves a piece of the text, trimmed |
| Titles.RemoveBlocked | assets/js/links-page.js:114-126 | a pattern cannot match a text whose last character it cannot end with |
| Titles.StripBlocked | assets/js/links-page.js:114-126 | a trimmed text whose last character no pattern can end with passes unchanged |
| Titles.ModesEnd | assets/js/links-page.js:114-122 | every study-mode suffix ends in D, X, L or O |
| Titles.CodeOf | assets/js/links-page.js:108 | the code is all ASCII digits |
| Titles.WithoutCode | assets/js/links-page.js:109 | when the title starts with its code, the code and the following spaces are removed; otherwise the title is kept |
| Titles.Parts | assets/js/links-page.js:111 | every part occurs in the title |
| Titles.PickUnit | assets/js/links-page.js:112 | the unit part is one of the parts, or the fallback |
| Titles.UnitName | assets/js/links-page.js:124-126 | the unit name is never empty, has no spaces at its ends, and is a piece of the picked part or the fallback |
| Titles.OutrosKept | assets/js/links-page.js:126 | the fallback name carries no study-mode suffix |
| Titles.SplitTitleWith | assets/js/links-page.js:106-129 | an all-digit code; a non-empty trimmed unit that is the fallback or occurs in the process title; and, when the title starts with its code, the process title is what follows the code and the whitespace after it, with no whitespace left at its start; otherwise it is the trimmed title |
| Titles.SplitTitle | assets/js/links-page.js:106-129 | the same for the page's seven study-mode suffixes |
| Titles.PartInside | assets/js/links-page.js:111 | every part of a title occurs in it |
| Titles.SplitInside | assets/js/links-page.js:111 | every piece of a split occurs in the split text |
| Titles.TitleRoundTrip | assets/js/links-page.js:106-129 | a title `<code> <process> - <unit> - <term>` reads back its code, its unit and the text after the code, whenever no study-mode suffix matches anywhere in the unit and neither the process nor the unit contains ` - ` |
| Titles.TitleModeRoundTrip | assets/js/links-page.js:106-129 | a title `<code> <process> - <unit> PRESENCIAL - <term>` reads back its code, the unit without ` PRESENCIAL` and the text after the code, under the same conditions on the unit |
| Titles.TitleOfParts | assets/js/links-page.js:106-129 | a title `<code> <process> - <part> - <term>` reads back its code, what the suffix removal leaves of its unit part, and the text after the code |
| Titles.PresencialStripped | assets/js/links-page.js:114-126 | removing the seven suffixes in turn from `<unit> PRESENCIAL` gives the unit, when no suffix matches the unit itself |
| Titles.PresencialCut | assets/js/links-page.js:119-125 | the ` PRESENCIAL` suffix is cut off right after the unit |
| Titles.BeforePresencial | assets/js/links-page.js:115-125 | the three suffixes tried before ` HÍBRIDO` and ` HÍBRIDO` itself leave `<unit> PRESENCIAL` unchanged |
| Titles.PresencialPart | assets/js/links-page.js:111-126 | `<unit> PRESENCIAL` is a trimmed part without ` - ` and is not the fallback |
| Titles.NoSepWithPresencial | assets/js/links-page.js:111 | appending ` PRESENCIAL` to a unit adds no ` - ` separator |
| Titles.PresencialPattern | assets/js/links-page.js:119 | ` PRESENCIAL` matches its own suffix pattern |
| Titles.SemipresencialPattern | assets/js/links-page.js:117 | the fourth letter of ` SEMIPRESENCIAL` is an I, never a space |
| Titles.SuffixLeftmost | assets/js/links-page.js:124-126 | a whitespace-led word suffix after a unit that ends in a non-space character is found right after the unit |
| Titles.SuffixNotEarlier | assets/js/links-page.js:124-126 | such a suffix matches nowhere inside the unit |
| Titles.TailLetterBlocks | assets/js/links-page.js:114-126 | a suffix ending in letters matches nowhere if one of its letters is missing at its place from the end |
| Titles.EndSplit | assets/js/links-page.js:114-122 | a match of a pattern followed by letters ends in those letters, and what precedes them matches the pattern |
| Titles.SpacesOnly | assets/js/links-page.js:114-122 | what a lone `\s*` or `\s+` matches is all whitespace |
| Titles.LettersMatch | assets/js/links-page.js:114-122 | a text whose characters fall in the sets of a letters-only pattern matches it |
| Titles.WordMatches | assets/js/links-page.js:114-122 | a literal word matches its own case-insensitive pattern |
| Titles.LeftmostAt | assets/js/links-page.js:124-126 | a match with no match before it is the leftmost one |
| Titles.StripNone | assets/js/links-page.js:124-126 | a trimmed text that no suffix matches passes through the removal unchanged |
| Titles.StripOnlyAt | assets/js/links-page.js:124-126 | when only one suffix changes the text, into one the later suffixes do not match, the removal gives that text |
| Titles.StripAllSkip | assets/js/links-page.js:124-126 | suffixes that leave the text unchanged can be skipped |
| Titles.NoSpaceNoMode | assets/js/links-page.js:114-122 | a unit name without whitespace, such as `SEDE`, carries no study-mode suffix |
| Titles.ReadTitle | assets/js/links-page.js:106-129 | what the reader returns, given each of its steps |
| Titles.CodeAndBody | assets/js/links-page.js:108-109 | `<code> <body>` has that code, and without it that body |
| Titles.BodyParts | assets/js/links-page.js:111-112 | the unit part of `a - u - t` is `u` |
| Records.SearchText | assets/js/links-page.js:172 | the search text contains the normalised unit name and every other normalised part joined into it |
| Records.WestNotUpper | assets/js/links-page.js:95-104 | the Compensa campus shows a name that differs from its upper-cased key |
| Records.TitleUnitName | assets/js/links-page.js:153-155 | the shown name of a title's unit is its spelling in the title upper-cased, except that Compensa shows its two-name form |
| Records.EntryRecord | assets/js/links-page.js:150-173 | a spreadsheet record is consistent and findable; its key and shown name come from the title's unit; its code is the title's code, else `ps`, and is empty only when both are; its process title, modality, type and links are read from the title and the address; it is flagged exactly when its title does not name its unit; its search text contains the normalised unit name, process title, sheet name and address |
| Records.SheetRecords | assets/js/links-page.js:147-175 | the records of a tab are the record of each of its link entries, in entry order; every one is sound |
| Records.NormalizeFromDataJson | assets/js/links-page.js:145-177 | the spreadsheet adapter gives the record of each link entry of every tab, tab by tab and in entry order; every one is sound |
| Records.SheetLinksAreLinks | assets/js/links-page.js:148-149 | a tab contributes one tagged entry per link entry, each a link entry of that tab |
| Records.SheetStep | assets/js/links-page.js:148-160 | one more entry appends its record exactly when it is a link |
| Records.EntryRecordsSound | assets/js/links-page.js:150-173 | every spreadsheet record is sound |
| Records.FirstGiven | assets/js/links-page.js:182 | the first non-empty of three texts, else the last |
| Records.ItemRecord | assets/js/links-page.js:187-206 | a portal record carries its unit's key and name, names the unit in its title, has the trimmed code, reads its type from the link's type and its modality from the link's modality followed by the block key, and keeps the link's address; its title is the upper-cased link type (else the type label), " - ", the unit name, the upper-cased modality label and " - 2026/1"; its search text contains the normalised unit name, title, raw code and address |
| Records.BlockRecords | assets/js/links-page.js:186-207 | the records of a block are the record of each of its links, in link order, all for the unit |
| Records.BlocksRecords | assets/js/links-page.js:185-208 | the records of a unit's blocks are the record of each link, block by block, all for the unit |
| Records.UnitKeyOf | assets/js/links-page.js:182 | a portal unit's key is in normal form |
| Records.UnitRecords | assets/js/links-page.js:181-209 | the records of a unit are the record of each of its links, all of portal shape |
| Records.NormalizeFromPortalLinks | assets/js/links-page.js:179-211 | the portal adapter gives the record of each link, unit by unit and block by block; every one is consistent, names its unit and shows its display name |
| Records.PortalStep | assets/js/links-page.js:181-193 | one more unit appends the records of its links |
| Records.BlockLinksSnoc | assets/js/links-page.js:186-193 | one more link of a block appends its record |
| Records.UnitShaped | assets/js/links-page.js:182-206 | records built for a unit with a normal key and its display name have the portal shape |
| Listing.ListingOrder | assets/js/links-page.js:224-229 | the comparator: whenever it accepts a pair, the pair is ordered by unit name, then among equal names by modality rank, then by type rank, then by code |
| Listing.ListingOrderPreorder | assets/js/links-page.js:224-229 | the comparator chain is a total preorder whenever the collator is |
| Listing.DedupeAndSort | assets/js/links-page.js:213-230 | the corrected listing, keyed by the identity tuple instead of its joined text: identities pairwise distinct; the result comes from the input; every identity in the input is kept; the result is in listing order under a collator |
| Listing.DedupSorted | assets/js/links-page.js:217-229 | sorting after de-duplicating keeps one input element per key, for every key |
| Listing.FirstSurvives | assets/js/links-page.js:217-222 | the first record of each identity is the one listed |
| Listing.ListingSorted | assets/js/links-page.js:224-229 | the listing is ordered by unit name, then modality rank, then type rank, then code |
| Listing.OrderedPair | assets/js/links-page.js:224-229 | one comparator step, read key by key |
| Listing.DedupeAndSortAsWritten | assets/js/links-page.js:213-230 | as written, keyed by the joined text: joined keys pairwise distinct; the result comes from the input and is never longer; every joined key in the input is kept; the result is in listing order under a collator |
| Listing.FirstSurvivesAsWritten | assets/js/links-page.js:217-222 | as written, the first record of each joined key is the one listed |
| Listing.JoinShift | assets/js/links-page.js:218 | moving a piece across the first pipe separator keeps the joined text |
| Listing.JoinedKeyCollision | assets/js/links-page.js:218 | two links with different identities can share a joined key: the as-written listing keeps one, the identity-keyed one keeps both |
| Listing.BuildQa | assets/js/links-page.js:232-237 | the four counts are the sizes of the matching filters, each at most the total |
| Listing.QaAdds | assets/js/links-page.js:232-237 | the counts of two lists together are the sums of their counts |
| Listing.OffPatternIsMissing | assets/js/links-page.js:234 | among built records, only those without a normalised link count as off-pattern |
| Listing.PortalWarnsNothing | assets/js/links-page.js:236 | records from the portal adapter raise no warnings |
| Listing.ApplyFilters | assets/js/links-page.js:369-377 | an order-keeping selection; a record is shown exactly when it passes every control |
| Listing.FiltersIdempotent | assets/js/links-page.js:369-377 | filtering again with the same controls changes nothing |
| Listing.NoFilterKeepsAll | assets/js/links-page.js:369-377 | with every control off and no query, everything is shown |
| Listing.UnitSearchFinds | assets/js/links-page.js:369-377 | searching a record's unit name finds every sound record of that unit the other controls let through |
| Listing.CodeSearchFinds | assets/js/links-page.js:369-377 | among the records built from a list of portal links, searching a link's code finds that link's record whenever the unit, modality and type controls let it through |
| Csv.Escape | assets/js/links-page.js:388 | escaping never shortens a cell |
| Csv.ReadEscaped | assets/js/links-page.js:388 | an escaped cell followed by its closing quote reads back as the cell |
| Csv.ReadWrittenLine | assets/js/links-page.js:388 | a written line reads back as its cells |
| Csv.ReadWrittenTable | assets/js/links-page.js:388-389 | a written table of non-empty lines reads back as itself |
| Csv.LinkColumn | assets/js/links-page.js:386 | the link column is the normalised link when it is non-empty, else the original text |
| Csv.Rows | assets/js/links-page.js:386 | one row per record, in order |
| Csv.ToCsv | assets/js/links-page.js:384-390 | reading the export back gives the header and every record's row, in order |
| Panel.Normalize | assets/js/app.js:288-294 | normalised text has no space at its ends and only settled characters |
| Panel.NormalizeIdempotent | assets/js/app.js:288-294 | normalising twice is normalising once |
| Panel.SettledFixed | assets/js/app.js:288-294 | text of settled characters goes through every step unchanged |
| Panel.EscapeChar | assets/js/app.js:296-300 | the entity for one character contains none of `<`, `>`, `"`, `'` |
| Panel.EscapeHtml | assets/js/app.js:296-300 | escaped text is at least as long as the original, contains none of `<`, `>`, `"`, `'`, and every `&` in it begins one of the five entities |
| Panel.EscapeCharThen | assets/js/app.js:296-300 | escaping one more character in front keeps every `&` the start of an entity |
| Panel.EscapeCharAmpersand | assets/js/app.js:296-300 | an `&` in the escape of one character is its first character and starts an entity |
| Panel.EscapeShown | assets/js/app.js:296-300 | escaped text is shown as the original text |
| Panel.UnescapeChar | assets/js/app.js:296-300 | each escaped character reads back as itself, whatever follows |
| Panel.Trimmed | assets/js/app.js:269-271 | every row's trimmed name and shift, in list order |
| Panel.NamesSeenMember | assets/js/app.js:266-281 | a name is seen exactly when it is non-empty and some row has it |
| Panel.ShiftsOfMember | assets/js/app.js:266-281 | a shift is listed for a name exactly when some row pairs them and neither is empty |
| Panel.CollectMatches | assets/js/app.js:266-276 | the map the loop builds has the distinct seen names in order, each with its distinct shifts in order |
| Panel.TurnoOrderFacts | assets/js/app.js:283-286 | shifts are ordered morning, afternoon, evening, then everything else, as a total preorder |
| Panel.GroupsOf | assets/js/app.js:278-279 | one group per map entry, its shifts sorted by rank |
| Panel.GroupRows | assets/js/app.js:278-280 | the groups are in name order under a total-preorder collator |
| Panel.GroupCoursesByName | assets/js/app.js:266-281 | the grouped list is in name order under a total-preorder collator |
| Panel.RowGroupsDistinct | assets/js/app.js:266-281 | no name has two groups |
| Panel.RowGroupOrigin | assets/js/app.js:266-281 | a group stands for a seen name, and its shifts re-arrange that name's distinct shifts |
| Panel.RowGroupComplete | assets/js/app.js:266-281 | every seen name has a group |
| Panel.TrimmedName | assets/js/app.js:269-271 | a trimmed name is seen exactly when some row has it |
| Panel.TrimmedShift | assets/js/app.js:269-271 | a trimmed shift is listed for a name exactly when some row with that name has it |
| Panel.GroupNames | assets/js/app.js:266-281 | one card per name: no repeats, every card is a row's trimmed non-empty name, and every such name has a card |
| Panel.GroupShiftsOrdered | assets/js/app.js:273-279 | each card's shifts have no repeats and are in shift order |
| Panel.GroupShiftMember | assets/js/app.js:266-281 | a card shows a shift exactly when some row with its name has it |
| Panel.RowGroupSorted | assets/js/app.js:279 | a group's shifts are in shift order |
| Panel.SomeGroup | assets/js/app.js:266-281 | a named row makes at least one card |
| Panel.FilterCourses | assets/js/app.js:216-221 | an order-keeping selection; a card is kept exactly when it matches the search and the chip |
| Panel.FilterCoursesIdempotent | assets/js/app.js:216-221 | filtering the shown cards again changes nothing |
| Panel.NoFilterShowsAll | assets/js/app.js:216-221 | no search and the "todos" chip show every card |
| Panel.OwnNameFound | assets/js/app.js:216-221 | typing a course's own name finds its card under any chip it offers |
| Panel.TabView | assets/js/app.js:177-229 | "not registered" exactly when the list is empty or missing; "no match" exactly when the list is non-empty and no grouped course passes the search and the chip; otherwise the cards are exactly the grouped courses that pass, in order, and there is at least one |
| Panel.BlankNamesNoMatch | assets/js/app.js:181-229 | a registered list whose rows all have blank names shows "no match", not "not registered" |
| Panel.NamedListShown | assets/js/app.js:181-229 | a list with a named row shows cards when nothing is searched and the chip is "todos" |
| Panel.CardOf | assets/js/app.js:231-241 | a card's texts read back as the course's name and shifts, and the name cannot open or close markup |
| Text.Trim | assets/js/courses-data.js:8 | the result has no spaces at its ends, occurs in the input, and is the input when it has no whitespace |
| Text.TrimIdempotent | assets/js/courses-data.js:8 | trimming twice is trimming once |
| Text.Lower | assets/js/courses-data.js:9 | one lower-cased character per input character |
| Text.Nfd | assets/js/courses-data.js:10 | decomposition never shortens text and adds no whitespace |
| Text.KeepChars | assets/js/courses-data.js:11 | the characters kept are exactly those that pass the test |
| Text.CollapseSpaces | assets/js/courses-data.js:12 | no two adjacent whitespace characters; whitespace is a plain space; other characters come from the input |
| Text.CollapseSpacesSingle | assets/js/courses-data.js:12 | collapsing changes nothing when every space stands alone |
| Text.StripAfterNfd | assets/js/courses-data.js:10-11 | removing the marks that decomposition introduced leaves one base letter per character |
| Text.Split | assets/js/links-page.js:108 | a split has at least one piece |
| Text.Join | assets/js/links-page.js:389 | joining nothing is empty, joining one piece is that piece, and the first piece starts the result |
| Text.WordsInjective | assets/js/courses-data.js:6-12 | words joined by single spaces can be read back |
| Text.FoldWords | assets/js/courses-data.js:6-12 | folding a joined name folds each word and keeps the single spaces |
| Seqs.Filter | assets/js/links-page.js:370 | an order-keeping selection of exactly the elements that pass |
| Seqs.FilterIdempotent | assets/js/links-page.js:370 | filtering twice by the same test is filtering once |
| Seqs.Count | assets/js/links-page.js:234-236 | the count is the length of the filtered list |
| Seqs.CountConcat | assets/js/links-page.js:234-236 | counts over two lists add up |
| Seqs.Concat | assets/js/courses-data.js:102 | the flattening has the total length of its blocks |
| Seqs.ConcatIndex | assets/js/courses-data.js:102 | the flattening keeps the block order and the order inside each block |
| Seqs.ConcatMember | assets/js/courses-data.js:102 | a value is flattened exactly when it is in some block |
| Seqs.DedupBy | assets/js/links-page.js:217-222 | keys are pairwise distinct, elements come from the input in order, and every input key is represented |
| Seqs.DedupKeepsFirst | assets/js/links-page.js:217-222 | every first occurrence of a key survives |
| Seqs.DedupOnlyFirst | assets/js/links-page.js:217-222 | only first occurrences survive |
| Seqs.MapSeq | assets/js/links-page.js:386 | the function applied position by position |
| Seqs.MapSeqConcat | assets/js/links-page.js:146-176 | mapping distributes over concatenation, as appending record after record does |
| Seqs.MapSeqSnoc | assets/js/links-page.js:146-176 | mapping one more element appends its image |
| Seqs.MapSeqConcatAll | assets/js/links-page.js:180-210 | mapping two lists in turn appends the images, and a property of both halves' images holds of the whole |
| Sorting.Insert | assets/js/courses-data.js:596 | an insertion adds exactly that one element |
| Sorting.InsertSorted | assets/js/courses-data.js:596 | inserting into a sorted list under a total preorder keeps it sorted |
| Sorting.SortBy | assets/js/courses-data.js:596 | a permutation of the input, sorted whenever the relation is a total preorder |
| Sorting.SortSorted | assets/js/courses-data.js:596 | a sorted list is left as it is, because the sort is stable |
| Sorting.ByPreorder | assets/js/links-page.js:225 | comparing by a projected key keeps a total preorder |
| Sorting.ThenPreorder | assets/js/links-page.js:225-228 | chaining comparators (the next one decides only on a tie) keeps a total preorder |

## Left out

- Rendering, events and timers are left out. This covers the DOM writes, `renderGroups`, `renderMeta`, `buildOptions`, `debounce`, `bindEvents`, `init`, the focus timer, the `CHUNK_SIZE` paging and the `exportCSV` Blob download. None of them changes the data; the model keeps only the values they display.
- The page globals are left out:
  - `window.COURSES`, which `courses-data.js` sets and `legacy.js` reads;
  - `window.coursesData`, which `legacy.js` sets;
  - `window.PORTAL_COURSES`, which `app.js` reads but none of the modelled scripts sets;
  - `window.PORTAL_LINKS`, which `links-data.js` sets and `links-page.js` and `app.js` read.

  So are the links page's single `fetch` of `portal_links_2026_1.json`, with its fallback to `window.PORTAL_LINKS` (`links-page.js` lines 442-459), and `legacy.js`'s guard against a missing course table. The adapters and the panel take the data as arguments.
- The `RAW_OFFERS` table itself (`courses-data.js` lines 111-536) is left out. `Catalog.Build` takes any table. The `CANON` table is modelled call by call; there are 42 calls.
- The pt-BR `localeCompare` collator is the parameter `coll`. Sorting results are promised only when `coll` is a total preorder.
- The `URL` constructor is the parameter `parse`. A parse that throws is `None`.
- Text handling is limited:
  - case mapping covers Basic Latin and Latin-1 only;
  - NFD decomposition covers the Latin-1 letters only;
  - `\p{Diacritic}` is limited to code points up to U+0362: the spacing accents `^`, `` ` ``, U+00A8, U+00AF, U+00B4, U+00B7 and U+00B8, the modifier letters U+02B0-U+02FF, and the combining marks up to U+0362.
  - Text outside these ranges is passed through unchanged.
- `null` and `undefined` are one absent value (`None`).
- Non-string field values are not modelled. This covers numbers in a `turno` or `nome`, and `String(...)` applied to them. Only strings, objects and "anything else" are told apart.
- Inputs that are not arrays are modelled for the raw offer table only. The adapters' `|| []` and `Array.isArray` guards are typed away: their inputs are sequences, and a missing payload is an empty one.
- The source's lookup tables are plain objects, so a lookup also finds the names inherited from `Object.prototype` (`constructor`, `toString` and the like). The model treats those names as ordinary strings:
- Links.UnitAlias: for a key such as "constructor", `UNIT_ALIAS[key]` (`links-page.js` line 92) yields a function. The adapter then throws a TypeError at `unitKey.toUpperCase()` (line 155). The model returns the key unchanged.
- Links.HumanUnit: for such a key, `map[key]` (line 103) yields a function instead of the upper-cased key. The model upper-cases it.
- Links.AliasWords: for such a name, `aliases[e]` (line 141) yields a function, and `.some` throws a TypeError (line 142). The model looks for the name itself.
- Panel.TurnoRank: for a shift such as "toString", `order[a] || 99` (`app.js` line 285) is a function, and the comparison is `NaN`. The model ranks it 99 like any other unknown shift.
- `Object.entries` puts integer-like keys first. The association lists keep plain insertion order instead.
- The `?? 9` rank fallbacks in the listing order cannot be reached: modality and type are enumerations, and every key has a rank.
- Panel.Normalize: follows `app.js` lines 288-294, which do not collapse runs of inner whitespace.
- Sorting.SortBy: stability is not part of the contract, which states a permutation that is sorted under a total preorder. `Sorting.SortSorted` covers only the case of an already sorted input.

## Findings

| source | as written | input that shows it | evidently intended | confidence | as-written member | corrected member |
|---|---|---|---|---|---|---|
| assets/js/links-page.js:218 | the de-duplication key is the four identity fields joined with the pipe character | any record `x` twice: once with `m`, a pipe and `x.code` as its code, once with `x.unitKey`, a pipe and `m` as its unit key (for example `m = "a"`); the two links have different units but one joined key, so one of them is dropped | de-duplicate by the tuple of the four fields | low; not executed | Listing.DedupeAndSortAsWritten, Listing.JoinedKeyCollision | Listing.DedupeAndSort |

=== FILE: assoc.dfy ===
/** A JavaScript object (or `Map`) used as a dictionary: key/value pairs in
    insertion order. Writing to an existing key changes its value in place;
    writing to a new key appends it. */
module Assoc {
  import opened Wrappers
  import opened Seqs

  type Dict<V> = seq<(string, V)>

  /** `Object.keys`, in insertion order. */
  function Keys<V>(a: Dict<V>): (r: seq<string>)
    ensures |r| == |a|
    ensures forall i :: 0 <= i < |a| ==> r[i] == a[i].0
  {
    seq(|a|, i requires 0 <= i < |a| => a[i].0)
  }

  /** `obj[k]`: the value stored under `k`, if any. */
  function Get<V>(a: Dict<V>, k: string): (r: Option<V>)
    ensures r.Some? <==> k in Keys(a)
    ensures r.Some? ==> (k, r.value) in a
  {
    if |a| == 0 then None
    else if a[0].0 == k then Some(a[0].1)
    else
      assert Keys(a) == [a[0].0] + Keys(a[1..]);
      Get(a[1..], k)
  }

  /** `obj[k] = f(obj[k])`: the new value is computed from the old one, if any. */
  function Upsert<V>(a: Dict<V>, k: string, f: Option<V> -> V): (r: Dict<V>)
    ensures Keys(r) == if k in Keys(a) then Keys(a) else Keys(a) + [k]
    ensures forall k' :: Get(r, k') == if k' == k then Some(f(Get(a, k))) else Get(a, k')
  {
    if |a| == 0 then
      var r := [(k, f(None))] + a;
      KeysCons((k, f(None)), a);
      GetCons((k, f(None)), a);
      r
    else
      KeysCons(a[0], a[1..]);
      GetCons(a[0], a[1..]);
      assert [a[0]] + a[1..] == a;
      if a[0].0 == k then
        var r := [(k, f(Some(a[0].1)))] + a[1..];
        KeysCons((k, f(Some(a[0].1))), a[1..]);
        GetCons((k, f(Some(a[0].1))), a[1..]);
        r
      else
        var rest := Upsert(a[1..], k, f);
        KeysCons(a[0], rest);
        GetCons(a[0], rest);
        [a[0]] + rest
  }

  lemma KeysCons<V>(x: (string, V), rest: Dict<V>)
    ensures Keys([x] + rest) == [x.0] + Keys(rest)
  {
  }

  /** Lookup in a dictionary with one more pair in front. */
  lemma GetCons<V>(x: (string, V), rest: Dict<V>)
    ensures forall k :: Get([x] + rest, k) == if x.0 == k then Some(x.1) else Get(rest, k)
  {
    assert ([x] + rest)[1..] == rest;
  }

  /** Transform every value, keeping keys and their order. */
  function MapValues<V, W>(a: Dict<V>, f: (string, V) -> W): (r: Dict<W>)
    ensures Keys(r) == Keys(a)
    ensures forall k :: Get(r, k) == if k in Keys(a) then Some(f(k, Get(a, k).value)) else None
  {
    if |a| == 0 then []
    else
      assert Keys(a) == [a[0].0] + Keys(a[1..]);
      var rest := MapValues(a[1..], f);
      assert Keys([(a[0].0, f(a[0].0, a[0].1))] + rest) == [a[0].0] + Keys(rest);
      [(a[0].0, f(a[0].0, a[0].1))] + rest
  }

  /** With duplicate-free keys, a stored pair is what lookup finds. */
  lemma {:induction false} GetStored<V>(a: Dict<V>, k: string, v: V)
    requires Distinct(Keys(a))
    requires (k, v) in a
    ensures Get(a, k) == Some(v)
  {
    var i :| 0 <= i < |a| && a[i] == (k, v);
    if i > 0 {
      assert Keys(a)[0] != Keys(a)[i];
      var tail := Keys(a[1..]);
      assert forall p, q :: 0 <= p < q < |tail| ==> tail[p] == Keys(a)[p + 1] && tail[q] == Keys(a)[q + 1];
      assert a[1..][i - 1] == (k, v);
      GetStored(a[1..], k, v);
    }
  }
}

=== FILE: canon.dfy ===
/** The alias table `CANON`, which maps the key of each known spelling of a
    course name to the course's canonical name, and `canonicalizeName`. */
module Canon {
  import opened Text
  import opened Naming

  /** One `set(raw, canonical)` call of the table, both names given as their
      words (the names themselves are the words joined by single spaces). */
  datatype Alias = Alias(raw: seq<string>, canonical: seq<string>)

  /** The number of `set` calls that fill the table. */
  const CanonCount := 42

  /** The `i`-th `set` call, in source order. */
  function CanonSet(i: nat): Alias
    requires i < CanonCount
  {
    if i == 0 then Alias(["An\U{E1}lise", "e", "Desenvolvimento", "de", "Sistemas"], ["Tecnologia", "em", "An\U{E1}lise", "e", "Desenvolvimento", "de", "Sistemas"])
    else if i == 1 then Alias(["Analise", "e", "Desenvolvimento", "de", "Sistemas"], ["Tecnologia", "em", "An\U{E1}lise", "e", "Desenvolvimento", "de", "Sistemas"])
    else if i == 2 then Alias(["Tecnologia", "em", "An\U{E1}lise", "e", "Desenvolvimento", "de", "Sistemas"], ["Tecnologia", "em", "An\U{E1}lise", "e", "Desenvolvimento", "de", "Sistemas"])
    else if i == 3 then Alias(["Log\U{ED}stica"], ["Tecnologia", "em", "Log\U{ED}stica"])
    else if i == 4 then Alias(["Tecnologia", "em", "Log\U{ED}stica"], ["Tecnologia", "em", "Log\U{ED}stica"])
    else if i == 5 then Alias(["Marketing"], ["Tecnologia", "em", "Marketing"])
    else if i == 6 then Alias(["Tecnologia", "em", "Marketing"], ["Tecnologia", "em", "Marketing"])
    else if i == 7 then Alias(["Gest\U{E3}o", "da", "Qualidade"], ["Tecnologia", "em", "Gest\U{E3}o", "da", "Qualidade"])
    else if i == 8 then Alias(["Tecnologia", "em", "Gest\U{E3}o", "da", "Qualidade"], ["Tecnologia", "em", "Gest\U{E3}o", "da", "Qualidade"])
    else if i == 9 then Alias(["Gest\U{E3}o", "de", "Recursos", "Humanos"], ["Tecnologia", "em", "Gest\U{E3}o", "de", "Recursos", "Humanos"])
    else if i == 10 then Alias(["Recursos", "Humanos"], ["Tecnologia", "em", "Gest\U{E3}o", "de", "Recursos", "Humanos"])
    else if i == 11 then Alias(["Tecnologia", "em", "Gest\U{E3}o", "de", "Recursos", "Humanos"], ["Tecnologia", "em", "Gest\U{E3}o", "de", "Recursos", "Humanos"])
    else if i == 12 then Alias(["Radiologia"], ["Tecnologia", "em", "Radiologia"])
    else if i == 13 then Alias(["Tecnologia", "em", "Radiologia"], ["Tecnologia", "em", "Radiologia"])
    else if i == 14 then Alias(["Seguran\U{E7}a", "no", "Trabalho"], ["Tecnologia", "em", "Seguran\U{E7}a", "no", "Trabalho"])
    else if i == 15 then Alias(["Tecnologia", "em", "Seguran\U{E7}a", "no", "Trabalho"], ["Tecnologia", "em", "Seguran\U{E7}a", "no", "Trabalho"])
    else if i == 16 then Alias(["Design", "Gr\U{E1}fico"], ["Tecnologia", "em", "Design", "Gr\U{E1}fico"])
    else if i == 17 then Alias(["Tecnologia", "em", "Design", "Gr\U{E1}fico"], ["Tecnologia", "em", "Design", "Gr\U{E1}fico"])
    else if i == 18 then Alias(["Est\U{E9}tica", "e", "Cosm\U{E9}tica"], ["Tecnologia", "em", "Est\U{E9}tica", "e", "Cosm\U{E9}tica"])
    else if i == 19 then Alias(["Tecnologia", "em", "Est\U{E9}tica", "e", "Cosm\U{E9}tica"], ["Tecnologia", "em", "Est\U{E9}tica", "e", "Cosm\U{E9}tica"])
    else if i == 20 then Alias(["Gastronomia"], ["Tecnologia", "em", "Gastronomia"])
    else if i == 21 then Alias(["Tecnologia", "em", "Gastronomia"], ["Tecnologia", "em", "Gastronomia"])
    else if i == 22 then Alias(["Fullstack"], ["Tecnologia", "em", "Desenvolvimento", "Full", "Stack"])
    else if i == 23 then Alias(["Tecnologia", "em", "Desenvolvimento", "Full", "Stack"], ["Tecnologia", "em", "Desenvolvimento", "Full", "Stack"])
    else if i == 24 then Alias(["Big", "Data", "e", "Intelig\U{EA}ncia", "Anal\U{ED}tica"], ["Tecnologia", "em", "Big", "Data", "e", "Intelig\U{EA}ncia", "Anal\U{ED}tica"])
    else if i == 25 then Alias(["Tecnologia", "em", "Big", "Data", "e", "Intelig\U{EA}ncia", "Anal\U{ED}tica"], ["Tecnologia", "em", "Big", "Data", "e", "Intelig\U{EA}ncia", "Anal\U{ED}tica"])
    else if i == 26 then Alias(["Ci\U{EA}ncias", "de", "Dados"], ["Tecnologia", "em", "Ci\U{EA}ncia", "de", "Dados"])
    else if i == 27 then Alias(["Tecnologia", "em", "Ci\U{EA}ncia", "de", "Dados"], ["Tecnologia", "em", "Ci\U{EA}ncia", "de", "Dados"])
    else if i == 28 then Alias(["Intelig\U{EA}ncia", "Artificial"], ["Tecnologia", "em", "Intelig\U{EA}ncia", "Artificial"])
    else if i == 29 then Alias(["Tecnologia", "em", "Intelig\U{EA}ncia", "Artificial"], ["Tecnologia", "em", "Intelig\U{EA}ncia", "Artificial"])
    else if i == 30 then Alias(["Internet", "das", "Coisas", "(IoT)"], ["Tecnologia", "em", "Internet", "das", "Coisas", "(IoT)"])
    else if i == 31 then Alias(["Tecnologia", "em", "Internet", "das", "Coisas", "(IoT)"], ["Tecnologia", "em", "Internet", "das", "Coisas", "(IoT)"])
    else if i == 32 then Alias(["Jogos", "Digitais"], ["Tecnologia", "em", "Jogos", "Digitais"])
    else if i == 33 then Alias(["Tecnologia", "em", "Jogos", "Digitais"], ["Tecnologia", "em", "Jogos", "Digitais"])
    else if i == 34 then Alias(["Gest\U{E3}o", "da", "Seguran\U{E7}a", "e", "Defesa", "Cibern\U{E9}tica"], ["Tecnologia", "em", "Gest\U{E3}o", "da", "Seguran\U{E7}a", "e", "Defesa", "Cibern\U{E9}tica"])
    else if i == 35 then Alias(["Tecnologia", "em", "Gest\U{E3}o", "da", "Seguran\U{E7}a", "e", "Defesa", "Cibern\U{E9}tica"], ["Tecnologia", "em", "Gest\U{E3}o", "da", "Seguran\U{E7}a", "e", "Defesa", "Cibern\U{E9}tica"])
    else if i == 36 then Alias(["Gest\U{E3}o", "de", "Servi\U{E7}os", "Jur\U{ED}dicos", "e", "Notariais"], ["Tecnologia", "em", "Gest\U{E3}o", "de", "Servi\U{E7}os", "Jur\U{ED}dicos", "e", "Notariais"])
    else if i == 37 then Alias(["Tecnologia", "em", "Gest\U{E3}o", "de", "Servi\U{E7}os", "Jur\U{ED}dicos", "e", "Notariais"], ["Tecnologia", "em", "Gest\U{E3}o", "de", "Servi\U{E7}os", "Jur\U{ED}dicos", "e", "Notariais"])
    else if i == 38 then Alias(["Redes", "de", "Computadores"], ["Redes", "de", "Computadores"])
    else if i == 39 then Alias(["Rede", "de", "Computadores"], ["Redes", "de", "Computadores"])
    else if i == 40 then Alias(["Engenharia", "Ambiental"], ["Engenharia", "Ambiental", "e", "Energias", "Renov\U{E1}veis"])
    else Alias(["Engenharia", "Ambiental", "e", "Energias", "Renov\U{E1}veis"], ["Engenharia", "Ambiental", "e", "Energias", "Renov\U{E1}veis"])
  }

  /** `normalizeKey(raw)` of the `i`-th call: the key it writes. */
  function AliasKey(i: nat): string
    requires i < CanonCount
  {
    NormalizeKey(Words(CanonSet(i).raw))
  }

  /** The canonical name the `i`-th call writes. */
  function AliasName(i: nat): string
    requires i < CanonCount
  {
    Words(CanonSet(i).canonical)
  }

  /** A `Map` filled by `map.set(key, value)` calls in order: a later call
      with the same key overwrites the earlier value. */
  function MapOfCalls(calls: seq<(string, string)>): map<string, string>
  {
    if |calls| == 0 then map[]
    else MapOfCalls(calls[..|calls| - 1])[calls[|calls| - 1].0 := calls[|calls| - 1].1]
  }

  /** No key is given two different values. */
  predicate ConsistentCalls(calls: seq<(string, string)>) {
    forall i, j :: 0 <= i < |calls| && 0 <= j < |calls| && calls[i].0 == calls[j].0 ==> calls[i].1 == calls[j].1
  }

  /** With consistent calls the map holds exactly the keys set, each with the
      value it was set to. */
  lemma {:induction false} MapOfConsistentCalls(calls: seq<(string, string)>)
    requires ConsistentCalls(calls)
    ensures forall i :: 0 <= i < |calls| ==> calls[i].0 in MapOfCalls(calls) && MapOfCalls(calls)[calls[i].0] == calls[i].1
    ensures forall k :: k in MapOfCalls(calls) ==> exists i :: 0 <= i < |calls| && calls[i].0 == k
  {
    if |calls| > 0 {
      var init := calls[..|calls| - 1];
      assert ConsistentCalls(init);
      MapOfConsistentCalls(init);
      forall k | k in MapOfCalls(calls)
        ensures exists i :: 0 <= i < |calls| && calls[i].0 == k
      {
        if k != calls[|calls| - 1].0 {
          var i :| 0 <= i < |init| && init[i].0 == k;
          assert calls[i].0 == k;
        }
      }
    }
  }

  /** The `set` calls as key/value pairs, in source order. */
  function CanonCalls(): (calls: seq<(string, string)>)
    ensures |calls| == CanonCount
    ensures forall i :: 0 <= i < CanonCount ==> calls[i] == (AliasKey(i), AliasName(i))
  {
    seq(CanonCount, i requires 0 <= i < CanonCount => (AliasKey(i), AliasName(i)))
  }

  /** `CANON`. */
  function Canon(): map<string, string> {
    MapOfCalls(CanonCalls())
  }

  /** Every word of every raw spelling is a plain word. */
  lemma RawWordsPlain(i: nat)
    requires i < CanonCount
    ensures forall k :: 0 <= k < |CanonSet(i).raw| ==> PlainWord(CanonSet(i).raw[k])
    ensures |CanonSet(i).raw| > 0
  {
    if i <= 6 {
      RawWordsPlainIn0(i);
    } else if i <= 13 {
      RawWordsPlainIn1(i);
    } else if i <= 20 {
      RawWordsPlainIn2(i);
    } else if i <= 27 {
      RawWordsPlainIn3(i);
    } else if i <= 34 {
      RawWordsPlainIn4(i);
    } else {
      RawWordsPlainIn5(i);
    }
  }

  /** The raw spellings are told apart by the number of words, the length of
      the last word and the folded first letter of the last word, packed into
      one number. */
  function Signature(ws: seq<string>): int {
    if |ws| == 0 || |ws[|ws| - 1]| == 0 then 0
    else |ws| * 1_000_000 + |ws[|ws| - 1]| * 10_000 + FoldChar(ws[|ws| - 1][0]) as int
  }

  /** The call whose raw spelling is the canonical name a signature belongs
      to (`CanonCount` for a signature of no call). */
  function SignatureOwner(sig: int): (j: nat)
    ensures j <= CanonCount
  {
    if sig == 5080115 then 2
    else if sig == 7080115 then 2
    else if sig == 1090108 then 4
    else if sig == 3090108 then 4
    else if sig == 1090109 then 6
    else if sig == 3090109 then 6
    else if sig == 3090113 then 8
    else if sig == 5090113 then 8
    else if sig == 4070104 then 11
    else if sig == 2070104 then 11
    else if sig == 6070104 then 11
    else if sig == 1100114 then 13
    else if sig == 3100114 then 13
    else if sig == 3080116 then 15
    else if sig == 5080116 then 15
    else if sig == 2070103 then 17
    else if sig == 4070103 then 17
    else if sig == 3090099 then 19
    else if sig == 5090099 then 19
    else if sig == 1110103 then 21
    else if sig == 3110103 then 21
    else if sig == 1090102 then 23
    else if sig == 5050115 then 23
    else if sig == 5090097 then 25
    else if sig == 7090097 then 25
    else if sig == 3050100 then 27
    else if sig == 5050100 then 27
    else if sig == 2100097 then 29
    else if sig == 4100097 then 29
    else if sig == 4050040 then 31
    else if sig == 6050040 then 31
    else if sig == 2080100 then 33
    else if sig == 4080100 then 33
    else if sig == 6110099 then 35
    else if sig == 8110099 then 35
    else if sig == 6090110 then 37
    else if sig == 8090110 then 37
    else if sig == 3120099 then 38
    else if sig == 2090097 then 41
    else if sig == 5100114 then 41
    else CanonCount
  }

  lemma SignatureDecides(i: nat)
    requires i < CanonCount
    ensures SignatureOwner(Signature(CanonSet(i).raw)) < CanonCount
    ensures CanonSet(SignatureOwner(Signature(CanonSet(i).raw))).canonical == CanonSet(i).canonical
    ensures CanonSet(SignatureOwner(Signature(CanonSet(i).raw))).raw == CanonSet(i).canonical
  {
    if i <= 6 {
      SignatureDecidesIn0(i);
    } else if i <= 13 {
      SignatureDecidesIn1(i);
    } else if i <= 20 {
      SignatureDecidesIn2(i);
    } else if i <= 27 {
      SignatureDecidesIn3(i);
    } else if i <= 34 {
      SignatureDecidesIn4(i);
    } else {
      SignatureDecidesIn5(i);
    }
  }

  /** Equal folded words give equal signatures. */
  lemma SignatureOfFolded(a: seq<string>, b: seq<string>)
    requires FoldAll(a) == FoldAll(b)
    ensures Signature(a) == Signature(b)
  {
    if |a| > 0 && |a[|a| - 1]| > 0 {
      assert Fold(a[|a| - 1]) == FoldAll(a)[|a| - 1] == Fold(b[|b| - 1]);
      assert Fold(a[|a| - 1])[0] == FoldChar(a[|a| - 1][0]);
      assert Fold(b[|b| - 1])[0] == FoldChar(b[|b| - 1][0]);
    }
  }

  /** The folded words of plain words are words. */
  lemma FoldAllWords(ws: seq<string>)
    requires forall k :: 0 <= k < |ws| ==> PlainWord(ws[k])
    ensures forall k :: 0 <= k < |ws| ==> Word(FoldAll(ws)[k])
  {
    forall k | 0 <= k < |ws|
      ensures Word(FoldAll(ws)[k])
    {
      FoldWordIsWord(ws[k]);
    }
  }

  /** The key of a call is its raw words, folded and joined; it is never empty. */
  lemma AliasKeyWords(i: nat)
    requires i < CanonCount
    ensures AliasKey(i) == Words(FoldAll(CanonSet(i).raw))
    ensures forall k :: 0 <= k < |CanonSet(i).raw| ==> Word(FoldAll(CanonSet(i).raw)[k])
    ensures AliasKey(i) != ""
  {
    var ws := CanonSet(i).raw;
    RawWordsPlain(i);
    KeyOfWords(ws);
    FoldAllWords(ws);
    assert Word(FoldAll(ws)[0]);
  }

  /** No two calls give one key two different canonical names. */
  lemma AliasKeysConsistent(i: nat, j: nat)
    requires i < CanonCount && j < CanonCount
    requires AliasKey(i) == AliasKey(j)
    ensures AliasName(i) == AliasName(j)
  {
    var a, b := CanonSet(i).raw, CanonSet(j).raw;
    AliasKeyWords(i);
    AliasKeyWords(j);
    WordsInjective(FoldAll(a), FoldAll(b));
    SignatureOfFolded(a, b);
    SignatureDecides(i);
    SignatureDecides(j);
  }

  /** `CANON` maps the key of every listed spelling to that spelling's canonical
      name, and holds nothing else. */
  lemma CanonEntries()
    ensures forall i :: 0 <= i < CanonCount ==> AliasKey(i) in Canon() && Canon()[AliasKey(i)] == AliasName(i)
    ensures forall k :: k in Canon() ==> exists i :: 0 <= i < CanonCount && AliasKey(i) == k
  {
    CanonHasEveryAlias();
    CanonHasOnlyAliases();
  }

  lemma CanonHasEveryAlias()
    ensures forall i :: 0 <= i < CanonCount ==> AliasKey(i) in Canon() && Canon()[AliasKey(i)] == AliasName(i)
  {
    CallsConsistent();
    var calls := CanonCalls();
    MapOfConsistentCalls(calls);
    forall i | 0 <= i < CanonCount
      ensures AliasKey(i) in Canon() && Canon()[AliasKey(i)] == AliasName(i)
    {
      assert calls[i] == (AliasKey(i), AliasName(i));
    }
  }

  lemma CanonHasOnlyAliases()
    ensures forall k :: k in Canon() ==> exists i :: 0 <= i < CanonCount && AliasKey(i) == k
  {
    CallsConsistent();
    MapOfConsistentCalls(CanonCalls());
  }

  /** No two `set` calls give one key two values. */
  lemma CallsConsistent()
    ensures ConsistentCalls(CanonCalls())
  {
    var calls := CanonCalls();
    forall i, j | 0 <= i < |calls| && 0 <= j < |calls| && calls[i].0 == calls[j].0
      ensures calls[i].1 == calls[j].1
    {
      AliasKeysConsistent(i, j);
    }
  }

  /** Every canonical name is itself a listed spelling, mapped to itself. */
  lemma CanonicalIsListed(i: nat)
    requires i < CanonCount
    ensures NormalizeKey(AliasName(i)) in Canon()
    ensures Canon()[NormalizeKey(AliasName(i))] == AliasName(i)
    ensures NormalizeKey(AliasName(i)) != "" && AliasName(i) != ""
  {
    SignatureDecides(i);
    var j := SignatureOwner(Signature(CanonSet(i).raw));
    assert NormalizeKey(AliasName(i)) == AliasKey(j);
    CanonEntries();
    AliasKeyWords(j);
    RawWordsPlain(j);
    assert |CanonSet(i).canonical[0]| > 0;
  }

  /** A name whose trimmed form is empty has the empty key. */
  lemma KeyOfBlank(s: string)
    requires Trim(s) == ""
    ensures NormalizeKey(s) == ""
  {
    assert Lower("") == "";
  }

  /** `canonicalizeName`: the empty string for a name with an empty key, the
      canonical name when the key is listed, and otherwise the trimmed name. */
  function CanonicalizeName(raw: string): (r: string)
    ensures r == "" <==> NormalizeKey(raw) == ""
    ensures NormalizeKey(raw) in Canon() ==>
      exists i :: 0 <= i < CanonCount && AliasKey(i) == NormalizeKey(raw) && r == AliasName(i)
    ensures NormalizeKey(raw) != "" && NormalizeKey(raw) !in Canon() ==> r == Trim(raw)
  {
    var key := NormalizeKey(raw);
    if key == "" then
      ListedKeyNonEmpty(key);
      ""
    else if key in Canon() && Canon()[key] != "" then
      Listed(key);
      Canon()[key]
    else
      Unlisted(raw);
      Trim(raw)
  }

  /** The empty key is not in `CANON`. */
  lemma ListedKeyNonEmpty(key: string)
    ensures key in Canon() ==> key != ""
  {
    if key in Canon() {
      Listed(key);
      var i :| 0 <= i < CanonCount && AliasKey(i) == key && Canon()[key] == AliasName(i);
      AliasKeyWords(i);
    }
  }

  /** A listed key belongs to a call and maps to that call's non-empty canonical name. */
  lemma Listed(key: string)
    requires key in Canon()
    ensures exists i :: 0 <= i < CanonCount && AliasKey(i) == key && Canon()[key] == AliasName(i)
    ensures Canon()[key] != ""
  {
    CanonEntries();
    var i :| 0 <= i < CanonCount && AliasKey(i) == key;
    CanonicalIsListed(i);
  }

  /** A name with a non-empty key falls through to its trimmed form only when
      the key is not listed, and that form is not empty. */
  lemma Unlisted(raw: string)
    requires NormalizeKey(raw) != ""
    requires !(NormalizeKey(raw) in Canon() && Canon()[NormalizeKey(raw)] != "")
    ensures NormalizeKey(raw) !in Canon()
    ensures Trim(raw) != ""
  {
    var key := NormalizeKey(raw);
    if key in Canon() {
      Listed(key);
    }
    if Trim(raw) == "" {
      KeyOfBlank(raw);
    }
  }

  /** Canonicalising a canonicalised name changes nothing. */
  lemma CanonicalizeIdempotent(raw: string)
    ensures CanonicalizeName(CanonicalizeName(raw)) == CanonicalizeName(raw)
  {
    var key := NormalizeKey(raw);
    var r := CanonicalizeName(raw);
    if key == "" {
      assert Trim("") == "";
      KeyOfBlank("");
    } else if key in Canon() {
      var i :| 0 <= i < CanonCount && AliasKey(i) == key && r == AliasName(i);
      CanonicalIsListed(i);
    } else {
      NormalizeKeyOfTrim(raw);
      TrimIdempotent(raw);
    }
  }

  lemma RawWordsPlainIn0(i: nat)
    requires 0 <= i <= 6
    ensures forall k :: 0 <= k < |CanonSet(i).raw| ==> PlainWord(CanonSet(i).raw[k])
    ensures |CanonSet(i).raw| > 0
  {
    if i == 0 {
      RawWordsPlainAt0(i);
    } else if i == 1 {
      RawWordsPlainAt1(i);
    } else if i == 2 {
      RawWordsPlainAt2(i);
    } else if i == 3 {
      RawWordsPlainAt3(i);
    } else if i == 4 {
      RawWordsPlainAt4(i);
    } else if i == 5 {
      RawWordsPlainAt5(i);
    } else {
      RawWordsPlainAt6(i);
    }
  }

  lemma RawWordsPlainIn1(i: nat)
    requires 7 <= i <= 13
    ensures forall k :: 0 <= k < |CanonSet(i).raw| ==> PlainWord(CanonSet(i).raw[k])
    ensures |CanonSet(i).raw| > 0
  {
    if i == 7 {
      RawWordsPlainAt7(i);
    } else if i == 8 {
      RawWordsPlainAt8(i);
    } else if i == 9 {
      RawWordsPlainAt9(i);
    } else if i == 10 {
      RawWordsPlainAt10(i);
    } else if i == 11 {
      RawWordsPlainAt11(i);
    } else if i == 12 {
      RawWordsPlainAt12(i);
    } else {
      RawWordsPlainAt13(i);
    }
  }

  lemma RawWordsPlainIn2(i: nat)
    requires 14 <= i <= 20
    ensures forall k :: 0 <= k < |CanonSet(i).raw| ==> PlainWord(CanonSet(i).raw[k])
    ensures |CanonSet(i).raw| > 0
  {
    if i == 14 {
      RawWordsPlainAt14(i);
    } else if i == 15 {
      RawWordsPlainAt15(i);
    } else if i == 16 {
      RawWordsPlainAt16(i);
    } else if i == 17 {
      RawWordsPlainAt17(i);
    } else if i == 18 {
      RawWordsPlainAt18(i);
    } else if i == 19 {
      RawWordsPlainAt19(i);
    } else {
      RawWordsPlainAt20(i);
    }
  }

  lemma RawWordsPlainIn3(i: nat)
    requires 21 <= i <= 27
    ensures forall k :: 0 <= k < |CanonSet(i).raw| ==> PlainWord(CanonSet(i).raw[k])
    ensures |CanonSet(i).raw| > 0
  {
    if i == 21 {
      RawWordsPlainAt21(i);
    } else if i == 22 {
      RawWordsPlainAt22(i);
    } else if i == 23 {
      RawWordsPlainAt23(i);
    } else if i == 24 {
      RawWordsPlainAt24(i);
    } else if i == 25 {
      RawWordsPlainAt25(i);
    } else if i == 26 {
      RawWordsPlainAt26(i);
    } else {
      RawWordsPlainAt27(i);
    }
  }

  lemma RawWordsPlainIn4(i: nat)
    requires 28 <= i <= 34
    ensures forall k :: 0 <= k < |CanonSet(i).raw| ==> PlainWord(CanonSet(i).raw[k])
    ensures |CanonSet(i).raw| > 0
  {
    if i == 28 {
      RawWordsPlainAt28(i);
    } else if i == 29 {
      RawWordsPlainAt29(i);
    } else if i == 30 {
      RawWordsPlainAt30(i);
    } else if i == 31 {
      RawWordsPlainAt31(i);
    } else if i == 32 {
      RawWordsPlainAt32(i);
    } else if i == 33 {
      RawWordsPlainAt33(i);
    } else {
      RawWordsPlainAt34(i);
    }
  }

  lemma RawWordsPlainIn5(i: nat)
    requires 35 <= i <= 41
    ensures forall k :: 0 <= k < |CanonSet(i).raw| ==> PlainWord(CanonSet(i).raw[k])
    ensures |CanonSet(i).raw| > 0
  {
    if i == 35 {
      RawWordsPlainAt35(i);
    } else if i == 36 {
      RawWordsPlainAt36(i);
    } else if i == 37 {
      RawWordsPlainAt37(i);
    } else if i == 38 {
      RawWordsPlainAt38(i);
    } else if i == 39 {
      RawWordsPlainAt39(i);
    } else if i == 40 {
      RawWordsPlainAt40(i);
    } else {
      RawWordsPlainAt41(i);
    }
  }

  lemma SignatureDecidesIn0(i: nat)
    requires 0 <= i <= 6
    ensures SignatureOwner(Signature(CanonSet(i).raw)) < CanonCount
    ensures CanonSet(SignatureOwner(Signature(CanonSet(i).raw))).canonical == CanonSet(i).canonical
    ensures CanonSet(SignatureOwner(Signature(CanonSet(i).raw))).raw == CanonSet(i).canonical
  {
    if i == 0 {
      SignatureDecidesAt0(i);
    } else if i == 1 {
      SignatureDecidesAt1(i);
    } else if i == 2 {
      SignatureDecidesAt2(i);
    } else if i == 3 {
      SignatureDecidesAt3(i);
    } else if i == 4 {
      SignatureDecidesAt4(i);
    } else if i == 5 {
      SignatureDecidesAt5(i);
    } else {
      SignatureDecidesAt6(i);
    }
  }

  lemma SignatureDecidesIn1(i: nat)
    requires 7 <= i <= 13
    ensures SignatureOwner(Signature(CanonSet(i).raw)) < CanonCount
    ensures CanonSet(SignatureOwner(Signature(CanonSet(i).raw))).canonical == CanonSet(i).canonical
    ensures CanonSet(SignatureOwner(Signature(CanonSet(i).raw))).raw == CanonSet(i).canonical
  {
    if i == 7 {
      SignatureDecidesAt7(i);
    } else if i == 8 {
      SignatureDecidesAt8(i);
    } else if i == 9 {
      SignatureDecidesAt9(i);
    } else if i == 10 {
      SignatureDecidesAt10(i);
    } else if i == 11 {
      SignatureDecidesAt11(i);
    } else if i == 12 {
      SignatureDecidesAt12(i);
    } else {
      SignatureDecidesAt13(i);
    }
  }

  lemma SignatureDecidesIn2(i: nat)
    requires 14 <= i <= 20
    ensures SignatureOwner(Signature(CanonSet(i).raw)) < CanonCount
    ensures CanonSet(SignatureOwner(Signature(CanonSet(i).raw))).canonical == CanonSet(i).canonical
    ensures CanonSet(SignatureOwner(Signature(CanonSet(i).raw))).raw == CanonSet(i).canonical
  {
    if i == 14 {
      SignatureDecidesAt14(i);
    } else if i == 15 {
      SignatureDecidesAt15(i);
    } else if i == 16 {
      SignatureDecidesAt16(i);
    } else if i == 17 {
      SignatureDecidesAt17(i);
    } else if i == 18 {
      SignatureDecidesAt18(i);
    } else if i == 19 {
      SignatureDecidesAt19(i);
    } else {
      SignatureDecidesAt20(i);
    }
  }

  lemma SignatureDecidesIn3(i: nat)
    requires 21 <= i <= 27
    ensures SignatureOwner(Signature(CanonSet(i).raw)) < CanonCount
    ensures CanonSet(SignatureOwner(Signature(CanonSet(i).raw))).canonical == CanonSet(i).canonical
    ensures CanonSet(SignatureOwner(Signature(CanonSet(i).raw))).raw == CanonSet(i).canonical
  {
    if i == 21 {
      SignatureDecidesAt21(i);
    } else if i == 22 {
      SignatureDecidesAt22(i);
    } else if i == 23 {
      SignatureDecidesAt23(i);
    } else if i == 24 {
      SignatureDecidesAt24(i);
    } else if i == 25 {
      SignatureDecidesAt25(i);
    } else if i == 26 {
      SignatureDecidesAt26(i);
    } else {
      SignatureDecidesAt27(i);
    }
  }

  lemma SignatureDecidesIn4(i: nat)
    requires 28 <= i <= 34
    ensures SignatureOwner(Signature(CanonSet(i).raw)) < CanonCount
    ensures CanonSet(SignatureOwner(Signature(CanonSet(i).raw))).canonical == CanonSet(i).canonical
    ensures CanonSet(SignatureOwner(Signature(CanonSet(i).raw))).raw == CanonSet(i).canonical
  {
    if i == 28 {
      SignatureDecidesAt28(i);
    } else if i == 29 {
      SignatureDecidesAt29(i);
    } else if i == 30 {
      SignatureDecidesAt30(i);
    } else if i == 31 {
      SignatureDecidesAt31(i);
    } else if i == 32 {
      SignatureDecidesAt32(i);
    } else if i == 33 {
      SignatureDecidesAt33(i);
    } else {
      SignatureDecidesAt34(i);
    }
  }

  lemma SignatureDecidesIn5(i: nat)
    requires 35 <= i <= 41
    ensures SignatureOwner(Signature(CanonSet(i).raw)) < CanonCount
    ensures CanonSet(SignatureOwner(Signature(CanonSet(i).raw))).canonical == CanonSet(i).canonical
    ensures CanonSet(SignatureOwner(Signature(CanonSet(i).raw))).raw == CanonSet(i).canonical
  {
    if i == 35 {
      SignatureDecidesAt35(i);
    } else if i == 36 {
      SignatureDecidesAt36(i);
    } else if i == 37 {
      SignatureDecidesAt37(i);
    } else if i == 38 {
      SignatureDecidesAt38(i);
    } else if i == 39 {
      SignatureDecidesAt39(i);
    } else if i == 40 {
      SignatureDecidesAt40(i);
    } else {
      SignatureDecidesAt41(i);
    }
  }

  lemma RawWordsPlainAt0(i: nat)
    requires i == 0
    ensures forall k :: 0 <= k < |CanonSet(i).raw| ==> PlainWord(CanonSet(i).raw[k])
    ensures |CanonSet(i).raw| > 0
  {
  }

  lemma RawWordsPlainAt1(i: nat)
    requires i == 1
    ensures forall k :: 0 <= k < |CanonSet(i).raw| ==> PlainWord(CanonSet(i).raw[k])
    ensures |CanonSet(i).raw| > 0
  {
  }

  lemma RawWordsPlainAt2(i: nat)
    requires i == 2
    ensures forall k :: 0 <= k < |CanonSet(i).raw| ==> PlainWord(CanonSet(i).raw[k])
    ensures |CanonSet(i).raw| > 0
  {
  }

  lemma RawWordsPlainAt3(i: nat)
    requires i == 3
    ensures forall k :: 0 <= k < |CanonSet(i).raw| ==> PlainWord(CanonSet(i).raw[k])
    ensures |CanonSet(i).raw| > 0
  {
  }

  lemma RawWordsPlainAt4(i: nat)
    requires i == 4
    ensures forall k :: 0 <= k < |CanonSet(i).raw| ==> PlainWord(CanonSet(i).raw[k])
    ensures |CanonSet(i).raw| > 0
  {
  }

  lemma RawWordsPlainAt5(i: nat)
    requires i == 5
    ensures forall k :: 0 <= k < |CanonSet(i).raw| ==> PlainWord(CanonSet(i).raw[k])
    ensures |CanonSet(i).raw| > 0
  {
  }

  lemma RawWordsPlainAt6(i: nat)
    requires i == 6
    ensures forall k :: 0 <= k < |CanonSet(i).raw| ==> PlainWord(CanonSet(i).raw[k])
    ensures |CanonSet(i).raw| > 0
  {
  }

  lemma RawWordsPlainAt7(i: nat)
    requires i == 7
    ensures forall k :: 0 <= k < |CanonSet(i).raw| ==> PlainWord(CanonSet(i).raw[k])
    ensures |CanonSet(i).raw| > 0
  {
  }

  lemma RawWordsPlainAt8(i: nat)
    requires i == 8
    ensures forall k :: 0 <= k < |CanonSet(i).raw| ==> PlainWord(CanonSet(i).raw[k])
    ensures |CanonSet(i).raw| > 0
  {
  }

  lemma RawWordsPlainAt9(i: nat)
    requires i == 9
    ensures forall k :: 0 <= k < |CanonSet(i).raw| ==> PlainWord(CanonSet(i).raw[k])
    ensures |CanonSet(i).raw| > 0
  {
  }

  lemma RawWordsPlainAt10(i: nat)
    requires i == 10
    ensures forall k :: 0 <= k < |CanonSet(i).raw| ==> PlainWord(CanonSet(i).raw[k])
    ensures |CanonSet(i).raw| > 0
  {
  }

  lemma RawWordsPlainAt11(i: nat)
    requires i == 11
    ensures forall k :: 0 <= k < |CanonSet(i).raw| ==> PlainWord(CanonSet(i).raw[k])
    ensures |CanonSet(i).raw| > 0
  {
  }

  lemma RawWordsPlainAt12(i: nat)
    requires i == 12
    ensures forall k :: 0 <= k < |CanonSet(i).raw| ==> PlainWord(CanonSet(i).raw[k])
    ensures |CanonSet(i).raw| > 0
  {
  }

  lemma RawWordsPlainAt13(i: nat)
    requires i == 13
    ensures forall k :: 0 <= k < |CanonSet(i).raw| ==> PlainWord(CanonSet(i).raw[k])
    ensures |CanonSet(i).raw| > 0
  {
  }

  lemma RawWordsPlainAt14(i: nat)
    requires i == 14
    ensures forall k :: 0 <= k < |CanonSet(i).raw| ==> PlainWord(CanonSet(i).raw[k])
    ensures |CanonSet(i).raw| > 0
  {
  }

  lemma RawWordsPlainAt15(i: nat)
    requires i == 15
    ensures forall k :: 0 <= k < |CanonSet(i).raw| ==> PlainWord(CanonSet(i).raw[k])
    ensures |CanonSet(i).raw| > 0
  {
  }

  lemma RawWordsPlainAt16(i: nat)
    requires i == 16
    ensures forall k :: 0 <= k < |CanonSet(i).raw| ==> PlainWord(CanonSet(i).raw[k])
    ensures |CanonSet(i).raw| > 0
  {
  }

  lemma RawWordsPlainAt17(i: nat)
    requires i == 17
    ensures forall k :: 0 <= k < |CanonSet(i).raw| ==> PlainWord(CanonSet(i).raw[k])
    ensures |CanonSet(i).raw| > 0
  {
  }

  lemma RawWordsPlainAt18(i: nat)
    requires i == 18
    ensures forall k :: 0 <= k < |CanonSet(i).raw| ==> PlainWord(CanonSet(i).raw[k])
    ensures |CanonSet(i).raw| > 0
  {
  }

  lemma RawWordsPlainAt19(i: nat)
    requires i == 19
    ensures forall k :: 0 <= k < |CanonSet(i).raw| ==> PlainWord(CanonSet(i).raw[k])
    ensures |CanonSet(i).raw| > 0
  {
  }

  lemma RawWordsPlainAt20(i: nat)
    requires i == 20
    ensures forall k :: 0 <= k < |CanonSet(i).raw| ==> PlainWord(CanonSet(i).raw[k])
    ensures |CanonSet(i).raw| > 0
  {
  }

  lemma RawWordsPlainAt21(i: nat)
    requires i == 21
    ensures forall k :: 0 <= k < |CanonSet(i).raw| ==> PlainWord(CanonSet(i).raw[k])
    ensures |CanonSet(i).raw| > 0
  {
  }

  lemma RawWordsPlainAt22(i: nat)
    requires i == 22
    ensures forall k :: 0 <= k < |CanonSet(i).raw| ==> PlainWord(CanonSet(i).raw[k])
    ensures |CanonSet(i).raw| > 0
  {
  }

  lemma RawWordsPlainAt23(i: nat)
    requires i == 23
    ensures forall k :: 0 <= k < |CanonSet(i).raw| ==> PlainWord(CanonSet(i).raw[k])
    ensures |CanonSet(i).raw| > 0
  {
  }

  lemma RawWordsPlainAt24(i: nat)
    requires i == 24
    ensures forall k :: 0 <= k < |CanonSet(i).raw| ==> PlainWord(CanonSet(i).raw[k])
    ensures |CanonSet(i).raw| > 0
  {
  }

  lemma RawWordsPlainAt25(i: nat)
    requires i == 25
    ensures forall k :: 0 <= k < |CanonSet(i).raw| ==> PlainWord(CanonSet(i).raw[k])
    ensures |CanonSet(i).raw| > 0
  {
  }

  lemma RawWordsPlainAt26(i: nat)
    requires i == 26
    ensures forall k :: 0 <= k < |CanonSet(i).raw| ==> PlainWord(CanonSet(i).raw[k])
    ensures |CanonSet(i).raw| > 0
  {
  }

  lemma RawWordsPlainAt27(i: nat)
    requires i == 27
    ensures forall k :: 0 <= k < |CanonSet(i).raw| ==> PlainWord(CanonSet(i).raw[k])
    ensures |CanonSet(i).raw| > 0
  {
  }

  lemma RawWordsPlainAt28(i: nat)
    requires i == 28
    ensures forall k :: 0 <= k < |CanonSet(i).raw| ==> PlainWord(CanonSet(i).raw[k])
    ensures |CanonSet(i).raw| > 0
  {
  }

  lemma RawWordsPlainAt29(i: nat)
    requires i == 29
    ensures forall k :: 0 <= k < |CanonSet(i).raw| ==> PlainWord(CanonSet(i).raw[k])
    ensures |CanonSet(i).raw| > 0
  {
  }

  lemma RawWordsPlainAt30(i: nat)
    requires i == 30
    ensures forall k :: 0 <= k < |CanonSet(i).raw| ==> PlainWord(CanonSet(i).raw[k])
    ensures |CanonSet(i).raw| > 0
  {
  }

  lemma RawWordsPlainAt31(i: nat)
    requires i == 31
    ensures forall k :: 0 <= k < |CanonSet(i).raw| ==> PlainWord(CanonSet(i).raw[k])
    ensures |CanonSet(i).raw| > 0
  {
  }

  lemma RawWordsPlainAt32(i: nat)
    requires i == 32
    ensures forall k :: 0 <= k < |CanonSet(i).raw| ==> PlainWord(CanonSet(i).raw[k])
    ensures |CanonSet(i).raw| > 0
  {
  }

  lemma RawWordsPlainAt33(i: nat)
    requires i == 33
    ensures forall k :: 0 <= k < |CanonSet(i).raw| ==> PlainWord(CanonSet(i).raw[k])
    ensures |CanonSet(i).raw| > 0
  {
  }

  lemma RawWordsPlainAt34(i: nat)
    requires i == 34
    ensures forall k :: 0 <= k < |CanonSet(i).raw| ==> PlainWord(CanonSet(i).raw[k])
    ensures |CanonSet(i).raw| > 0
  {
  }

  lemma RawWordsPlainAt35(i: nat)
    requires i == 35
    ensures forall k :: 0 <= k < |CanonSet(i).raw| ==> PlainWord(CanonSet(i).raw[k])
    ensures |CanonSet(i).raw| > 0
  {
  }

  lemma RawWordsPlainAt36(i: nat)
    requires i == 36
    ensures forall k :: 0 <= k < |CanonSet(i).raw| ==> PlainWord(CanonSet(i).raw[k])
    ensures |CanonSet(i).raw| > 0
  {
  }

  lemma RawWordsPlainAt37(i: nat)
    requires i == 37
    ensures forall k :: 0 <= k < |CanonSet(i).raw| ==> PlainWord(CanonSet(i).raw[k])
    ensures |CanonSet(i).raw| > 0
  {
  }

  lemma RawWordsPlainAt38(i: nat)
    requires i == 38
    ensures forall k :: 0 <= k < |CanonSet(i).raw| ==> PlainWord(CanonSet(i).raw[k])
    ensures |CanonSet(i).raw| > 0
  {
  }

  lemma RawWordsPlainAt39(i: nat)
    requires i == 39
    ensures forall k :: 0 <= k < |CanonSet(i).raw| ==> PlainWord(CanonSet(i).raw[k])
    ensures |CanonSet(i).raw| > 0
  {
  }

  lemma RawWordsPlainAt40(i: nat)
    requires i == 40
    ensures forall k :: 0 <= k < |CanonSet(i).raw| ==> PlainWord(CanonSet(i).raw[k])
    ensures |CanonSet(i).raw| > 0
  {
  }

  lemma RawWordsPlainAt41(i: nat)
    requires i == 41
    ensures forall k :: 0 <= k < |CanonSet(i).raw| ==> PlainWord(CanonSet(i).raw[k])
    ensures |CanonSet(i).raw| > 0
  {
  }

  lemma SignatureDecidesAt0(i: nat)
    requires i == 0
    ensures SignatureOwner(Signature(CanonSet(i).raw)) < CanonCount
    ensures CanonSet(SignatureOwner(Signature(CanonSet(i).raw))).canonical == CanonSet(i).canonical
    ensures CanonSet(SignatureOwner(Signature(CanonSet(i).raw))).raw == CanonSet(i).canonical
  {
    assert Signature(CanonSet(i).raw) == 5080115;
    assert SignatureOwner(5080115) == 2;
  }

  lemma SignatureDecidesAt1(i: nat)
    requires i == 1
    ensures SignatureOwner(Signature(CanonSet(i).raw)) < CanonCount
    ensures CanonSet(SignatureOwner(Signature(CanonSet(i).raw))).canonical == CanonSet(i).canonical
    ensures CanonSet(SignatureOwner(Signature(CanonSet(i).raw))).raw == CanonSet(i).canonical
  {
    assert Signature(CanonSet(i).raw) == 5080115;
    assert SignatureOwner(5080115) == 2;
  }

  lemma SignatureDecidesAt2(i: nat)
    requires i == 2
    ensures SignatureOwner(Signature(CanonSet(i).raw)) < CanonCount
    ensures CanonSet(SignatureOwner(Signature(CanonSet(i).raw))).canonical == CanonSet(i).canonical
    ensures CanonSet(SignatureOwner(Signature(CanonSet(i).raw))).raw == CanonSet(i).canonical
  {
    assert Signature(CanonSet(i).raw) == 7080115;
    assert SignatureOwner(7080115) == 2;
  }

  lemma SignatureDecidesAt3(i: nat)
    requires i == 3
    ensures SignatureOwner(Signature(CanonSet(i).raw)) < CanonCount
    ensures CanonSet(SignatureOwner(Signature(CanonSet(i).raw))).canonical == CanonSet(i).canonical
    ensures CanonSet(SignatureOwner(Signature(CanonSet(i).raw))).raw == CanonSet(i).canonical
  {
    assert Signature(CanonSet(i).raw) == 1090108;
    assert SignatureOwner(1090108) == 4;
  }

  lemma SignatureDecidesAt4(i: nat)
    requires i == 4
    ensures SignatureOwner(Signature(CanonSet(i).raw)) < CanonCount
    ensures CanonSet(SignatureOwner(Signature(CanonSet(i).raw))).canonical == CanonSet(i).canonical
    ensures CanonSet(SignatureOwner(Signature(CanonSet(i).raw))).raw == CanonSet(i).canonical
  {
    assert Signature(CanonSet(i).raw) == 3090108;
    assert SignatureOwner(3090108) == 4;
  }

  lemma SignatureDecidesAt5(i: nat)
    requires i == 5
    ensures SignatureOwner(Signature(CanonSet(i).raw)) < CanonCount
    ensures CanonSet(SignatureOwner(Signature(CanonSet(i).raw))).canonical == CanonSet(i).canonical
    ensures CanonSet(SignatureOwner(Signature(CanonSet(i).raw))).raw == CanonSet(i).canonical
  {
    assert Signature(CanonSet(i).raw) == 1090109;
    assert SignatureOwner(1090109) == 6;
  }

  lemma SignatureDecidesAt6(i: nat)
    requires i == 6
    ensures SignatureOwner(Signature(CanonSet(i).raw)) < CanonCount
    ensures CanonSet(SignatureOwner(Signature(CanonSet(i).raw))).canonical == CanonSet(i).canonical
    ensures CanonSet(SignatureOwner(Signature(CanonSet(i).raw))).raw == CanonSet(i).canonical
  {
    assert Signature(CanonSet(i).raw) == 3090109;
    assert SignatureOwner(3090109) == 6;
  }

  lemma SignatureDecidesAt7(i: nat)
    requires i == 7
    ensures SignatureOwner(Signature(CanonSet(i).raw)) < CanonCount
    ensures CanonSet(SignatureOwner(Signature(CanonSet(i).raw))).canonical == CanonSet(i).canonical
    ensures CanonSet(SignatureOwner(Signature(CanonSet(i).raw))).raw == CanonSet(i).canonical
  {
    assert Signature(CanonSet(i).raw) == 3090113;
    assert SignatureOwner(3090113) == 8;
  }

  lemma SignatureDecidesAt8(i: nat)
    requires i == 8
    ensures SignatureOwner(Signature(CanonSet(i).raw)) < CanonCount
    ensures CanonSet(SignatureOwner(Signature(CanonSet(i).raw))).canonical == CanonSet(i).canonical
    ensures CanonSet(SignatureOwner(Signature(CanonSet(i).raw))).raw == CanonSet(i).canonical
  {
    assert Signature(CanonSet(i).raw) == 5090113;
    assert SignatureOwner(5090113) == 8;
  }

  lemma SignatureDecidesAt9(i: nat)
    requires i == 9
    ensures SignatureOwner(Signature(CanonSet(i).raw)) < CanonCount
    ensures CanonSet(SignatureOwner(Signature(CanonSet(i).raw))).canonical == CanonSet(i).canonical
    ensures CanonSet(SignatureOwner(Signature(CanonSet(i).raw))).raw == CanonSet(i).canonical
  {
    assert Signature(CanonSet(i).raw) == 4070104;
    assert SignatureOwner(4070104) == 11;
  }

  lemma SignatureDecidesAt10(i: nat)
    requires i == 10
    ensures SignatureOwner(Signature(CanonSet(i).raw)) < CanonCount
    ensures CanonSet(SignatureOwner(Signature(CanonSet(i).raw))).canonical == CanonSet(i).canonical
    ensures CanonSet(SignatureOwner(Signature(CanonSet(i).raw))).raw == CanonSet(i).canonical
  {
    assert Signature(CanonSet(i).raw) == 2070104;
    assert SignatureOwner(2070104) == 11;
  }

  lemma SignatureDecidesAt11(i: nat)
    requires i == 11
    ensures SignatureOwner(Signature(CanonSet(i).raw)) < CanonCount
    ensures CanonSet(SignatureOwner(Signature(CanonSet(i).raw))).canonical == CanonSet(i).canonical
    ensures CanonSet(SignatureOwner(Signature(CanonSet(i).raw))).raw == CanonSet(i).canonical
  {
    assert Signature(CanonSet(i).raw) == 6070104;
    assert SignatureOwner(6070104) == 11;
  }

  lemma SignatureDecidesAt12(i: nat)
    requires i == 12
    ensures SignatureOwner(Signature(CanonSet(i).raw)) < CanonCount
    ensures CanonSet(SignatureOwner(Signature(CanonSet(i).raw))).canonical == CanonSet(i).canonical
    ensures CanonSet(SignatureOwner(Signature(CanonSet(i).raw))).raw == CanonSet(i).canonical
  {
    assert Signature(CanonSet(i).raw) == 1100114;
    assert SignatureOwner(1100114) == 13;
  }

  lemma SignatureDecidesAt13(i: nat)
    requires i == 13
    ensures SignatureOwner(Signature(CanonSet(i).raw)) < CanonCount
    ensures CanonSet(SignatureOwner(Signature(CanonSet(i).raw))).canonical == CanonSet(i).canonical
    ensures CanonSet(SignatureOwner(Signature(CanonSet(i).raw))).raw == CanonSet(i).canonical
  {
    assert Signature(CanonSet(i).raw) == 3100114;
    assert SignatureOwner(3100114) == 13;
  }

  lemma SignatureDecidesAt14(i: nat)
    requires i == 14
    ensures SignatureOwner(Signature(CanonSet(i).raw)) < CanonCount
    ensures CanonSet(SignatureOwner(Signature(CanonSet(i).raw))).canonical == CanonSet(i).canonical
    ensures CanonSet(SignatureOwner(Signature(CanonSet(i).raw))).raw == CanonSet(i).canonical
  {
    SignatureAt14();
    OwnerOf3080116();
    SameCanonical14();
  }

  lemma SignatureAt14()
    ensures Signature(CanonSet(14).raw) == 3080116
  {
  }

  lemma OwnerOf3080116()
    ensures SignatureOwner(3080116) == 15
  {
  }

  lemma SameCanonical14()
    ensures CanonSet(15).canonical == CanonSet(14).canonical
    ensures CanonSet(15).raw == CanonSet(14).canonical
  {
  }

  lemma SignatureDecidesAt15(i: nat)
    requires i == 15
    ensures SignatureOwner(Signature(CanonSet(i).raw)) < CanonCount
    ensures CanonSet(SignatureOwner(Signature(CanonSet(i).raw))).canonical == CanonSet(i).canonical
    ensures CanonSet(SignatureOwner(Signature(CanonSet(i).raw))).raw == CanonSet(i).canonical
  {
    assert Signature(CanonSet(i).raw) == 5080116;
    assert SignatureOwner(5080116) == 15;
  }

  lemma SignatureDecidesAt16(i: nat)
    requires i == 16
    ensures SignatureOwner(Signature(CanonSet(i).raw)) < CanonCount
    ensures CanonSet(SignatureOwner(Signature(CanonSet(i).raw))).canonical == CanonSet(i).canonical
    ensures CanonSet(SignatureOwner(Signature(CanonSet(i).raw))).raw == CanonSet(i).canonical
  {
    assert Signature(CanonSet(i).raw) == 2070103;
    assert SignatureOwner(2070103) == 17;
  }

  lemma SignatureDecidesAt17(i: nat)
    requires i == 17
    ensures SignatureOwner(Signature(CanonSet(i).raw)) < CanonCount
    ensures CanonSet(SignatureOwner(Signature(CanonSet(i).raw))).canonical == CanonSet(i).canonical
    ensures CanonSet(SignatureOwner(Signature(CanonSet(i).raw))).raw == CanonSet(i).canonical
  {
    assert Signature(CanonSet(i).raw) == 4070103;
    assert SignatureOwner(4070103) == 17;
  }

  lemma SignatureDecidesAt18(i: nat)
    requires i == 18
    ensures SignatureOwner(Signature(CanonSet(i).raw)) < CanonCount
    ensures CanonSet(SignatureOwner(Signature(CanonSet(i).raw))).canonical == CanonSet(i).canonical
    ensures CanonSet(SignatureOwner(Signature(CanonSet(i).raw))).raw == CanonSet(i).canonical
  {
    assert Signature(CanonSet(i).raw) == 3090099;
    assert SignatureOwner(3090099) == 19;
  }

  lemma SignatureDecidesAt19(i: nat)
    requires i == 19
    ensures SignatureOwner(Signature(CanonSet(i).raw)) < CanonCount
    ensures CanonSet(SignatureOwner(Signature(CanonSet(i).raw))).canonical == CanonSet(i).canonical
    ensures CanonSet(SignatureOwner(Signature(CanonSet(i).raw))).raw == CanonSet(i).canonical
  {
    assert Signature(CanonSet(i).raw) == 5090099;
    assert SignatureOwner(5090099) == 19;
  }

  lemma SignatureDecidesAt20(i: nat)
    requires i == 20
    ensures SignatureOwner(Signature(CanonSet(i).raw)) < CanonCount
    ensures CanonSet(SignatureOwner(Signature(CanonSet(i).raw))).canonical == CanonSet(i).canonical
    ensures CanonSet(SignatureOwner(Signature(CanonSet(i).raw))).raw == CanonSet(i).canonical
  {
    assert Signature(CanonSet(i).raw) == 1110103;
    assert SignatureOwner(1110103) == 21;
  }

  lemma SignatureDecidesAt21(i: nat)
    requires i == 21
    ensures SignatureOwner(Signature(CanonSet(i).raw)) < CanonCount
    ensures CanonSet(SignatureOwner(Signature(CanonSet(i).raw))).canonical == CanonSet(i).canonical
    ensures CanonSet(SignatureOwner(Signature(CanonSet(i).raw))).raw == CanonSet(i).canonical
  {
    assert Signature(CanonSet(i).raw) == 3110103;
    assert SignatureOwner(3110103) == 21;
  }

  lemma SignatureDecidesAt22(i: nat)
    requires i == 22
    ensures SignatureOwner(Signature(CanonSet(i).raw)) < CanonCount
    ensures CanonSet(SignatureOwner(Signature(CanonSet(i).raw))).canonical == CanonSet(i).canonical
    ensures CanonSet(SignatureOwner(Signature(CanonSet(i).raw))).raw == CanonSet(i).canonical
  {
    assert Signature(CanonSet(i).raw) == 1090102;
    assert SignatureOwner(1090102) == 23;
  }

  lemma SignatureDecidesAt23(i: nat)
    requires i == 23
    ensures SignatureOwner(Signature(CanonSet(i).raw)) < CanonCount
    ensures CanonSet(SignatureOwner(Signature(CanonSet(i).raw))).canonical == CanonSet(i).canonical
    ensures CanonSet(SignatureOwner(Signature(CanonSet(i).raw))).raw == CanonSet(i).canonical
  {
    assert Signature(CanonSet(i).raw) == 5050115;
    assert SignatureOwner(5050115) == 23;
  }

  lemma SignatureDecidesAt24(i: nat)
    requires i == 24
    ensures SignatureOwner(Signature(CanonSet(i).raw)) < CanonCount
    ensures CanonSet(SignatureOwner(Signature(CanonSet(i).raw))).canonical == CanonSet(i).canonical
    ensures CanonSet(SignatureOwner(Signature(CanonSet(i).raw))).raw == CanonSet(i).canonical
  {
    assert Signature(CanonSet(i).raw) == 5090097;
    assert SignatureOwner(5090097) == 25;
  }

  lemma SignatureDecidesAt25(i: nat)
    requires i == 25
    ensures SignatureOwner(Signature(CanonSet(i).raw)) < CanonCount
    ensures CanonSet(SignatureOwner(Signature(CanonSet(i).raw))).canonical == CanonSet(i).canonical
    ensures CanonSet(SignatureOwner(Signature(CanonSet(i).raw))).raw == CanonSet(i).canonical
  {
    assert Signature(CanonSet(i).raw) == 7090097;
    assert SignatureOwner(7090097) == 25;
  }

  lemma SignatureDecidesAt26(i: nat)
    requires i == 26
    ensures SignatureOwner(Signature(CanonSet(i).raw)) < CanonCount
    ensures CanonSet(SignatureOwner(Signature(CanonSet(i).raw))).canonical == CanonSet(i).canonical
    ensures CanonSet(SignatureOwner(Signature(CanonSet(i).raw))).raw == CanonSet(i).canonical
  {
    assert Signature(CanonSet(i).raw) == 3050100;
    assert SignatureOwner(3050100) == 27;
  }

  lemma SignatureDecidesAt27(i: nat)
    requires i == 27
    ensures SignatureOwner(Signature(CanonSet(i).raw)) < CanonCount
    ensures CanonSet(SignatureOwner(Signature(CanonSet(i).raw))).canonical == CanonSet(i).canonical
    ensures CanonSet(SignatureOwner(Signature(CanonSet(i).raw))).raw == CanonSet(i).canonical
  {
    assert Signature(CanonSet(i).raw) == 5050100;
    assert SignatureOwner(5050100) == 27;
  }

  lemma SignatureDecidesAt28(i: nat)
    requires i == 28
    ensures SignatureOwner(Signature(CanonSet(i).raw)) < CanonCount
    ensures CanonSet(SignatureOwner(Signature(CanonSet(i).raw))).canonical == CanonSet(i).canonical
    ensures CanonSet(SignatureOwner(Signature(CanonSet(i).raw))).raw == CanonSet(i).canonical
  {
    assert Signature(CanonSet(i).raw) == 2100097;
    assert SignatureOwner(2100097) == 29;
  }

  lemma SignatureDecidesAt29(i: nat)
    requires i == 29
    ensures SignatureOwner(Signature(CanonSet(i).raw)) < CanonCount
    ensures CanonSet(SignatureOwner(Signature(CanonSet(i).raw))).canonical == CanonSet(i).canonical
    ensures CanonSet(SignatureOwner(Signature(CanonSet(i).raw))).raw == CanonSet(i).canonical
  {
    assert Signature(CanonSet(i).raw) == 4100097;
    assert SignatureOwner(4100097) == 29;
  }

  lemma SignatureDecidesAt30(i: nat)
    requires i == 30
    ensures SignatureOwner(Signature(CanonSet(i).raw)) < CanonCount
    ensures CanonSet(SignatureOwner(Signature(CanonSet(i).raw))).canonical == CanonSet(i).canonical
    ensures CanonSet(SignatureOwner(Signature(CanonSet(i).raw))).raw == CanonSet(i).canonical
  {
    assert Signature(CanonSet(i).raw) == 4050040;
    assert SignatureOwner(4050040) == 31;
  }

  lemma SignatureDecidesAt31(i: nat)
    requires i == 31
    ensures SignatureOwner(Signature(CanonSet(i).raw)) < CanonCount
    ensures CanonSet(SignatureOwner(Signature(CanonSet(i).raw))).canonical == CanonSet(i).canonical
    ensures CanonSet(SignatureOwner(Signature(CanonSet(i).raw))).raw == CanonSet(i).canonical
  {
    assert Signature(CanonSet(i).raw) == 6050040;
    assert SignatureOwner(6050040) == 31;
  }

  lemma SignatureDecidesAt32(i: nat)
    requires i == 32
    ensures SignatureOwner(Signature(CanonSet(i).raw)) < CanonCount
    ensures CanonSet(SignatureOwner(Signature(CanonSet(i).raw))).canonical == CanonSet(i).canonical
    ensures CanonSet(SignatureOwner(Signature(CanonSet(i).raw))).raw == CanonSet(i).canonical
  {
    assert Signature(CanonSet(i).raw) == 2080100;
    assert SignatureOwner(2080100) == 33;
  }

  lemma SignatureDecidesAt33(i: nat)
    requires i == 33
    ensures SignatureOwner(Signature(CanonSet(i).raw)) < CanonCount
    ensures CanonSet(SignatureOwner(Signature(CanonSet(i).raw))).canonical == CanonSet(i).canonical
    ensures CanonSet(SignatureOwner(Signature(CanonSet(i).raw))).raw == CanonSet(i).canonical
  {
    assert Signature(CanonSet(i).raw) == 4080100;
    assert SignatureOwner(4080100) == 33;
  }

  lemma SignatureDecidesAt34(i: nat)
    requires i == 34
    ensures SignatureOwner(Signature(CanonSet(i).raw)) < CanonCount
    ensures CanonSet(SignatureOwner(Signature(CanonSet(i).raw))).canonical == CanonSet(i).canonical
    ensures CanonSet(SignatureOwner(Signature(CanonSet(i).raw))).raw == CanonSet(i).canonical
  {
    assert Signature(CanonSet(i).raw) == 6110099;
    assert SignatureOwner(6110099) == 35;
  }

  lemma SignatureDecidesAt35(i: nat)
    requires i == 35
    ensures SignatureOwner(Signature(CanonSet(i).raw)) < CanonCount
    ensures CanonSet(SignatureOwner(Signature(CanonSet(i).raw))).canonical == CanonSet(i).canonical
    ensures CanonSet(SignatureOwner(Signature(CanonSet(i).raw))).raw == CanonSet(i).canonical
  {
    assert Signature(CanonSet(i).raw) == 8110099;
    assert SignatureOwner(8110099) == 35;
  }

  lemma SignatureDecidesAt36(i: nat)
    requires i == 36
    ensures SignatureOwner(Signature(CanonSet(i).raw)) < CanonCount
    ensures CanonSet(SignatureOwner(Signature(CanonSet(i).raw))).canonical == CanonSet(i).canonical
    ensures CanonSet(SignatureOwner(Signature(CanonSet(i).raw))).raw == CanonSet(i).canonical
  {
    assert Signature(CanonSet(i).raw) == 6090110;
    assert SignatureOwner(6090110) == 37;
  }

  lemma SignatureDecidesAt37(i: nat)
    requires i == 37
    ensures SignatureOwner(Signature(CanonSet(i).raw)) < CanonCount
    ensures CanonSet(SignatureOwner(Signature(CanonSet(i).raw))).canonical == CanonSet(i).canonical
    ensures CanonSet(SignatureOwner(Signature(CanonSet(i).raw))).raw == CanonSet(i).canonical
  {
    assert Signature(CanonSet(i).raw) == 8090110;
    assert SignatureOwner(8090110) == 37;
  }

  lemma SignatureDecidesAt38(i: nat)
    requires i == 38
    ensures SignatureOwner(Signature(CanonSet(i).raw)) < CanonCount
    ensures CanonSet(SignatureOwner(Signature(CanonSet(i).raw))).canonical == CanonSet(i).canonical
    ensures CanonSet(SignatureOwner(Signature(CanonSet(i).raw))).raw == CanonSet(i).canonical
  {
    assert Signature(CanonSet(i).raw) == 3120099;
    assert SignatureOwner(3120099) == 38;
  }

  lemma SignatureDecidesAt39(i: nat)
    requires i == 39
    ensures SignatureOwner(Signature(CanonSet(i).raw)) < CanonCount
    ensures CanonSet(SignatureOwner(Signature(CanonSet(i).raw))).canonical == CanonSet(i).canonical
    ensures CanonSet(SignatureOwner(Signature(CanonSet(i).raw))).raw == CanonSet(i).canonical
  {
    assert Signature(CanonSet(i).raw) == 3120099;
    assert SignatureOwner(3120099) == 38;
  }

  lemma SignatureDecidesAt40(i: nat)
    requires i == 40
    ensures SignatureOwner(Signature(CanonSet(i).raw)) < CanonCount
    ensures CanonSet(SignatureOwner(Signature(CanonSet(i).raw))).canonical == CanonSet(i).canonical
    ensures CanonSet(SignatureOwner(Signature(CanonSet(i).raw))).raw == CanonSet(i).canonical
  {
    assert Signature(CanonSet(i).raw) == 2090097;
    assert SignatureOwner(2090097) == 41;
  }

  lemma SignatureDecidesAt41(i: nat)
    requires i == 41
    ensures SignatureOwner(Signature(CanonSet(i).raw)) < CanonCount
    ensures CanonSet(SignatureOwner(Signature(CanonSet(i).raw))).canonical == CanonSet(i).canonical
    ensures CanonSet(SignatureOwner(Signature(CanonSet(i).raw))).raw == CanonSet(i).canonical
  {
    assert Signature(CanonSet(i).raw) == 5100114;
    assert SignatureOwner(5100114) == 41;
  }

}

=== FILE: catalog.dfy ===
/** The catalog builder `build`: it walks the raw offer table (unit, then
    modality, then a list of course names or `{nome, turno}` objects), puts
    every course it meets into a catalog keyed by id, and collects the shifts
    offered per unit, modality and course; at the end each modality's offers
    become a list of `{id, turnos}` sorted by course name. */
module Catalog {
  import opened Wrappers
  import opened Text
  import opened Seqs
  import opened Sorting
  import opened Assoc
  import opened Naming
  import opened Canon

  /** One element of a modality's list in the raw table. */
  datatype RawItem =
    | Named(name: string)                                 // a bare course name
    | Entry(nome: Option<string>, turno: Option<string>)  // an object; an absent field is `None`
    | Other                                               // anything else (`null`, a number, ...)

  /** A modality's value: the builder reads it only when it is an array. */
  datatype RawList = Items(items: seq<RawItem>) | NotAList

  /** `RAW_OFFERS`: unit, then modality, then the list. */
  type RawOffers = Dict<Dict<RawList>>

  /** What one list element hands to `ensureCourse` and `addOffer`. */
  datatype Contribution = Contribution(unit: string, modality: string, rawName: string, turnos: seq<string>)

  /** The shifts a modality imposes on every course it lists, if any. */
  function ForcedTurnos(modality: string): Option<seq<string>> {
    if modality == "semipresencial" then Some(["Noturno", "Flex"])
    else if modality == "ead" then Some(["Online"])
    else None
  }

  /** The shifts of an object item: the forced ones, else its own `turno` when
      that is a non-empty string, else none. */
  function EntryTurnos(modality: string, turno: Option<string>): seq<string> {
    if ForcedTurnos(modality).Some? then ForcedTurnos(modality).value
    else if turno.Some? && turno.value != "" then [turno.value]
    else []
  }

  /** The contribution of one list element; elements that are neither strings
      nor objects contribute nothing. An object without `nome` names the empty
      course. */
  function ItemContribution(unit: string, modality: string, item: RawItem): Option<Contribution> {
    match item
    case Named(name) => Some(Contribution(unit, modality, name, ForcedTurnos(modality).GetOr([])))
    case Entry(nome, turno) => Some(Contribution(unit, modality, nome.GetOr(""), EntryTurnos(modality, turno)))
    case Other => None
  }

  /** The values present in a sequence of options, in their order. */
  function Present<T>(s: seq<Option<T>>): seq<T> {
    if |s| == 0 then []
    else (if s[0].Some? then [s[0].value] else []) + Present(s[1..])
  }

  /** The contributions of one list, in list order. */
  function ListContributions(unit: string, modality: string, items: seq<RawItem>): (r: seq<Contribution>)
    ensures |r| <= |items|
    ensures forall c :: c in r <==>
      exists k :: 0 <= k < |items| && ItemContribution(unit, modality, items[k]) == Some(c)
    ensures r == Present(MapSeq(items, it => ItemContribution(unit, modality, it)))
  {
    if |items| == 0 then []
    else
      var rest := ListContributions(unit, modality, items[1..]);
      assert forall k :: 1 <= k < |items| ==> items[k] == items[1..][k - 1];
      assert MapSeq(items, it => ItemContribution(unit, modality, it))[1..]
          == MapSeq(items[1..], it => ItemContribution(unit, modality, it));
      match ItemContribution(unit, modality, items[0])
      case None => rest
      case Some(c) => [c] + rest
  }

  /** `Array.isArray(list) ? list : []`. */
  function ModalityContributions(unit: string, modality: string, list: RawList): seq<Contribution> {
    match list
    case Items(items) => ListContributions(unit, modality, items)
    case NotAList => []
  }

  /** The contributions of one unit, modality by modality. */
  function UnitContributions(unit: string, modalities: Dict<RawList>): seq<Contribution> {
    Concat(seq(|modalities|, j requires 0 <= j < |modalities| =>
      ModalityContributions(unit, modalities[j].0, modalities[j].1)))
  }

  /** All contributions of the table, in the order of the builder's nested loops. */
  function Contributions(raw: RawOffers): seq<Contribution> {
    Concat(seq(|raw|, i requires 0 <= i < |raw| => UnitContributions(raw[i].0, raw[i].1)))
  }

  /** Every contribution comes from a list element of the table: its unit and
      modality are keys there, and a forcing modality has given it exactly its
      forced shifts. */
  lemma ContributionOrigin(raw: RawOffers, c: Contribution)
    requires c in Contributions(raw)
    ensures exists i :: 0 <= i < |raw| && raw[i].0 == c.unit && c.modality in Keys(raw[i].1)
    ensures ForcedTurnos(c.modality).Some? ==> c.turnos == ForcedTurnos(c.modality).value
  {
    var units := seq(|raw|, i requires 0 <= i < |raw| => UnitContributions(raw[i].0, raw[i].1));
    ConcatMember(units, c);
    var i :| 0 <= i < |raw| && c in units[i];
    UnitOrigin(raw[i].0, raw[i].1, c);
  }

  /** A contribution of one unit comes from one of its modalities' lists. */
  lemma UnitOrigin(unit: string, mods: Dict<RawList>, c: Contribution)
    requires c in UnitContributions(unit, mods)
    ensures c.unit == unit && c.modality in Keys(mods)
    ensures ForcedTurnos(c.modality).Some? ==> c.turnos == ForcedTurnos(c.modality).value
  {
    var lists := seq(|mods|, j requires 0 <= j < |mods| => ModalityContributions(unit, mods[j].0, mods[j].1));
    ConcatMember(lists, c);
    var j :| 0 <= j < |mods| && c in lists[j];
    assert mods[j].1.Items?;
    var items := mods[j].1.items;
    var k :| 0 <= k < |items| && ItemContribution(unit, mods[j].0, items[k]) == Some(c);
    assert Keys(mods)[j] == c.modality;
  }

  /** Every string or object element of every array in the table contributes. */
  lemma ContributionComplete(raw: RawOffers, i: nat, j: nat, k: nat)
    requires i < |raw| && j < |raw[i].1| && raw[i].1[j].1.Items? && k < |raw[i].1[j].1.items|
    requires !raw[i].1[j].1.items[k].Other?
    ensures ItemContribution(raw[i].0, raw[i].1[j].0, raw[i].1[j].1.items[k]).value in Contributions(raw)
  {
    var c := ItemContribution(raw[i].0, raw[i].1[j].0, raw[i].1[j].1.items[k]).value;
    var mods := raw[i].1;
    var lists := seq(|mods|, j' requires 0 <= j' < |mods| => ModalityContributions(raw[i].0, mods[j'].0, mods[j'].1));
    assert c in lists[j];
    ConcatMember(lists, c);
    var units := seq(|raw|, i' requires 0 <= i' < |raw| => UnitContributions(raw[i'].0, raw[i'].1));
    assert c in units[i];
    ConcatMember(units, c);
  }

  datatype Degree = Tecnologo | NaoDefinido

  /** A catalog entry. */
  datatype Course = Course(id: string, name: string, degree: Degree)

  /** A course is a `tecnologo` course when its name starts with
      "tecnologia em ", ignoring case. */
  function DegreeOf(name: string): Degree {
    if StartsWith(Lower(name), "tecnologia em ") then Tecnologo else NaoDefinido
  }

  /** A course is a `tecnologo` course exactly when its first fourteen
      characters, lower-cased, spell "tecnologia em ". */
  lemma DegreeByPrefix(name: string, p: string)
    requires p == "tecnologia em "
    ensures DegreeOf(name) == Tecnologo <==>
      |name| >= |p| && forall i :: 0 <= i < |p| ==> LowerChar(name[i]) == p[i]
  {
    if |name| >= |p| && forall i :: 0 <= i < |p| ==> LowerChar(name[i]) == p[i] {
      assert Lower(name)[..|p|] == p;
    }
  }

  /** The canonical name of a contribution's course. */
  function NameOf(c: Contribution): string { CanonicalizeName(c.rawName) }

  /** The id of a contribution's course. */
  function IdOf(c: Contribution): string { ToId(NameOf(c)) }

  /** The catalog entry `ensureCourse` would create for a contribution. */
  function CourseOf(c: Contribution): Course {
    Course(IdOf(c), NameOf(c), DegreeOf(NameOf(c)))
  }

  /** A contribution once `ensureCourse` has resolved its course. */
  datatype Placement = Placement(unit: string, modality: string, course: Course, turnos: seq<string>)

  /** The id `ensureCourse` returns goes with the course it would create. */
  function Place(c: Contribution): Placement {
    Placement(c.unit, c.modality, CourseOf(c), c.turnos)
  }

  /** `ensureCourse`: the course is added only when its id is new; an entry
      already there is never replaced. */
  function EnsureCourse(catalog: Dict<Course>, c: Placement): Dict<Course> {
    Upsert(catalog, c.course.id, (o: Option<Course>) => o.GetOr(c.course))
  }

  /** Course id to its shifts, for one unit and modality. */
  type Slots = Dict<seq<string>>

  /** The last level of `addOffer`: create the course's slot if missing, then
      append the shifts and drop repeats. */
  function AddToSlots(slots: Slots, c: Placement): Slots {
    Upsert(slots, c.course.id, (o: Option<seq<string>>) => Uniq(o.GetOr([]) + c.turnos))
  }

  /** The middle level of `addOffer`: create the modality if missing. */
  function AddToModalities(ms: Dict<Slots>, c: Placement): Dict<Slots> {
    Upsert(ms, c.modality, (o: Option<Slots>) => AddToSlots(o.GetOr([]), c))
  }

  /** `addOffer`: create the unit if missing and go down. */
  function AddOffer(offers: Dict<Dict<Slots>>, c: Placement): Dict<Dict<Slots>> {
    Upsert(offers, c.unit, (o: Option<Dict<Slots>>) => AddToModalities(o.GetOr([]), c))
  }

  /** The builder's two accumulators. */
  datatype State = State(catalog: Dict<Course>, offers: Dict<Dict<Slots>>)

  /** One turn of the inner loop. */
  function Step(st: State, c: Placement): State {
    State(EnsureCourse(st.catalog, c), AddOffer(st.offers, c))
  }

  /** The builder's loops, one contribution after the other. */
  function Process(cs: seq<Placement>): State
    decreases |cs|
  {
    if |cs| == 0 then State([], [])
    else Step(Process(cs[..|cs| - 1]), cs[|cs| - 1])
  }

  /** `AddToSlots` applied to every contribution in turn, from nothing. */
  function SlotsOf(cs: seq<Placement>): Slots
    decreases |cs|
  {
    if |cs| == 0 then [] else AddToSlots(SlotsOf(cs[..|cs| - 1]), cs[|cs| - 1])
  }

  /** `AddToModalities` applied to every contribution in turn, from nothing. */
  function ModalitiesOf(cs: seq<Placement>): Dict<Slots>
    decreases |cs|
  {
    if |cs| == 0 then [] else AddToModalities(ModalitiesOf(cs[..|cs| - 1]), cs[|cs| - 1])
  }

  // Reference definitions, independent of the dictionaries.

  /** The course ids of the contributions, in order and with repeats. */
  function Ids(cs: seq<Placement>): (r: seq<string>)
    ensures |r| == |cs| && forall k :: 0 <= k < |cs| ==> r[k] == cs[k].course.id
  {
    seq(|cs|, k requires 0 <= k < |cs| => cs[k].course.id)
  }

  /** The modalities of the contributions, in order and with repeats. */
  function Modalities(cs: seq<Placement>): (r: seq<string>)
    ensures |r| == |cs| && forall k :: 0 <= k < |cs| ==> r[k] == cs[k].modality
  {
    seq(|cs|, k requires 0 <= k < |cs| => cs[k].modality)
  }

  /** The units of the contributions, in order and with repeats. */
  function Units(cs: seq<Placement>): (r: seq<string>)
    ensures |r| == |cs| && forall k :: 0 <= k < |cs| ==> r[k] == cs[k].unit
  {
    seq(|cs|, k requires 0 <= k < |cs| => cs[k].unit)
  }

  /** The contributions for one unit, in order. */
  function AtUnit(cs: seq<Placement>, u: string): (r: seq<Placement>)
    ensures forall c :: c in r <==> c in cs && c.unit == u
    decreases |cs|
  {
    if |cs| == 0 then []
    else AtUnit(cs[..|cs| - 1], u) + (if cs[|cs| - 1].unit == u then [cs[|cs| - 1]] else [])
  }

  /** The contributions for one modality, in order. */
  function AtModality(cs: seq<Placement>, m: string): (r: seq<Placement>)
    ensures forall c :: c in r <==> c in cs && c.modality == m
    decreases |cs|
  {
    if |cs| == 0 then []
    else AtModality(cs[..|cs| - 1], m) + (if cs[|cs| - 1].modality == m then [cs[|cs| - 1]] else [])
  }

  /** All shifts the contributions give to one course id, in order and with repeats. */
  function TurnosOf(cs: seq<Placement>, id: string): seq<string>
    decreases |cs|
  {
    if |cs| == 0 then []
    else TurnosOf(cs[..|cs| - 1], id) + (if cs[|cs| - 1].course.id == id then cs[|cs| - 1].turnos else [])
  }

  /** A shift is collected for an id exactly when some contribution of that id
      carries it. */
  lemma {:induction false} TurnosOfMembers(cs: seq<Placement>, id: string, t: string)
    ensures t in TurnosOf(cs, id) <==> exists k :: 0 <= k < |cs| && cs[k].course.id == id && t in cs[k].turnos
    decreases |cs|
  {
    if |cs| > 0 {
      var p, c := cs[..|cs| - 1], cs[|cs| - 1];
      TurnosOfMembers(p, id, t);
      if t in TurnosOf(p, id) {
        var k :| 0 <= k < |p| && p[k].course.id == id && t in p[k].turnos;
        assert cs[k] == p[k];
      }
      if exists k :: 0 <= k < |cs| && cs[k].course.id == id && t in cs[k].turnos {
        var k :| 0 <= k < |cs| && cs[k].course.id == id && t in cs[k].turnos;
        if k < |p| {
          assert p[k] == cs[k];
        }
      }
    }
  }

  /** An id no placement has collects no shifts. */
  lemma {:induction false} TurnosOfAbsent(cs: seq<Placement>, id: string)
    requires id !in Ids(cs)
    ensures TurnosOf(cs, id) == []
    decreases |cs|
  {
    if |cs| > 0 {
      var p := cs[..|cs| - 1];
      assert Ids(cs) == Ids(p) + [cs[|cs| - 1].course.id];
      TurnosOfAbsent(p, id);
    }
  }

  /** A placement list with none for a modality selects nothing. */
  lemma AtModalityAbsent(cs: seq<Placement>, m: string)
    requires m !in Modalities(cs)
    ensures AtModality(cs, m) == []
  {

  }

  /** A placement list with none for a unit selects nothing. */
  lemma AtUnitAbsent(cs: seq<Placement>, u: string)
    requires u !in Units(cs)
    ensures AtUnit(cs, u) == []
  {

  }

  /** Writing one more key into a dictionary whose keys are the first
      occurrences of `p` gives the first occurrences of `p + [k]`. */
  lemma UpsertKeys<V>(a: Dict<V>, k: string, p: seq<string>)
    requires Keys(a) == Uniq(p)
    ensures forall f: Option<V> -> V :: Keys(Upsert(a, k, f)) == Uniq(p + [k])
  {
    UniqSnoc(p, k);
  }

  lemma IdsSnoc(cs: seq<Placement>)
    requires |cs| > 0
    ensures Ids(cs) == Ids(cs[..|cs| - 1]) + [cs[|cs| - 1].course.id]
  {
  }

  lemma ModalitiesSnoc(cs: seq<Placement>)
    requires |cs| > 0
    ensures Modalities(cs) == Modalities(cs[..|cs| - 1]) + [cs[|cs| - 1].modality]
  {
  }

  lemma UnitsSnoc(cs: seq<Placement>)
    requires |cs| > 0
    ensures Units(cs) == Units(cs[..|cs| - 1]) + [cs[|cs| - 1].unit]
  {
  }

  lemma TurnosOfStep(cs: seq<Placement>, id: string)
    requires |cs| > 0
    ensures cs[|cs| - 1].course.id == id ==> TurnosOf(cs, id) == TurnosOf(cs[..|cs| - 1], id) + cs[|cs| - 1].turnos
    ensures cs[|cs| - 1].course.id != id ==> TurnosOf(cs, id) == TurnosOf(cs[..|cs| - 1], id)
  {
  }

  lemma AtModalityStep(cs: seq<Placement>, m: string)
    requires |cs| > 0
    ensures cs[|cs| - 1].modality == m ==> AtModality(cs, m) == AtModality(cs[..|cs| - 1], m) + [cs[|cs| - 1]]
    ensures cs[|cs| - 1].modality != m ==> AtModality(cs, m) == AtModality(cs[..|cs| - 1], m)
  {
  }

  lemma AtUnitStep(cs: seq<Placement>, u: string)
    requires |cs| > 0
    ensures cs[|cs| - 1].unit == u ==> AtUnit(cs, u) == AtUnit(cs[..|cs| - 1], u) + [cs[|cs| - 1]]
    ensures cs[|cs| - 1].unit != u ==> AtUnit(cs, u) == AtUnit(cs[..|cs| - 1], u)
  {
  }

  lemma SlotsGetStep(cs: seq<Placement>, id: string)
    requires |cs| > 0
    ensures Get(SlotsOf(cs), id) ==
      if id == cs[|cs| - 1].course.id then Some(Uniq(Get(SlotsOf(cs[..|cs| - 1]), id).GetOr([]) + cs[|cs| - 1].turnos))
      else Get(SlotsOf(cs[..|cs| - 1]), id)
  {
  }

  lemma ModalitiesGetStep(cs: seq<Placement>, m: string)
    requires |cs| > 0
    ensures Get(ModalitiesOf(cs), m) ==
      if m == cs[|cs| - 1].modality then Some(AddToSlots(Get(ModalitiesOf(cs[..|cs| - 1]), m).GetOr([]), cs[|cs| - 1]))
      else Get(ModalitiesOf(cs[..|cs| - 1]), m)
  {
  }

  lemma OffersGetStep(cs: seq<Placement>, u: string)
    requires |cs| > 0
    ensures Get(Process(cs).offers, u) ==
      if u == cs[|cs| - 1].unit then Some(AddToModalities(Get(Process(cs[..|cs| - 1]).offers, u).GetOr([]), cs[|cs| - 1]))
      else Get(Process(cs[..|cs| - 1]).offers, u)
  {
  }

  lemma CatalogGetStep(cs: seq<Placement>, id: string)
    requires |cs| > 0
    ensures Get(Process(cs).catalog, id) ==
      if id == cs[|cs| - 1].course.id then Some(Get(Process(cs[..|cs| - 1]).catalog, id).GetOr(cs[|cs| - 1].course))
      else Get(Process(cs[..|cs| - 1]).catalog, id)
  {
  }

  /** The slots of one unit and modality list each course id once, in order of
      first appearance. */
  lemma {:induction false} SlotsKeys(cs: seq<Placement>)
    ensures Keys(SlotsOf(cs)) == Uniq(Ids(cs))
    decreases |cs|
  {
    if |cs| > 0 {
      var p, c := cs[..|cs| - 1], cs[|cs| - 1];
      SlotsKeys(p);
      IdsSnoc(cs);
      UpsertKeys(SlotsOf(p), c.course.id, Ids(p));
    }
  }

  /** A course's slot holds every shift its placements carried, first
      occurrences only, in order; courses never placed have no slot. */
  lemma {:induction false} SlotsGet(cs: seq<Placement>, id: string)
    ensures Get(SlotsOf(cs), id) == if id in Ids(cs) then Some(Uniq(TurnosOf(cs, id))) else None
    decreases |cs|
  {
    if |cs| > 0 {
      var p, c := cs[..|cs| - 1], cs[|cs| - 1];
      SlotsKeys(p);
      SlotsGet(p, id);
      IdsSnoc(cs);
      SlotsGetStep(cs, id);
      TurnosOfStep(cs, id);
      if id == c.course.id {
        if id in Ids(p) {
          UniqOfUniq(TurnosOf(p, id), c.turnos);
        } else {
          TurnosOfAbsent(p, id);
          assert [] + c.turnos == c.turnos;
        }
      }
    }
  }

  /** Appending one placement to a list runs one more `AddToSlots`. */
  lemma SlotsOfSnoc(q: seq<Placement>, c: Placement)
    ensures SlotsOf(q + [c]) == AddToSlots(SlotsOf(q), c)
  {
    assert (q + [c])[..|q|] == q;
  }

  /** The modalities of one unit, each listed once, in order of first appearance. */
  lemma {:induction false} ModalitiesKeys(cs: seq<Placement>)
    ensures Keys(ModalitiesOf(cs)) == Uniq(Modalities(cs))
    decreases |cs|
  {
    if |cs| > 0 {
      var p, c := cs[..|cs| - 1], cs[|cs| - 1];
      ModalitiesKeys(p);
      ModalitiesSnoc(cs);
      UpsertKeys(ModalitiesOf(p), c.modality, Modalities(p));
    }
  }

  /** A modality of a unit holds the slots built from that modality's
      placements alone. */
  lemma {:induction false} ModalitiesGet(cs: seq<Placement>, m: string)
    ensures Get(ModalitiesOf(cs), m) == if m in Modalities(cs) then Some(SlotsOf(AtModality(cs, m))) else None
    decreases |cs|
  {
    if |cs| > 0 {
      var p, c := cs[..|cs| - 1], cs[|cs| - 1];
      ModalitiesKeys(p);
      ModalitiesGet(p, m);
      ModalitiesSnoc(cs);
      ModalitiesGetStep(cs, m);
      AtModalityStep(cs, m);
      if m == c.modality {
        if m !in Modalities(p) {
          AtModalityAbsent(p, m);
        }
        SlotsOfSnoc(AtModality(p, m), c);
      }
    }
  }

  /** Appending one placement to a list runs one more `AddToModalities`. */
  lemma ModalitiesOfSnoc(q: seq<Placement>, c: Placement)
    ensures ModalitiesOf(q + [c]) == AddToModalities(ModalitiesOf(q), c)
  {
    assert (q + [c])[..|q|] == q;
  }

  /** The builder's units, each listed once, in order of first appearance. */
  lemma {:induction false} OffersKeys(cs: seq<Placement>)
    ensures Keys(Process(cs).offers) == Uniq(Units(cs))
    decreases |cs|
  {
    if |cs| > 0 {
      var p, c := cs[..|cs| - 1], cs[|cs| - 1];
      OffersKeys(p);
      UnitsSnoc(cs);
      UpsertKeys(Process(p).offers, c.unit, Units(p));
    }
  }

  /** A unit holds the modalities built from that unit's placements alone. */
  lemma {:induction false} OffersGet(cs: seq<Placement>, u: string)
    ensures Get(Process(cs).offers, u) == if u in Units(cs) then Some(ModalitiesOf(AtUnit(cs, u))) else None
    decreases |cs|
  {
    if |cs| > 0 {
      var p, c := cs[..|cs| - 1], cs[|cs| - 1];
      OffersKeys(p);
      OffersGet(p, u);
      UnitsSnoc(cs);
      OffersGetStep(cs, u);
      AtUnitStep(cs, u);
      if u == c.unit {
        if u !in Units(p) {
          AtUnitAbsent(p, u);
        }
        ModalitiesOfSnoc(AtUnit(p, u), c);
      }
    }
  }

  /** The catalog lists each course id once, in order of first appearance. */
  lemma {:induction false} CatalogKeys(cs: seq<Placement>)
    ensures Keys(Process(cs).catalog) == Uniq(Ids(cs))
    decreases |cs|
  {
    if |cs| > 0 {
      var p, c := cs[..|cs| - 1], cs[|cs| - 1];
      CatalogKeys(p);
      IdsSnoc(cs);
      UpsertKeys(Process(p).catalog, c.course.id, Ids(p));
    }
  }

  /** The catalog keeps the course of the first placement of each id: later
      spellings that map to the same id do not rename it. */
  lemma {:induction false} CatalogFirst(cs: seq<Placement>, k: nat)
    requires k < |cs|
    requires cs[k].course.id !in Ids(cs[..k])
    ensures Get(Process(cs).catalog, cs[k].course.id) == Some(cs[k].course)
    decreases |cs|
  {
    var p := cs[..|cs| - 1];
    if k < |p| {
      var id := cs[k].course.id;
      assert p[k] == cs[k] && p[..k] == cs[..k];
      CatalogFirst(p, k);
      CatalogGetStep(cs, id);
      var before := Get(Process(p).catalog, id);
      assert before == Some(cs[k].course);
      assert before.GetOr(cs[|cs| - 1].course) == cs[k].course;
    } else {
      assert p == cs[..k];
      CatalogNew(cs);
    }
  }

  /** A placement whose id is new puts its own course in the catalog. */
  lemma {:induction false} CatalogNew(cs: seq<Placement>)
    requires |cs| > 0
    requires cs[|cs| - 1].course.id !in Ids(cs[..|cs| - 1])
    ensures Get(Process(cs).catalog, cs[|cs| - 1].course.id) == Some(cs[|cs| - 1].course)
  {
    CatalogKeys(cs[..|cs| - 1]);
    CatalogGetStep(cs, cs[|cs| - 1].course.id);
  }

  /** The contributions for one unit and modality, in order. */
  function Selected(cs: seq<Placement>, u: string, m: string): seq<Placement> {
    AtModality(AtUnit(cs, u), m)
  }

  /** `offers[u][m][id]`, absent when any level is. */
  function SlotAt(offers: Dict<Dict<Slots>>, u: string, m: string, id: string): Option<seq<string>> {
    match Get(offers, u)
    case None => None
    case Some(ms) =>
      match Get(ms, m)
      case None => None
      case Some(slots) => Get(slots, id)
  }

  /** An id occurs among the placements exactly when one of them has it. */
  lemma IdsMember(cs: seq<Placement>, id: string)
    ensures id in Ids(cs) <==> exists c :: c in cs && c.course.id == id
  {
    if id in Ids(cs) {
      var k :| 0 <= k < |cs| && Ids(cs)[k] == id;
      assert cs[k] in cs;
    }
  }

  /** After the loops, `offers[u][m][id]` exists exactly when some placement
      was for that unit, modality and course, and then holds all the shifts
      those placements carried, each once, in order of first appearance. */
  lemma ProcessSlot(cs: seq<Placement>, u: string, m: string, id: string)
    ensures SlotAt(Process(cs).offers, u, m, id) ==
      if exists c :: c in cs && c.unit == u && c.modality == m && c.course.id == id
      then Some(Uniq(TurnosOf(Selected(cs, u, m), id)))
      else None
  {
    var sel := Selected(cs, u, m);
    IdsMember(sel, id);
    OffersGet(cs, u);
    if u in Units(cs) {
      ModalitiesGet(AtUnit(cs, u), m);
      if m in Modalities(AtUnit(cs, u)) {
        SlotsGet(sel, id);
      } else {
        AtModalityAbsent(AtUnit(cs, u), m);
      }
    } else {
      AtUnitAbsent(cs, u);
    }
  }

  /** Every placement of a list carries the same duplicate-free shifts `t`:
      then each course collects exactly `t`. */
  lemma {:induction false} UniformTurnos(cs: seq<Placement>, id: string, t: seq<string>)
    requires Distinct(t)
    requires forall c :: c in cs ==> c.turnos == t
    requires id in Ids(cs)
    ensures Uniq(TurnosOf(cs, id)) == t
    decreases |cs|
  {
    var p, c := cs[..|cs| - 1], cs[|cs| - 1];
    IdsSnoc(cs);
    TurnosOfStep(cs, id);
    assert forall x :: x in p ==> x in cs;
    if id in Ids(p) {
      UniformTurnos(p, id, t);
      if c.course.id == id {
        UniqOfUniq(TurnosOf(p, id), t);
        UniqAbsorb(t, t);
      }
    } else {
      TurnosOfAbsent(p, id);
      assert [] + t == t;
    }
  }

  /** When every placement of a modality carries the same duplicate-free
      shifts `t`, each course offered there has exactly `t`. */
  lemma UniformSlot(cs: seq<Placement>, u: string, m: string, id: string, t: seq<string>)
    requires Distinct(t)
    requires forall c :: c in cs && c.modality == m ==> c.turnos == t
    ensures SlotAt(Process(cs).offers, u, m, id) == None || SlotAt(Process(cs).offers, u, m, id) == Some(t)
  {
    ProcessSlot(cs, u, m, id);
    var sel := Selected(cs, u, m);
    IdsMember(sel, id);
    if id in Ids(sel) {
      UniformTurnos(sel, id, t);
    }
  }

  /** The final sort's key: the course's catalog name. */
  function CatalogName(catalog: Dict<Course>, id: string): string {
    match Get(catalog, id)
    case Some(course) => course.name
    case None => ""
  }

  /** `localeCompare` on the catalog names, as a "sorts no later than" relation. */
  function NameOrder(catalog: Dict<Course>, coll: (string, string) -> bool): (Offer, Offer) -> bool {
    By((o: Offer) => CatalogName(catalog, o.id), coll)
  }

  /** `{id, turnos}` in the built offers. */
  datatype Offer = Offer(id: string, turnos: seq<string>)

  /** `Object.values(map).map(x => ({ id: x.id, turnos: uniq(x.turnos) }))`. */
  function SlotOffers(slots: Slots): (r: seq<Offer>)
    ensures |r| == |slots|
    ensures forall k :: 0 <= k < |slots| ==> r[k] == Offer(slots[k].0, Uniq(slots[k].1))
  {
    seq(|slots|, k requires 0 <= k < |slots| => Offer(slots[k].0, Uniq(slots[k].1)))
  }

  /** One modality's final list: its offers sorted by course name. */
  function SortOffers(catalog: Dict<Course>, slots: Slots, coll: (string, string) -> bool): seq<Offer> {
    SortBy(SlotOffers(slots), NameOrder(catalog, coll))
  }

  /** What `build` returns (the two helper functions it also exports are
      `CanonicalizeName` and `ToId`). */
  datatype Built = Built(catalog: Dict<Course>, offers: Dict<Dict<seq<Offer>>>)

  /** The last loop of `build`: every modality's map becomes a sorted list. */
  function Finalize(st: State, coll: (string, string) -> bool): Built {
    Built(st.catalog, MapValues(st.offers, (u: string, ms: Dict<Slots>) =>
      MapValues(ms, (m: string, slots: Slots) => SortOffers(st.catalog, slots, coll))))
  }

  /** Every contribution with its course resolved. */
  function Placements(cs: seq<Contribution>): seq<Placement> {
    MapSeq(cs, Place)
  }

  /** `build(raw)`, with `coll` standing for `localeCompare(a, b, "pt-BR") <= 0`. */
  function Build(raw: RawOffers, coll: (string, string) -> bool): (r: Built)
    ensures Keys(r.offers) == Uniq(Units(Placements(Contributions(raw))))
  {
    var ps := Placements(Contributions(raw));
    OffersKeys(ps);
    Finalize(Process(ps), coll)
  }

  /** The offers of a map with duplicate-free keys name each course once. */
  lemma SlotOffersDistinct(slots: Slots)
    requires Distinct(Keys(slots))
    ensures DistinctBy(SlotOffers(slots), (x: Offer) => x.id)
  {
    var offers := SlotOffers(slots);
    forall i, j | 0 <= i < j < |offers| ensures offers[i].id != offers[j].id {
      assert Keys(slots)[i] == offers[i].id && Keys(slots)[j] == offers[j].id;
    }
  }

  /** A modality's final list has each course of the map once. */
  lemma SortOffersDistinct(catalog: Dict<Course>, slots: Slots, coll: (string, string) -> bool)
    requires Distinct(Keys(slots))
    ensures DistinctBy(SortOffers(catalog, slots, coll), (x: Offer) => x.id)
  {
    SlotOffersDistinct(slots);
    PermutationKeepsDistinctBy(SlotOffers(slots), SortOffers(catalog, slots, coll), (x: Offer) => x.id);
  }

  /** A modality's final list holds, for every course of the map, its shifts
      without repeats, and nothing else. */
  lemma SortOffersMembers(catalog: Dict<Course>, slots: Slots, coll: (string, string) -> bool, o: Offer)
    requires Distinct(Keys(slots))
    ensures o in SortOffers(catalog, slots, coll) <==>
      Get(slots, o.id).Some? && o.turnos == Uniq(Get(slots, o.id).value)
  {
    var offers := SlotOffers(slots);
    var r := SortOffers(catalog, slots, coll);
    assert o in r <==> o in offers by {
      assert o in r <==> o in multiset(r);
    }
    if o in offers {
      var k :| 0 <= k < |slots| && offers[k] == o;
      assert slots[k] in slots;
      GetStored(slots, slots[k].0, slots[k].1);
    }
    var g := Get(slots, o.id);
    if g.Some? && o.turnos == Uniq(g.value) {
      assert (o.id, g.value) in slots;
      var k :| 0 <= k < |slots| && slots[k] == (o.id, g.value);
      assert offers[k] == o;
    }
  }

  /** A modality's final list is in catalog-name order whenever the collation
      is a total preorder. */
  lemma SortOffersSorted(catalog: Dict<Course>, slots: Slots, coll: (string, string) -> bool)
    requires TotalPreorder(coll)
    ensures SortedBy(SortOffers(catalog, slots, coll), NameOrder(catalog, coll))
  {
    ByPreorder((x: Offer) => CatalogName(catalog, x.id), coll);
  }

  /** A unit occurs among the placements exactly when one of them has it. */
  lemma UnitsMember(cs: seq<Placement>, u: string)
    ensures u in Units(cs) <==> exists c :: c in cs && c.unit == u
  {
    if u in Units(cs) {
      var k :| 0 <= k < |cs| && Units(cs)[k] == u;
      assert cs[k] in cs;
    }
  }

  /** A modality occurs among the placements exactly when one of them has it. */
  lemma ModalitiesMember(cs: seq<Placement>, m: string)
    ensures m in Modalities(cs) <==> exists c :: c in cs && c.modality == m
  {
    if m in Modalities(cs) {
      var k :| 0 <= k < |cs| && Modalities(cs)[k] == m;
      assert cs[k] in cs;
    }
  }

  /** Every catalog entry is stored under its own id. */
  lemma {:induction false} CatalogEntriesKeyed(cs: seq<Placement>, id: string)
    ensures Get(Process(cs).catalog, id).Some? ==> Get(Process(cs).catalog, id).value.id == id
    decreases |cs|
  {
    if |cs| > 0 {
      CatalogEntriesKeyed(cs[..|cs| - 1], id);
      CatalogGetStep(cs, id);
    }
  }

  /** `built.offers[u][m]`, absent when either level is. */
  function ListAt(offers: Dict<Dict<seq<Offer>>>, u: string, m: string): Option<seq<Offer>> {
    match Get(offers, u)
    case None => None
    case Some(ms) => Get(ms, m)
  }

  /** The built list of a unit and modality is the sorted form of the map the
      loops left there, and exists exactly when that map does. */
  lemma FinalizeList(st: State, coll: (string, string) -> bool, u: string, m: string)
    ensures ListAt(Finalize(st, coll).offers, u, m) ==
      match Get(st.offers, u)
      case None => None
      case Some(ms) =>
        match Get(ms, m)
        case None => None
        case Some(slots) => Some(SortOffers(st.catalog, slots, coll))
  {
  }

  /** `build`'s offers: a unit and modality have a list exactly when some
      element of the table placed a course there; the list names each such
      course once, in catalog-name order under a total-preorder collation, each
      with all the shifts its elements there carried, first occurrences only,
      in order; every listed course is in the catalog under its own id. */
  lemma BuildOffers(raw: RawOffers, coll: (string, string) -> bool, u: string, m: string, o: Offer)
    ensures ListAt(Build(raw, coll).offers, u, m).Some? <==>
      exists c :: c in Placements(Contributions(raw)) && c.unit == u && c.modality == m
    ensures ListAt(Build(raw, coll).offers, u, m).Some? ==>
      ListFacts(ListAt(Build(raw, coll).offers, u, m).value, Selected(Placements(Contributions(raw)), u, m),
        Build(raw, coll).catalog, coll, o)
  {
    FinalOffers(Placements(Contributions(raw)), coll, u, m, o);
  }

  /** What holds of one built list for a unit and modality, given the
      placements `sel` selected there: each course once, in catalog-name
      order under a total-preorder collation, each with all the shifts its
      placements carried, first occurrences only, in order; every listed
      course is in the catalog under its own id. */
  ghost predicate ListFacts(list: seq<Offer>, sel: seq<Placement>, catalog: Dict<Course>, coll: (string, string) -> bool, o: Offer) {
    && DistinctBy(list, (x: Offer) => x.id)
    && (TotalPreorder(coll) ==> SortedBy(list, NameOrder(catalog, coll)))
    && (o in list <==> o.id in Ids(sel) && o.turnos == Uniq(TurnosOf(sel, o.id)))
    && (o in list ==> Get(catalog, o.id).Some? && Get(catalog, o.id).value.id == o.id)
  }

  /** `BuildOffers` for any sequence of placements. */
  lemma FinalOffers(ps: seq<Placement>, coll: (string, string) -> bool, u: string, m: string, o: Offer)
    ensures ListAt(Finalize(Process(ps), coll).offers, u, m).Some? <==>
      exists c :: c in ps && c.unit == u && c.modality == m
    ensures ListAt(Finalize(Process(ps), coll).offers, u, m).Some? ==>
      ListFacts(ListAt(Finalize(Process(ps), coll).offers, u, m).value, Selected(ps, u, m),
        Finalize(Process(ps), coll).catalog, coll, o)
  {
    var st := Process(ps);
    FinalizeList(st, coll, u, m);
    OffersGet(ps, u);
    UnitsMember(ps, u);
    var inUnit := AtUnit(ps, u);
    ModalitiesMember(inUnit, m);
    if u in Units(ps) {
      ModalitiesGet(inUnit, m);
      if m in Modalities(inUnit) {
        var sel := Selected(ps, u, m);
        var slots := SlotsOf(sel);
        SlotsKeys(sel);
        SortOffersDistinct(st.catalog, slots, coll);
        SortOffersMembers(st.catalog, slots, coll, o);
        if TotalPreorder(coll) {
          SortOffersSorted(st.catalog, slots, coll);
        }
        SlotsGet(sel, o.id);
        if o.id in Ids(sel) {
          IdsMember(sel, o.id);
          IdsMember(ps, o.id);
          CatalogKeys(ps);
          CatalogEntriesKeyed(ps, o.id);
        }
      }
    }
  }

  /** `build`'s catalog: one entry per course id met, in order of first
      appearance, and each entry is the course of the first element that
      produced its id. */
  lemma BuildCatalog(raw: RawOffers, coll: (string, string) -> bool, k: nat)
    ensures Keys(Build(raw, coll).catalog) == Uniq(Ids(Placements(Contributions(raw))))
    ensures k < |Contributions(raw)| && CourseOf(Contributions(raw)[k]).id !in Ids(Placements(Contributions(raw))[..k]) ==>
      Get(Build(raw, coll).catalog, CourseOf(Contributions(raw)[k]).id) == Some(CourseOf(Contributions(raw)[k]))
  {
    var ps := Placements(Contributions(raw));
    CatalogKeys(ps);
    if k < |ps| {
      assert ps[k].course == CourseOf(Contributions(raw)[k]);
      if ps[k].course.id !in Ids(ps[..k]) {
        CatalogFirst(ps, k);
      }
    }
  }

  /** The forced shifts have no repeats. */
  lemma ForcedDistinct(m: string)
    requires ForcedTurnos(m).Some?
    ensures Distinct(ForcedTurnos(m).value)
  {
  }

  /** Every placement of the table in a forcing modality carries the forced shifts. */
  lemma PlacementsForced(raw: RawOffers, m: string, t: seq<string>)
    requires ForcedTurnos(m) == Some(t)
    ensures forall p :: p in Placements(Contributions(raw)) && p.modality == m ==> p.turnos == t
  {
    forall c | c in Contributions(raw) && c.modality == m ensures c.turnos == t {
      ContributionOrigin(raw, c);
    }
    PlacedKeep(Contributions(raw), m, t);
  }

  lemma PlacedKeep(cs: seq<Contribution>, m: string, t: seq<string>)
    requires forall c :: c in cs && c.modality == m ==> c.turnos == t
    ensures forall p :: p in Placements(cs) && p.modality == m ==> p.turnos == t
  {
    MapKeeps(cs, Place, m, t);
  }

  /** Resolving each contribution keeps its modality and shifts. */
  lemma MapKeeps(cs: seq<Contribution>, f: Contribution -> Placement, m: string, t: seq<string>)
    requires forall c :: f(c).modality == c.modality && f(c).turnos == c.turnos
    requires forall c :: c in cs && c.modality == m ==> c.turnos == t
    ensures forall p :: p in MapSeq(cs, f) && p.modality == m ==> p.turnos == t
  {
    var ps := MapSeq(cs, f);
    forall p | p in ps && p.modality == m ensures p.turnos == t {
      var k :| 0 <= k < |ps| && ps[k] == p;
      assert cs[k] in cs;
    }
  }

  /** In the `semipresencial` and `ead` modalities every listed course has
      exactly the forced shifts, whatever the table says about its `turno`. */
  lemma BuildForced(raw: RawOffers, coll: (string, string) -> bool, u: string, m: string, o: Offer)
    requires ForcedTurnos(m).Some?
    requires ListAt(Build(raw, coll).offers, u, m).Some?
    requires o in ListAt(Build(raw, coll).offers, u, m).value
    ensures o.turnos == ForcedTurnos(m).value
  {
    var ps := Placements(Contributions(raw));
    var t := ForcedTurnos(m).value;
    BuildOffers(raw, coll, u, m, o);
    ForcedDistinct(m);
    PlacementsForced(raw, m, t);
    UniformTurnos(Selected(ps, u, m), o.id, t);
  }
}

=== FILE: csv.dfy ===
/** The links page's spreadsheet export: every cell quoted, quotes doubled,
    cells separated by commas and lines by newlines; and a reader for that
    format, which recovers exactly the table that was written. */
module Csv {
  import opened Wrappers
  import opened Records

  // ---------------------------------------------------------------------------
  // Writing

  /** The cell text with every `"` doubled (`replaceAll('"', '""')`). */
  function Escape(s: string): (r: string)
    ensures |r| >= |s|
  {
    if |s| == 0 then ""
    else (if s[0] == '"' then "\"\"" else [s[0]]) + Escape(s[1..])
  }

  /** One quoted cell. */
  function Cell(s: string): string {
    "\"" + Escape(s) + "\""
  }

  /** The quoted cells of one line joined by commas. */
  function Line(cells: seq<string>): string {
    if |cells| == 0 then ""
    else if |cells| == 1 then Cell(cells[0])
    else Cell(cells[0]) + "," + Line(cells[1..])
  }

  /** The lines of a table joined by newlines. */
  function Table(rows: seq<seq<string>>): string {
    if |rows| == 0 then ""
    else if |rows| == 1 then Line(rows[0])
    else Line(rows[0]) + "\n" + Table(rows[1..])
  }

  // ---------------------------------------------------------------------------
  // Reading

  /** Reads the inside of a quoted cell up to its closing quote, a doubled
      quote standing for one quote; gives the cell text and what follows the
      closing quote. */
  function ReadQuoted(t: string): (r: Option<(string, string)>)
    ensures r.Some? ==> |r.value.1| < |t|
    decreases |t|
  {
    if |t| == 0 then None
    else if t[0] == '"' then
      if |t| >= 2 && t[1] == '"' then
        match ReadQuoted(t[2..])
        case None => None
        case Some((c, rest)) => Some(("\"" + c, rest))
      else Some(("", t[1..]))
    else
      match ReadQuoted(t[1..])
      case None => None
      case Some((c, rest)) => Some(([t[0]] + c, rest))
  }

  /** Reads the comma-separated quoted cells of one line; gives the cells and
      what follows the last one. */
  function ReadLine(t: string): (r: Option<(seq<string>, string)>)
    ensures r.Some? ==> |r.value.0| > 0 && |r.value.1| < |t|
    decreases |t|
  {
    if |t| == 0 || t[0] != '"' then None
    else
      match ReadQuoted(t[1..])
      case None => None
      case Some((c, rest)) =>
        if |rest| > 0 && rest[0] == ',' then
          match ReadLine(rest[1..])
          case None => None
          case Some((cs, after)) => Some(([c] + cs, after))
        else Some(([c], rest))
  }

  /** Reads newline-separated lines up to the end of the text. */
  function ReadTable(t: string): (r: Option<seq<seq<string>>>)
    ensures r.Some? ==> |r.value| > 0
    decreases |t|
  {
    match ReadLine(t)
    case None => None
    case Some((cells, rest)) =>
      if |rest| == 0 then Some([cells])
      else if rest[0] == '\n' then
        match ReadTable(rest[1..])
        case None => None
        case Some(rows) => Some([cells] + rows)
      else None
  }

  // ---------------------------------------------------------------------------
  // Reading what was written

  /** An escaped cell followed by its closing quote reads back as the cell. */
  lemma {:induction false} ReadEscaped(s: string, rest: string)
    requires |rest| == 0 || rest[0] != '"'
    ensures ReadQuoted(Escape(s) + "\"" + rest) == Some((s, rest))
    decreases |s|
  {
    if |s| == 0 {
      assert Escape(s) + "\"" + rest == "\"" + rest;
      QuotedEnd(rest);
    } else {
      ReadEscaped(s[1..], rest);
      EscapedStep(s, rest);
    }
  }

  /** One more character in front of an escaped cell that reads back. */
  lemma EscapedStep(s: string, rest: string)
    requires |s| > 0
    requires ReadQuoted(Escape(s[1..]) + "\"" + rest) == Some((s[1..], rest))
    ensures ReadQuoted(Escape(s) + "\"" + rest) == Some((s, rest))
  {
    var tail := Escape(s[1..]) + "\"" + rest;
    if s[0] == '"' {
      assert Escape(s) + "\"" + rest == "\"\"" + tail;
      QuotedDouble(tail, s[1..], rest);
      assert "\"" + s[1..] == s;
    } else {
      assert Escape(s) + "\"" + rest == [s[0]] + tail;
      QuotedPlain(s[0], tail, s[1..], rest);
      assert [s[0]] + s[1..] == s;
    }
  }

  lemma QuotedEnd(rest: string)
    requires |rest| == 0 || rest[0] != '"'
    ensures ReadQuoted("\"" + rest) == Some(("", rest))
  {
    assert ("\"" + rest)[1..] == rest;
  }

  lemma QuotedDouble(tail: string, c: string, rest: string)
    requires ReadQuoted(tail) == Some((c, rest))
    ensures ReadQuoted("\"\"" + tail) == Some(("\"" + c, rest))
  {
    assert ("\"\"" + tail)[2..] == tail;
  }

  lemma QuotedPlain(x: char, tail: string, c: string, rest: string)
    requires x != '"' && ReadQuoted(tail) == Some((c, rest))
    ensures ReadQuoted([x] + tail) == Some(([x] + c, rest))
  {
    assert ([x] + tail)[1..] == tail;
  }

  /** A written line reads back as its cells when what follows it cannot
      continue a cell. */
  lemma {:induction false} ReadWrittenLine(cells: seq<string>, rest: string)
    requires |cells| > 0
    requires |rest| == 0 || (rest[0] != ',' && rest[0] != '"')
    ensures ReadLine(Line(cells) + rest) == Some((cells, rest))
    decreases |cells|
  {
    if |cells| == 1 {
      LineOfOne(cells, rest);
    } else {
      ReadWrittenLine(cells[1..], rest);
      LineOfMore(cells, rest);
    }
  }

  lemma LineOfOne(cells: seq<string>, rest: string)
    requires |cells| == 1
    requires |rest| == 0 || (rest[0] != ',' && rest[0] != '"')
    ensures ReadLine(Line(cells) + rest) == Some((cells, rest))
  {
    var t := Line(cells) + rest;
    assert Line(cells) == Cell(cells[0]);
    ReadFirstCell(cells[0], rest, t);
    LineEnds(t, cells[0], rest);
    assert [cells[0]] == cells;
  }

  lemma LineOfMore(cells: seq<string>, rest: string)
    requires |cells| > 1
    requires ReadLine(Line(cells[1..]) + rest) == Some((cells[1..], rest))
    ensures ReadLine(Line(cells) + rest) == Some((cells, rest))
  {
    LineCons(cells, rest);
    CellThenLine(cells[0], Line(cells[1..]) + rest, cells[1..], rest);
    assert [cells[0]] + cells[1..] == cells;
  }

  lemma LineCons(cells: seq<string>, rest: string)
    requires |cells| > 1
    ensures Line(cells) + rest == Cell(cells[0]) + ("," + (Line(cells[1..]) + rest))
  {
    assert Line(cells) == Cell(cells[0]) + "," + Line(cells[1..]);
    Regroup(Cell(cells[0]), ",", Line(cells[1..]), rest);
  }

  lemma Regroup3(a: string, b: string, c: string)
    ensures a + b + c == a + (b + c)
  {
  }

  lemma Regroup(a: string, b: string, c: string, d: string)
    ensures a + b + c + d == a + (b + (c + d))
  {
  }

  /** A cell, a comma and a line that reads back read back as one line. */
  lemma CellThenLine(c: string, more: string, cs: seq<string>, after: string)
    requires ReadLine(more) == Some((cs, after))
    ensures ReadLine(Cell(c) + ("," + more)) == Some(([c] + cs, after))
  {
    var t := Cell(c) + ("," + more);
    ReadFirstCell(c, "," + more, t);
    assert ("," + more)[1..] == more;
    LineGoesOn(t, c, "," + more, cs, after);
  }

  /** The first quoted cell of a text reads back. */
  lemma ReadFirstCell(c: string, rest: string, t: string)
    requires |rest| == 0 || rest[0] != '"'
    requires t == Cell(c) + rest
    ensures |t| > 0 && t[0] == '"' && ReadQuoted(t[1..]) == Some((c, rest))
  {
    assert t == "\"" + (Escape(c) + "\"" + rest);
    assert t[1..] == Escape(c) + "\"" + rest;
    ReadEscaped(c, rest);
  }

  lemma LineEnds(t: string, c: string, rest: string)
    requires |t| > 0 && t[0] == '"' && ReadQuoted(t[1..]) == Some((c, rest))
    requires |rest| == 0 || rest[0] != ','
    ensures ReadLine(t) == Some(([c], rest))
  {
  }

  lemma LineGoesOn(t: string, c: string, rest: string, cs: seq<string>, after: string)
    requires |t| > 0 && t[0] == '"' && ReadQuoted(t[1..]) == Some((c, rest))
    requires |rest| > 0 && rest[0] == ',' && ReadLine(rest[1..]) == Some((cs, after))
    ensures ReadLine(t) == Some(([c] + cs, after))
  {
  }

  /** A written table of non-empty lines reads back as itself. */
  lemma {:induction false} ReadWrittenTable(rows: seq<seq<string>>)
    requires |rows| > 0
    requires forall i :: 0 <= i < |rows| ==> |rows[i]| > 0
    ensures ReadTable(Table(rows)) == Some(rows)
    decreases |rows|
  {
    if |rows| == 1 {
      TableOfOne(rows);
    } else {
      ReadWrittenTable(rows[1..]);
      TableOfMore(rows);
    }
  }

  lemma TableOfOne(rows: seq<seq<string>>)
    requires |rows| == 1 && |rows[0]| > 0
    ensures ReadTable(Table(rows)) == Some(rows)
  {
    assert Table(rows) == Line(rows[0]) + "";
    ReadWrittenLine(rows[0], "");
    assert [rows[0]] == rows;
  }

  lemma TableOfMore(rows: seq<seq<string>>)
    requires |rows| > 1 && |rows[0]| > 0
    requires ReadTable(Table(rows[1..])) == Some(rows[1..])
    ensures ReadTable(Table(rows)) == Some(rows)
  {
    var more := Table(rows[1..]);
    assert Table(rows) == Line(rows[0]) + "\n" + more;
    Regroup3(Line(rows[0]), "\n", more);
    ReadWrittenLine(rows[0], "\n" + more);
    TableGoesOn(Table(rows), rows[0], more, rows[1..]);
    assert [rows[0]] + rows[1..] == rows;
  }

  lemma TableGoesOn(t: string, cells: seq<string>, more: string, rows: seq<seq<string>>)
    requires ReadLine(t) == Some((cells, "\n" + more))
    requires ReadTable(more) == Some(rows)
    ensures ReadTable(t) == Some([cells] + rows)
  {
    assert ("\n" + more)[1..] == more;
  }

  // ---------------------------------------------------------------------------
  // The export of the listing

  function Header(): seq<string> {
    ["unidade", "modalidade", "ingresso", "codigo", "titulo", "url"]
  }

  /** The link column: the normalised link, or the original text when there
      is none. */
  function LinkColumn(rec: LinkRecord): (s: string)
    ensures rec.url.Some? && rec.url.value != "" ==> s == rec.url.value
    ensures rec.url.None? ==> s == rec.rawUrl
  {
    if rec.url.Some? && rec.url.value != "" then rec.url.value else rec.rawUrl
  }

  /** One exported row: unit, modality, admission type, code, title, link. */
  function Row(rec: LinkRecord): seq<string> {
    [rec.unitName, rec.modalityLabel, rec.typeLabel, rec.code, rec.processTitle, LinkColumn(rec)]
  }

  function Rows(records: seq<LinkRecord>): (r: seq<seq<string>>)
    ensures |r| == |records|
    ensures forall i :: 0 <= i < |r| ==> r[i] == Row(records[i])
  {
    if |records| == 0 then [] else [Row(records[0])] + Rows(records[1..])
  }

  /** The export text: a header line, then one line per record; reading it
      back gives the header and every record's row, in order. */
  function ToCsv(records: seq<LinkRecord>): (text: string)
    ensures ReadTable(text) == Some([Header()] + Rows(records))
  {
    var rows := [Header()] + Rows(records);
    assert forall i :: 0 <= i < |rows| ==> |rows[i]| == 6;
    ReadWrittenTable(rows);
    Table(rows)
  }
}

=== FILE: legacy.dfy ===
/** The compatibility layer: the built catalog and offers flattened into the
    older shape, unit, then modality, then a list of `{nome, turno}` rows with
    one row per course and shift. `legacy.js` stores the result in
    `window.coursesData`. The course panel reads a table of this same shape,
    but from `window.PORTAL_COURSES`, which none of the modelled scripts
    sets. */
module Legacy {
  import opened Wrappers
  import opened Seqs
  import opened Assoc
  import opened Turnos
  import opened Catalog

  /** `catalog[id]?.name || id`: the catalog's name for the course, or the id
      itself when the course is missing or its name is empty. */
  function RowName(catalog: Dict<Course>, id: string): (n: string)
    ensures Get(catalog, id).Some? && Get(catalog, id).value.name != "" ==> n == Get(catalog, id).value.name
    ensures Get(catalog, id).None? ==> n == id
    ensures n == "" ==> id == ""
  {
    match Get(catalog, id)
    case Some(course) => if course.name != "" then course.name else id
    case None => id
  }

  /** One block per offer: its course name with each of its shifts. */
  function OfferBlocks(catalog: Dict<Course>, list: seq<Offer>): (r: seq<seq<Shift>>)
    ensures |r| == |list|
    ensures forall k :: 0 <= k < |list| ==> r[k] == Pairs(RowName(catalog, list[k].id), list[k].turnos)
  {
    seq(|list|, k requires 0 <= k < |list| => Pairs(RowName(catalog, list[k].id), list[k].turnos))
  }

  /** The rows of one modality: the offers' blocks one after the other. */
  function Rows(catalog: Dict<Course>, list: seq<Offer>): (rows: seq<Shift>)
    ensures |rows| == TotalLength(OfferBlocks(catalog, list))
  {
    Concat(OfferBlocks(catalog, list))
  }

  /** The whole older table, with the same units and, under each unit, the
      same modalities as the built offers. */
  function Flatten(built: Built): (r: Dict<Dict<seq<Shift>>>)
    ensures Keys(r) == Keys(built.offers)
    ensures forall u :: Get(r, u).Some? <==> Get(built.offers, u).Some?
    ensures forall u :: Get(r, u).Some? ==> Keys(Get(r, u).value) == Keys(Get(built.offers, u).value)
  {
    MapValues(built.offers, (u: string, ms: Dict<seq<Offer>>) =>
      MapValues(ms, (m: string, list: seq<Offer>) => Rows(built.catalog, list)))
  }

  /** `legacy[u][m]`. */
  function RowsAt(table: Dict<Dict<seq<Shift>>>, u: string, m: string): Option<seq<Shift>> {
    match Get(table, u)
    case None => None
    case Some(ms) => Get(ms, m)
  }

  /** The rows stored for a unit and modality are the flattening of the list
      built there, and there are rows exactly where there is a list. */
  lemma FlattenAt(built: Built, u: string, m: string)
    ensures RowsAt(Flatten(built), u, m) ==
      match ListAt(built.offers, u, m)
      case None => None
      case Some(list) => Some(Rows(built.catalog, list))
  {
  }

  /** Row count: one row per offer and shift. */
  lemma {:induction false} RowCount(catalog: Dict<Course>, list: seq<Offer>)
    ensures |Rows(catalog, list)| == ShiftTotal(list)
    decreases |list|
  {
    if |list| > 0 {
      RowCount(catalog, list[1..]);
      assert OfferBlocks(catalog, list)[1..] == OfferBlocks(catalog, list[1..]);
    }
  }

  function ShiftTotal(list: seq<Offer>): nat {
    if |list| == 0 then 0 else |list[0].turnos| + ShiftTotal(list[1..])
  }

  /** Row order: offers in list order, and each offer's shifts in their
      order. */
  lemma RowOrder(catalog: Dict<Course>, list: seq<Offer>, k: nat, j: nat)
    requires k < |list| && j < |list[k].turnos|
    ensures Offset(OfferBlocks(catalog, list), k) + j < |Rows(catalog, list)|
    ensures Rows(catalog, list)[Offset(OfferBlocks(catalog, list), k) + j] ==
      Shift(RowName(catalog, list[k].id), list[k].turnos[j])
  {
    ConcatIndex(OfferBlocks(catalog, list), k, j);
  }

  /** A row is present exactly when some offer with that name lists that
      shift. */
  lemma RowMembers(catalog: Dict<Course>, list: seq<Offer>, s: Shift)
    ensures s in Rows(catalog, list) <==>
      exists k :: 0 <= k < |list| && RowName(catalog, list[k].id) == s.nome && s.turno in list[k].turnos
  {
    var blocks := OfferBlocks(catalog, list);
    ConcatMember(blocks, s);
    if s in Rows(catalog, list) {
      var k :| 0 <= k < |blocks| && s in blocks[k];
      var j :| 0 <= j < |blocks[k]| && blocks[k][j] == s;
      assert list[k].turnos[j] == s.turno;
    }
    if exists k :: 0 <= k < |list| && RowName(catalog, list[k].id) == s.nome && s.turno in list[k].turnos {
      var k :| 0 <= k < |list| && RowName(catalog, list[k].id) == s.nome && s.turno in list[k].turnos;
      var j :| 0 <= j < |list[k].turnos| && list[k].turnos[j] == s.turno;
      assert blocks[k][j] == s;
    }
  }

  /** For a list the builder produced, every row carries the catalog's name
      of its course (or its id when that name is empty). */
  lemma BuiltRowNames(raw: RawOffers, coll: (string, string) -> bool, u: string, m: string, o: Offer)
    requires ListAt(Build(raw, coll).offers, u, m).Some?
    requires o in ListAt(Build(raw, coll).offers, u, m).value
    ensures Get(Build(raw, coll).catalog, o.id).Some?
    ensures var name := Get(Build(raw, coll).catalog, o.id).value.name;
      RowName(Build(raw, coll).catalog, o.id) == if name != "" then name else o.id
  {
    BuildOffers(raw, coll, u, m, o);
  }
}

=== FILE: links.dfy ===
/** The classification helpers of the enrolment-links page: the accent- and
    case-insensitive text normalisation, the process-type and modality
    classifiers, the unit key and its display name, and the canonical wizard
    URL. */
module Links {
  import opened Wrappers
  import opened Text

  /** The process types a link can lead to. */
  datatype TypeKey = Vestibular | Matricula | TypeOther {
    /** The key as the page stores and filters it. */
    function Name(): string {
      match this
      case Vestibular => "vestibular"
      case Matricula => "matricula"
      case TypeOther => "outro"
    }

    function Label(): string {
      match this
      case Vestibular => "Vestibular"
      case Matricula => "Matr\U{ED}cula"
      case TypeOther => "Outro"
    }

    /** Position in the listing order. */
    function Rank(): nat {
      match this
      case Vestibular => 0
      case Matricula => 1
      case TypeOther => 2
    }
  }

  /** The study modalities a link can belong to. */
  datatype ModalityKey = Ead | Semipresencial | Flex | Hibrido | Presencial | ModalityOther {
    function Name(): string {
      match this
      case Ead => "ead"
      case Semipresencial => "semipresencial"
      case Flex => "flex"
      case Hibrido => "hibrido"
      case Presencial => "presencial"
      case ModalityOther => "outro"
    }

    function Label(): string {
      match this
      case Ead => "100% EAD"
      case Semipresencial => "Semipresencial"
      case Flex => "Flex"
      case Hibrido => "H\U{ED}brido"
      case Presencial => "Presencial"
      case ModalityOther => "Outro"
    }

    function Rank(): nat {
      match this
      case Ead => 0
      case Semipresencial => 1
      case Flex => 2
      case Hibrido => 3
      case Presencial => 4
      case ModalityOther => 5
    }
  }

  /** The Unicode `Diacritic` property on the range the portal's text uses:
      the spacing accents of Latin-1, the modifier letters and the combining
      diacritical marks. */
  predicate IsDiacritic(c: char) {
    c == '^' || c == '`' || c == '\U{A8}' || c == '\U{AF}' || c == '\U{B4}'
    || c == '\U{B7}' || c == '\U{B8}'
    || ('\U{2B0}' <= c <= '\U{2FF}')
    || ('\U{300}' <= c <= '\U{34E}') || ('\U{350}' <= c <= '\U{357}') || ('\U{35D}' <= c <= '\U{362}')
  }

  predicate NotDiacritic(c: char) { !IsDiacritic(c) }

  /** The page's text normalisation: trim, lower-case, decompose and drop the
      diacritics. */
  function Norm(v: string): (r: string)
    ensures forall c :: c in r ==> !IsDiacritic(c)
  {
    KeepChars(Nfd(Lower(Trim(v))), NotDiacritic)
  }

  /** Normalisation keeps substrings. */
  lemma NormContains(s: string, t: string)
    requires Contains(s, t)
    ensures Contains(Norm(s), Norm(t))
  {
    var u := Trim(t);
    ContainsTrans(s, t, u);
    ContainsTrim(s, u);
    ContainsLower(Trim(s), u);
    ContainsNfd(Lower(Trim(s)), Lower(u));
    ContainsKeep(Nfd(Lower(Trim(s))), Nfd(Lower(u)), NotDiacritic);
  }

  /** Classifies a text by the process type it names: a mention of `vestib`
      wins over one of `matric`. */
  function ParseType(txt: string): (r: TypeKey)
    ensures r == Vestibular <==> Contains(Norm(txt), "vestib")
    ensures r == Matricula <==> !Contains(Norm(txt), "vestib") && Contains(Norm(txt), "matric")
  {
    var t := Norm(txt);
    if Contains(t, "vestib") then Vestibular
    else if Contains(t, "matric") then Matricula
    else TypeOther
  }

  /** Classifies a text by modality. The tests run in a fixed order, so a
      "semipresencial flex" offer is Flex and "semipresencial" is never taken
      for "presencial". */
  function ParseModality(txt: string): (r: ModalityKey)
    ensures r == Flex <==> Contains(Norm(txt), "flex")
    ensures r == Semipresencial <==> !Contains(Norm(txt), "flex") && Contains(Norm(txt), "semi")
    ensures r == Ead <==>
      (!Contains(Norm(txt), "flex") && !Contains(Norm(txt), "semi")
       && (Contains(Norm(txt), "ead") || Contains(Norm(txt), "online")))
    ensures r == Hibrido <==>
      (!Contains(Norm(txt), "flex") && !Contains(Norm(txt), "semi")
       && !Contains(Norm(txt), "ead") && !Contains(Norm(txt), "online")
       && Contains(Norm(txt), "hibrid"))
    ensures r == Presencial <==>
      (!Contains(Norm(txt), "flex") && !Contains(Norm(txt), "semi")
       && !Contains(Norm(txt), "ead") && !Contains(Norm(txt), "online")
       && !Contains(Norm(txt), "hibrid") && Contains(Norm(txt), "presencial"))
    ensures r == ModalityOther ==> !Contains(Norm(txt), "presencial")
  {
    var t := Norm(txt);
    if Contains(t, "flex") then Flex
    else if Contains(t, "semi") then Semipresencial
    else if Contains(t, "ead") || Contains(t, "online") then Ead
    else if Contains(t, "hibrid") then Hibrido
    else if Contains(t, "presencial") then Presencial
    else ModalityOther
  }

  /** A character normalisation leaves alone: already lower-case, nothing to
      decompose, not a diacritic. */
  predicate Stable(c: char) {
    LowerChar(c) == c && |Decompose(c)| == 1 && !IsDiacritic(c)
  }

  /** Text whose characters all become stable when lower-cased normalises to
      its lower-case form. */
  lemma NormLower(s: string)
    requires NoSpaceAtEnds(s)
    requires forall i :: 0 <= i < |s| ==> Stable(LowerChar(s[i]))
    ensures Norm(s) == Lower(s)
  {
    TrimNoEnds(s);
    LowerStable(s);
    StableFixed(Lower(s));
  }

  lemma LowerStable(s: string)
    requires forall i :: 0 <= i < |s| ==> Stable(LowerChar(s[i]))
    ensures forall i :: 0 <= i < |Lower(s)| ==> Stable(Lower(s)[i])
  {
  }

  /** Decomposing and dropping diacritics leave stable text alone. */
  lemma StableFixed(low: string)
    requires forall i :: 0 <= i < |low| ==> Stable(low[i])
    ensures KeepChars(Nfd(low), NotDiacritic) == low
  {
    NfdStable(low);
    KeepStable(low);
  }

  lemma {:induction false} NfdStable(s: string)
    requires forall i :: 0 <= i < |s| ==> Stable(s[i])
    ensures Nfd(s) == s
  {
    if |s| > 0 {
      assert Decompose(s[0]) == [s[0]];
      NfdStable(s[1..]);
    }
  }

  lemma {:induction false} KeepStable(s: string)
    requires forall i :: 0 <= i < |s| ==> Stable(s[i])
    ensures KeepChars(s, NotDiacritic) == s
  {
    if |s| > 0 {
      KeepStable(s[1..]);
    }
  }

  /** A classification rule: the key it selects and the words any of which
      selects it. */
  datatype Rule<K> = Rule(needles: seq<string>, key: K)

  predicate Fires<K>(rule: Rule<K>, t: string) {
    exists j :: 0 <= j < |rule.needles| && Contains(t, rule.needles[j])
  }

  /** The key of the first rule that fires, or `fallback`. */
  function FirstMatch<K>(rules: seq<Rule<K>>, t: string, fallback: K): (r: K)
    ensures forall i :: (0 <= i < |rules| && Fires(rules[i], t)
                         && (forall j :: 0 <= j < i ==> !Fires(rules[j], t))) ==> r == rules[i].key
    ensures (forall i :: 0 <= i < |rules| ==> !Fires(rules[i], t)) ==> r == fallback
  {
    if |rules| == 0 then fallback
    else if Fires(rules[0], t) then rules[0].key
    else
      assert forall i :: 1 <= i < |rules| ==> rules[i] == rules[1..][i - 1];
      FirstMatch(rules[1..], t, fallback)
  }

  function TypeRules(): seq<Rule<TypeKey>> {
    [Rule(["vestib"], Vestibular), Rule(["matric"], Matricula)]
  }

  function ModalityRules(): seq<Rule<ModalityKey>> {
    [Rule(["flex"], Flex), Rule(["semi"], Semipresencial), Rule(["ead", "online"], Ead),
     Rule(["hibrid"], Hibrido), Rule(["presencial"], Presencial)]
  }

  /** `ParseType` is the first-match rule table on the normalised text. */
  lemma ParseTypeIsFirstMatch(txt: string)
    ensures ParseType(txt) == FirstMatch(TypeRules(), Norm(txt), TypeOther)
  {
    var t, rules := Norm(txt), TypeRules();
    assert Fires(rules[0], t) <==> Contains(t, "vestib") by {
      assert rules[0].needles[0] == "vestib";
    }
    assert Fires(rules[1], t) <==> Contains(t, "matric") by {
      assert rules[1].needles[0] == "matric";
    }
  }

  /** `ParseModality` is the first-match rule table on the normalised text. */
  lemma ParseModalityIsFirstMatch(txt: string)
    ensures ParseModality(txt) == FirstMatch(ModalityRules(), Norm(txt), ModalityOther)
  {
    var t := Norm(txt);
    ModalityRulesFire(t);
    ModalityFirstMatch(t);
  }

  lemma ModalityFirstMatch(t: string)
    ensures var rs := ModalityRules();
      FirstMatch(rs, t, ModalityOther)
      == if Fires(rs[0], t) then Flex
         else if Fires(rs[1], t) then Semipresencial
         else if Fires(rs[2], t) then Ead
         else if Fires(rs[3], t) then Hibrido
         else if Fires(rs[4], t) then Presencial
         else ModalityOther
  {
    FirstOfFive(ModalityRules(), t, ModalityOther);
  }

  /** The first match among five rules, spelled out. */
  lemma FirstOfFive<K>(rs: seq<Rule<K>>, t: string, fallback: K)
    requires |rs| == 5
    ensures FirstMatch(rs, t, fallback)
      == if Fires(rs[0], t) then rs[0].key
         else if Fires(rs[1], t) then rs[1].key
         else if Fires(rs[2], t) then rs[2].key
         else if Fires(rs[3], t) then rs[3].key
         else if Fires(rs[4], t) then rs[4].key
         else fallback
  {
    var r1 := rs[1..];
    var r2 := r1[1..];
    var r3 := r2[1..];
    var r4 := r3[1..];
    assert r1[0] == rs[1] && r2[0] == rs[2] && r3[0] == rs[3] && r4[0] == rs[4];
    FirstMatchCons(rs, t, fallback);
    FirstMatchCons(r1, t, fallback);
    FirstMatchCons(r2, t, fallback);
    FirstMatchCons(r3, t, fallback);
    FirstMatchCons(r4, t, fallback);
    assert FirstMatch(r4[1..], t, fallback) == fallback;
  }

  /** The first rule decides when it fires; otherwise the rest do. */
  lemma FirstMatchCons<K>(rules: seq<Rule<K>>, t: string, fallback: K)
    requires |rules| > 0
    ensures FirstMatch(rules, t, fallback) == if Fires(rules[0], t) then rules[0].key else FirstMatch(rules[1..], t, fallback)
  {
  }

  lemma ModalityRulesFire(t: string)
    ensures Fires(ModalityRules()[0], t) <==> Contains(t, "flex")
    ensures Fires(ModalityRules()[1], t) <==> Contains(t, "semi")
    ensures Fires(ModalityRules()[2], t) <==> Contains(t, "ead") || Contains(t, "online")
    ensures Fires(ModalityRules()[3], t) <==> Contains(t, "hibrid")
    ensures Fires(ModalityRules()[4], t) <==> Contains(t, "presencial")
  {
    var rules := ModalityRules();
    assert rules[0].needles[0] == "flex";
    assert rules[1].needles[0] == "semi";
    assert rules[2].needles[0] == "ead" && rules[2].needles[1] == "online";
    assert rules[3].needles[0] == "hibrid";
    assert rules[4].needles[0] == "presencial";
  }

  predicate IsDash(c: char) { c == '-' || c == '\U{2013}' || c == '\U{2014}' }

  function DashToSpace(c: char): char { if IsDash(c) then ' ' else c }

  /** A character of a unit key: a plain space, or a stable character that is
      neither whitespace nor a dash. */
  predicate KeyChar(c: char) {
    c == ' ' || (Stable(c) && !IsSpace(c) && !IsDash(c))
  }

  /** The shape of every unit key: normalised characters, single plain spaces,
      none at the ends. */
  predicate IsUnitKey(k: string) {
    (forall c :: c in k ==> KeyChar(c)) && NoDoubleSpace(k) && NoSpaceAtEnds(k)
  }

  /** The unit alias table: both spellings of the west unit name the Compensa
      campus. */
  function UnitAlias(key: string): (r: string)
    ensures IsUnitKey(key) ==> IsUnitKey(r)
    ensures r != key ==> key == "oeste" || key == "oeste compensa"
  {
    if key == "oeste" || key == "oeste compensa" || key == "compensa" then
      CompensaIsKey("compensa");
      "compensa"
    else key
  }

  lemma CompensaIsKey(k: string)
    requires k == "compensa"
    ensures IsUnitKey(k)
  {
    forall c | c in k
      ensures KeyChar(c)
    {
    }
  }

  /** The unit key of a unit name: normalised, dashes read as spaces, runs of
      whitespace collapsed, trimmed, then resolved through the alias table. */
  function UnitKeyFromName(name: string): (r: string)
    ensures IsUnitKey(r)
  {
    var key := Trim(CollapseSpaces(MapChars(Norm(name), DashToSpace)));
    KeyShape(name);
    UnitAlias(key)
  }

  /** Lower-case, then decompose: every character is stable or a diacritic. */
  lemma {:induction false} NfdLowerChars(t: string)
    ensures forall c :: c in Nfd(Lower(t)) ==> Stable(c) || IsDiacritic(c)
  {
    if |t| > 0 {
      assert Lower(t)[1..] == Lower(t[1..]);
      NfdLowerChars(t[1..]);
      DecomposeLowerChar(t[0]);
    }
  }

  lemma DecomposeLowerChar(c: char)
    ensures forall d :: d in Decompose(LowerChar(c)) ==> Stable(d) || IsDiacritic(d)
  {
    var x := LowerChar(c);
    assert LowerChar(x) == x;
    var dx := Decompose(x);
    if |dx| == 2 {
      assert x == '\U{FF}' || ('\U{E0}' <= x <= '\U{FE}' && LatinBase(x as int - 0xE0) != 0);
      assert 'a' <= dx[0] <= 'z';
      assert 0x300 <= dx[1] as int <= 0x327;
    }
  }

  /** Every character of a normalised text is stable. */
  lemma NormStable(v: string)
    ensures forall c :: c in Norm(v) ==> Stable(c)
  {
    NfdLowerChars(Trim(v));
  }

  lemma KeyShape(name: string)
    ensures IsUnitKey(Trim(CollapseSpaces(MapChars(Norm(name), DashToSpace))))
  {
    var m := MapChars(Norm(name), DashToSpace);
    DashedStable(name);
    var u := CollapseSpaces(m);
    assert forall c :: c in u ==> KeyChar(c);
    KeyOfCollapsed(u);
  }

  /** After dashes become spaces, a normalised text holds spaces and stable
      characters that are not dashes. */
  lemma DashedStable(name: string)
    ensures forall c :: c in MapChars(Norm(name), DashToSpace) ==> c == ' ' || (Stable(c) && !IsDash(c))
  {
    NormStable(name);
    var v := Norm(name);
    var m := MapChars(v, DashToSpace);
    forall c | c in m
      ensures c == ' ' || (Stable(c) && !IsDash(c))
    {
      var i :| 0 <= i < |m| && m[i] == c;
      assert v[i] in v;
    }
  }

  /** Trimming collapsed key characters gives a key. */
  lemma KeyOfCollapsed(u: string)
    requires forall c :: c in u ==> KeyChar(c)
    requires NoDoubleSpace(u)
    ensures IsUnitKey(Trim(u))
  {
    TrimKeeps(u, KeyChar);
  }

  lemma KeyCharsAt(k: string)
    requires IsUnitKey(k)
    ensures forall i :: 0 <= i < |k| ==> KeyChar(k[i])
  {
    forall i | 0 <= i < |k|
      ensures KeyChar(k[i])
    {
      assert k[i] in k;
    }
  }

  /** Deriving a key from a name whose normal form already has the shape of a
      key only applies the alias table. */
  lemma KeyOfNormalKey(name: string)
    requires IsUnitKey(Norm(name))
    ensures UnitKeyFromName(name) == UnitAlias(Norm(name))
  {
    var k := Norm(name);
    KeyCharsAt(k);
    var m := MapChars(k, DashToSpace);
    assert m == k by {
      forall i | 0 <= i < |k|
        ensures m[i] == k[i]
      {
      }
    }
    CollapseSpacesSingle(k);
    TrimNoEnds(k);
  }

  /** A key is its own normal form. */
  lemma NormOfKey(k: string)
    requires IsUnitKey(k)
    ensures Norm(k) == k
  {
    KeyStable(k);
    StableLowered(k);
    NormLower(k);
    LowerFixed(k);
  }

  lemma KeyStable(k: string)
    requires IsUnitKey(k)
    ensures forall i :: 0 <= i < |k| ==> Stable(k[i])
  {
    KeyCharsAt(k);
    assert Stable(' ');
  }

  lemma StableLowered(k: string)
    requires forall i :: 0 <= i < |k| ==> Stable(k[i])
    ensures forall i :: 0 <= i < |k| ==> LowerChar(k[i]) == k[i] && Stable(LowerChar(k[i]))
  {
  }

  lemma LowerFixed(k: string)
    requires forall i :: 0 <= i < |k| ==> LowerChar(k[i]) == k[i]
    ensures Lower(k) == k
  {
  }

  /** Deriving the key of a key changes it only through the alias table, so
      the derivation is idempotent. */
  lemma UnitKeyIdempotent(name: string)
    ensures UnitKeyFromName(UnitKeyFromName(name)) == UnitKeyFromName(name)
  {
    var k := UnitKeyFromName(name);
    NormOfKey(k);
    KeyOfNormalKey(k);
  }

  /** "Oeste" names the Compensa campus. */
  lemma WestName(name: string)
    requires name == "Oeste"
    ensures UnitKeyFromName(name) == "compensa"
  {
    WestNorm(name);
    WestKey(Norm(name));
    KeyOfNormalKey(name);
  }

  lemma WestNorm(name: string)
    requires name == "Oeste"
    ensures Norm(name) == "oeste"
  {
    assert Letters("Oeste");
    LettersStable(name);
    NormLower(name);
    assert LowersTo("Oeste", "oeste");
    LowersToLower(name, "oeste");
  }

  /** `t` is `s` lower-cased, character by character. */
  predicate LowersTo(s: string, t: string)
    decreases |s|
  {
    |s| == |t| && (|s| == 0 || (LowerChar(s[0]) == t[0] && LowersTo(s[1..], t[1..])))
  }

  lemma {:induction false} LowersToLower(s: string, t: string)
    requires LowersTo(s, t)
    ensures Lower(s) == t
    decreases |s|
  {
    if |s| > 0 {
      LowersToLower(s[1..], t[1..]);
      LowerAppend([s[0]], s[1..]);
      assert [s[0]] + s[1..] == s;
      assert [t[0]] + t[1..] == t;
    }
  }

  lemma WestKey(k: string)
    requires k == "oeste"
    ensures IsUnitKey(k)
  {
    forall c | c in k
      ensures KeyChar(c)
    {
    }
  }


  /** "compensa" is already the key of the Compensa campus. */
  lemma CompensaName(name: string)
    requires name == "compensa"
    ensures UnitKeyFromName(name) == "compensa"
  {
    CompensaIsKey(name);
    NormOfKey(name);
    KeyOfNormalKey(name);
  }

  /** The display name of a unit key: the known campuses by name, any other
      key upper-cased. Only the Compensa campus differs from upper-casing. */
  function HumanUnit(key: string): (r: string)
    ensures key != "compensa" ==> r == Upper(key)
    ensures key == "compensa" ==> r == WestDisplayName()
  {
    if key == "sede" then UpperOf("sede", "SEDE"); "SEDE"
    else if key == "leste" then UpperOf("leste", "LESTE"); "LESTE"
    else if key == "sul" then UpperOf("sul", "SUL"); "SUL"
    else if key == "norte" then UpperOf("norte", "NORTE"); "NORTE"
    else if key == "compensa" then WestDisplayName()
    else Upper(key)
  }

  /** The Compensa campus shows both of its names, joined by an em dash.
      The name is assembled from three literals so that proofs about it can
      look at each piece without the verifier unfolding the whole text one
      character at a time. */
  function WestDisplayName(): string {
    "OESTE" + " \U{2014} " + "COMPENSA"
  }

  lemma UpperOf(k: string, u: string)
    requires forall i :: 0 <= i < |k| ==> 'a' <= k[i] <= 'z'
    requires |u| == |k| && forall i :: 0 <= i < |k| ==> u[i] as int == k[i] as int - 32
    ensures Upper(k) == u
  {
    if |k| > 0 {
      UpperOf(k[1..], u[1..]);
    }
  }

  /** The display name of the Compensa campus leads back to its key. */
  lemma WestDisplay(d: string)
    requires d == WestDisplayName()
    ensures UnitKeyFromName(d) == "compensa"
  {
    var m := " \U{2014} ";
    var a, b := "oeste", "compensa";
    WestDisplayNorm("OESTE", m, "COMPENSA", a, b);
    WestDisplayKey(d, a, m, b);
    WestAlias(a, b);
  }

  lemma WestDisplayKey(d: string, a: string, m: string, b: string)
    requires a == "oeste" && m == " \U{2014} " && b == "compensa"
    requires Norm(d) == a + m + b
    ensures UnitKeyFromName(d) == UnitAlias(a + " " + b)
  {
    WestParts(a, m, b);
    DashedName(d, a, m, b);
  }

  lemma WestAlias(a: string, b: string)
    requires a == "oeste" && b == "compensa"
    ensures UnitAlias(a + " " + b) == "compensa"
  {
    assert a + " " + b == "oeste compensa";
  }

  lemma WestParts(a: string, m: string, b: string)
    requires a == "oeste" && m == " \U{2014} " && b == "compensa"
    ensures |a| > 0 && |b| > 0 && |m| > 0
    ensures forall i :: 0 <= i < |a| ==> KeyChar(a[i]) && a[i] != ' '
    ensures forall i :: 0 <= i < |b| ==> KeyChar(b[i]) && b[i] != ' '
    ensures forall i :: 0 <= i < |m| ==> IsSpace(m[i]) || IsDash(m[i])
  {
  }

  /** A normal form made of two words with a separator of spaces and dashes
      between them gives the key of the two words joined by one space. */
  lemma DashedName(d: string, a: string, m: string, b: string)
    requires Norm(d) == a + m + b
    requires |a| > 0 && |b| > 0 && |m| > 0
    requires forall i :: 0 <= i < |a| ==> KeyChar(a[i]) && a[i] != ' '
    requires forall i :: 0 <= i < |b| ==> KeyChar(b[i]) && b[i] != ' '
    requires forall i :: 0 <= i < |m| ==> IsSpace(m[i]) || IsDash(m[i])
    ensures UnitKeyFromName(d) == UnitAlias(a + " " + b)
  {
    var w := MapChars(m, DashToSpace);
    MapCharsAppend(a, m, DashToSpace);
    MapCharsAppend(a + m, b, DashToSpace);
    assert MapChars(a, DashToSpace) == a;
    assert MapChars(b, DashToSpace) == b;
    CollapseAround(a, w, b);
    CollapseSpacesSingle(b);
    var k := a + " " + b;
    assert NoSpaceAtEnds(k) by {
      assert k[0] == a[0] && k[|k| - 1] == b[|b| - 1];
    }
    TrimNoEnds(k);
  }

  lemma WestDisplayNorm(x: string, m: string, y: string, a: string, b: string)
    requires x == "OESTE" && m == " \U{2014} " && y == "COMPENSA"
    requires a == "oeste" && b == "compensa"
    ensures Norm(x + m + y) == a + m + b
  {
    var d := x + m + y;
    WestLower(x, m, y, a, b);
    WestStable(x, m, y);
    assert d[0] == 'O' && d[|d| - 1] == 'A';
    NormLower(d);
  }

  lemma WestLower(x: string, m: string, y: string, a: string, b: string)
    requires x == "OESTE" && m == " \U{2014} " && y == "COMPENSA"
    requires a == "oeste" && b == "compensa"
    ensures Lower(x + m + y) == a + m + b
  {
    LowerAppend(x, m);
    LowerAppend(x + m, y);
    assert Lower(x) == a && Lower(m) == m && Lower(y) == b;
  }

  lemma WestStable(x: string, m: string, y: string)
    requires x == "OESTE" && m == " \U{2014} " && y == "COMPENSA"
    ensures forall i :: 0 <= i < |x + m + y| ==> Stable(LowerChar((x + m + y)[i]))
  {
    assert Letters("OESTE") && Letters("COMPENSA");
    LettersStable(x);
    LettersStable(y);
    DashStable(m);
    var p := (c: char) => Stable(LowerChar(c));
    CharsConcat(x, m, p);
    CharsConcat(x + m, y, p);
  }

  lemma DashStable(m: string)
    requires m == " \U{2014} "
    ensures forall i :: 0 <= i < |m| ==> Stable(LowerChar(m[i]))
  {
    assert StableWhenLowered(" \U{2014} ");
    StableWhenLoweredAt(m);
  }

  /** Text made of Basic Latin letters. */
  predicate Letters(s: string)
    decreases |s|
  {
    |s| == 0 || (('A' <= s[0] <= 'Z' || 'a' <= s[0] <= 'z') && Letters(s[1..]))
  }

  lemma {:induction false} LettersStable(s: string)
    requires Letters(s)
    ensures forall i :: 0 <= i < |s| ==> Stable(LowerChar(s[i]))
    decreases |s|
  {
    if |s| > 0 {
      LettersStable(s[1..]);
      assert forall i :: 1 <= i < |s| ==> s[i] == s[1..][i - 1];
      assert 'a' <= LowerChar(s[0]) <= 'z';
    }
  }

  /** Every character is stable once lower-cased, character by character. */
  predicate StableWhenLowered(s: string)
    decreases |s|
  {
    |s| == 0 || (Stable(LowerChar(s[0])) && StableWhenLowered(s[1..]))
  }

  lemma {:induction false} StableWhenLoweredAt(s: string)
    requires StableWhenLowered(s)
    ensures forall i :: 0 <= i < |s| ==> Stable(LowerChar(s[i]))
    decreases |s|
  {
    if |s| > 0 {
      StableWhenLoweredAt(s[1..]);
      assert forall i :: 1 <= i < |s| ==> s[i] == s[1..][i - 1];
    }
  }

  /** A key character with a one-character upper-case form (every one but
      `ß` and `µ`). */
  predicate CasedKeyChar(c: char) {
    KeyChar(c) && c != '\U{DF}' && c != '\U{B5}'
  }

  lemma UpperCharOf(c: char)
    requires CasedKeyChar(c)
    ensures |UpperChar(c)| == 1 && LowerChar(UpperChar(c)[0]) == c
    ensures IsSpace(UpperChar(c)[0]) <==> IsSpace(c)
  {
    if '\U{E0}' <= c <= '\U{FE}' {
      assert c == '\U{E6}' || c == '\U{F0}' || c == '\U{F7}' || c == '\U{F8}' || c == '\U{FE}';
    }
  }

  lemma {:induction false} LowerUpper(k: string)
    requires forall i :: 0 <= i < |k| ==> CasedKeyChar(k[i])
    ensures |Upper(k)| == |k|
    ensures forall i :: 0 <= i < |k| ==> LowerChar(Upper(k)[i]) == k[i]
    ensures forall i :: 0 <= i < |k| ==> (IsSpace(Upper(k)[i]) <==> IsSpace(k[i]))
  {
    if |k| > 0 {
      UpperCharOf(k[0]);
      LowerUpper(k[1..]);
      var u := Upper(k);
      assert u == UpperChar(k[0]) + Upper(k[1..]);
      forall i | 1 <= i < |k|
        ensures LowerChar(u[i]) == k[i] && (IsSpace(u[i]) <==> IsSpace(k[i]))
      {
        assert u[i] == Upper(k[1..])[i - 1];
      }
    }
  }

  /** Upper-casing a key and deriving the key again gives the key back,
      through the alias table. */
  lemma UpperKey(k: string)
    requires IsUnitKey(k)
    requires forall c :: c in k ==> c != '\U{DF}' && c != '\U{B5}'
    ensures UnitKeyFromName(Upper(k)) == UnitAlias(k)
  {
    forall i | 0 <= i < |k|
      ensures CasedKeyChar(k[i])
    {
      assert k[i] in k;
    }
    LowerUpper(k);
    var u := Upper(k);
    forall i | 0 <= i < |u|
      ensures Stable(LowerChar(u[i]))
    {
    }
    assert Lower(u) == k;
    NormLower(u);
    KeyOfNormalKey(u);
  }

  /** The display name of a unit key leads back to the key; "compensa" is
      covered by `WestDisplay`. */
  lemma DisplayRoundTrip(k: string)
    requires IsUnitKey(k) && UnitAlias(k) == k && k != "compensa"
    requires forall c :: c in k ==> c != '\U{DF}' && c != '\U{B5}'
    ensures UnitKeyFromName(HumanUnit(k)) == k
  {
    UpperKey(k);
  }

  /** What a parsed address exposes: `protocol`, `origin`, `pathname`,
      `search` and `hash` of a WHATWG `URL`. */
  datatype Url = Url(protocol: string, origin: string, pathname: string, search: string, hash: string)

  /** The wizard step every canonical enrolment link points at. */
  function FixedHash(): string {
    "#/es/inscricoeswizard/dados-basicos"
  }

  /** `String(href)`: an absent address reads as the text "undefined". */
  function HrefText(href: Option<string>): string {
    match href
    case Some(h) => h
    case None => "undefined"
  }

  predicate WebProtocol(p: string) { p == "http:" || p == "https:" }

  /** The canonical wizard link for `href`: the address keeps its origin, path
      and query, its fragment is replaced by the wizard step, and anything that
      does not parse or is not http(s) has no link. `parse` is the URL parser,
      resolving against the page's own address; `None` stands for a thrown
      error. */
  function NormalizeWizardUrl(href: Option<string>, parse: string -> Option<Url>): (r: Option<string>)
    ensures r.Some? <==> parse(HrefText(href)).Some? && WebProtocol(parse(HrefText(href)).value.protocol)
    ensures r.Some? ==> EndsWith(r.value, FixedHash())
    ensures r.Some? ==> var u := parse(HrefText(href)).value; StartsWith(r.value, u.origin + u.pathname + u.search)
  {
    match parse(HrefText(href))
    case None => None
    case Some(u) =>
      if WebProtocol(u.protocol) then
        var r := u.origin + u.pathname + u.search + FixedHash();
        assert r[|r| - |FixedHash()|..] == FixedHash();
        Some(r)
      else None
  }

  /** Two addresses that differ only in their fragment get the same link. */
  lemma HashIgnored(h1: Option<string>, h2: Option<string>, parse: string -> Option<Url>)
    requires parse(HrefText(h1)).Some? && parse(HrefText(h2)).Some?
    requires parse(HrefText(h1)).value.(hash := "") == parse(HrefText(h2)).value.(hash := "")
    ensures NormalizeWizardUrl(h1, parse) == NormalizeWizardUrl(h2, parse)
  {
  }

  /** Normalising a canonical link changes nothing, for a parser that reads
      back the parts it was built from. */
  lemma WizardUrlIdempotent(href: Option<string>, parse: string -> Option<Url>)
    requires NormalizeWizardUrl(href, parse).Some?
    requires var u := parse(HrefText(href)).value;
      parse(NormalizeWizardUrl(href, parse).value) == Some(u.(hash := FixedHash()))
    ensures NormalizeWizardUrl(NormalizeWizardUrl(href, parse), parse) == NormalizeWizardUrl(href, parse)
  {
  }

  /** The normalised unit names under which the Compensa campus may also be
      named "oeste" or "compensa" in a title. */
  predicate IsWestAlias(e: string) {
    e == "compensa" || e == "oeste \U{2014} compensa"
  }

  /** The names a title may use for a unit whose normalised name is `e`. */
  function AliasWords(e: string): (r: seq<string>)
    ensures |r| > 0
  {
    if IsWestAlias(e) then ["oeste", "compensa"] else [e]
  }

  /** Whether the normalised title contains one of the normalised words. */
  predicate MentionsAny(p: string, words: seq<string>) {
    exists k :: 0 <= k < |words| && Contains(p, Norm(words[k]))
  }

  /** Whether the normalised title `p` names the unit whose normalised name is
      `e`, either directly or through one of its alias words. */
  predicate MentionsUnit(p: string, e: string) {
    Contains(p, e) || MentionsAny(p, AliasWords(e))
  }

  /** Whether a process title names the unit it is listed under, ignoring
      case, accents and surrounding whitespace; the Compensa campus is also
      recognised by either of its two names. */
  function HasUnitInTitle(processTitle: string, expectedUnit: string): (r: bool)
    ensures Contains(Norm(processTitle), Norm(expectedUnit)) ==> r
    ensures r <==> MentionsUnit(Norm(processTitle), Norm(expectedUnit))
  {
    MentionsUnit(Norm(processTitle), Norm(expectedUnit))
  }

  /** For any unit other than Compensa, the unit is named exactly when the
      title contains its normalised name, or that name normalised again. */
  lemma OtherUnitMentioned(p: string, e: string)
    requires !IsWestAlias(e)
    ensures MentionsUnit(p, e) <==> Contains(p, e) || Contains(p, Norm(e))
  {
    assert AliasWords(e) == [e];
    MentionsOne(p, e);
  }

  /** A one-word list is mentioned exactly when its normalised word is. */
  lemma MentionsOne(p: string, w: string)
    ensures MentionsAny(p, [w]) <==> Contains(p, Norm(w))
  {
    var words := [w];
    assert words[0] == w;
  }

  /** The Compensa campus is named exactly when the title contains its
      normalised name, "oeste" or "compensa". */
  lemma WestMentioned(p: string, e: string)
    requires IsWestAlias(e)
    ensures MentionsUnit(p, e) <==> Contains(p, e) || Contains(p, "oeste") || Contains(p, "compensa")
  {
    var words := AliasWords(e);
    assert words == ["oeste", "compensa"];
    AliasesNormal(words[0]);
    AliasesNormal(words[1]);
    if MentionsAny(p, words) {
      var k :| 0 <= k < |words| && Contains(p, Norm(words[k]));
      assert k == 0 || k == 1;
    }
    if Contains(p, "oeste") {
      assert Contains(p, Norm(words[0]));
    }
    if Contains(p, "compensa") {
      assert Contains(p, Norm(words[1]));
    }
  }

  /** The alias words are already in normal form. */
  lemma AliasesNormal(w: string)
    requires w == "oeste" || w == "compensa"
    ensures Norm(w) == w
  {
    if w == "oeste" {
      WestKey(w);
    } else {
      CompensaIsKey(w);
    }
    NormOfKey(w);
  }

  /** A title that contains the unit name as written names the unit. */
  lemma UnitInTitle(processTitle: string, unitName: string)
    requires Contains(processTitle, unitName)
    ensures HasUnitInTitle(processTitle, unitName)
  {
    NormContains(processTitle, unitName);
  }
}

=== FILE: listing.dfy ===
/** What the links page does with its records once they are built: it drops
    repeated links and orders the rest, counts the quality problems, and
    selects the records the current filters let through. */
module Listing {
  import opened Wrappers
  import opened Text
  import opened Seqs
  import opened Sorting
  import opened Links
  import opened Records

  // ---------------------------------------------------------------------------
  // De-duplication and order

  /** The identity of a link: unit, code, process type and canonical link. */
  datatype LinkId = LinkId(unitKey: string, code: string, typeKey: TypeKey, url: Option<string>)

  function IdOf(rec: LinkRecord): LinkId {
    LinkId(rec.unitKey, rec.code, rec.typeKey, rec.url)
  }

  /** The listing order: unit name under the collator, then modality rank,
      then process-type rank, then code under the collator. */
  function ListingOrder(coll: (string, string) -> bool): (r: (LinkRecord, LinkRecord) -> bool)
    ensures forall a, b :: r(a, b) ==> ListingPair(coll, a, b)
  {
    Then(By((r: LinkRecord) => r.unitName, coll),
      Then(By((r: LinkRecord) => r.modality.Rank() as int, IntLe()),
        Then(By((r: LinkRecord) => r.typeKey.Rank() as int, IntLe()),
          By((r: LinkRecord) => r.code, coll))))
  }

  lemma ListingOrderPreorder(coll: (string, string) -> bool)
    requires TotalPreorder(coll)
    ensures TotalPreorder(ListingOrder(coll))
  {
    IntLePreorder();
    ByPreorder((r: LinkRecord) => r.unitName, coll);
    ByPreorder((r: LinkRecord) => r.modality.Rank() as int, IntLe());
    ByPreorder((r: LinkRecord) => r.typeKey.Rank() as int, IntLe());
    ByPreorder((r: LinkRecord) => r.code, coll);
    ThenPreorder(By((r: LinkRecord) => r.typeKey.Rank() as int, IntLe()), By((r: LinkRecord) => r.code, coll));
    ThenPreorder(By((r: LinkRecord) => r.modality.Rank() as int, IntLe()),
      Then(By((r: LinkRecord) => r.typeKey.Rank() as int, IntLe()), By((r: LinkRecord) => r.code, coll)));
    ThenPreorder(By((r: LinkRecord) => r.unitName, coll),
      Then(By((r: LinkRecord) => r.modality.Rank() as int, IntLe()),
        Then(By((r: LinkRecord) => r.typeKey.Rank() as int, IntLe()), By((r: LinkRecord) => r.code, coll))));
  }

  /** The corrected listing, keyed by the identity tuple rather than by its
      joined text: the first record of each link identity survives, every
      identity in the input is represented, and with a collator the result is
      in listing order. */
  function DedupeAndSort(records: seq<LinkRecord>, coll: (string, string) -> bool): (r: seq<LinkRecord>)
    ensures DistinctBy(r, IdOf)
    ensures forall x :: x in r ==> x in records
    ensures forall x :: x in records ==> exists y :: y in r && IdOf(y) == IdOf(x)
    ensures TotalPreorder(coll) ==> SortedBy(r, ListingOrder(coll))
  {
    assert TotalPreorder(coll) ==> TotalPreorder(ListingOrder(coll)) by {
      if TotalPreorder(coll) {
        ListingOrderPreorder(coll);
      }
    }
    DedupSorted(records, IdOf, ListingOrder(coll));
    SortBy(DedupBy(records, IdOf), ListingOrder(coll))
  }

  /** Sorting after de-duplicating keeps one element per key, from the
      input, for every key of the input. */
  lemma DedupSorted<T(!new), K>(s: seq<T>, key: T -> K, le: (T, T) -> bool)
    ensures var r := SortBy(DedupBy(s, key), le);
      && DistinctBy(r, key)
      && (forall x :: x in r ==> x in s)
      && (forall x :: x in s ==> exists y :: y in r && key(y) == key(x))
  {
    var unique := DedupBy(s, key);
    var sorted := SortBy(unique, le);
    PermutationKeepsDistinctBy(unique, sorted, key);
    IsSubseqElements(unique, s);
    PermutationSameElements(unique, sorted);
  }

  /** The first record of each identity is the one that is listed. */
  lemma FirstSurvives(records: seq<LinkRecord>, coll: (string, string) -> bool, i: int)
    requires 0 <= i < |records| && FirstOfKey(records, IdOf, i)
    ensures records[i] in DedupeAndSort(records, coll)
  {
    var unique := DedupBy(records, IdOf);
    DedupKeepsFirst(records, IdOf, {}, i);
    PermutationSameElements(unique, SortBy(unique, ListingOrder(coll)));
  }

  /** Whether two records tie under the collator on a projected text. */
  predicate TieOn(coll: (string, string) -> bool, a: string, b: string) {
    coll(a, b) && coll(b, a)
  }

  /** The listing order spelled out key by key: by unit name; among equal
      names by modality rank; among equal modalities by type rank; among
      equal types by code. */
  predicate ListingPair(coll: (string, string) -> bool, a: LinkRecord, b: LinkRecord) {
    && coll(a.unitName, b.unitName)
    && (TieOn(coll, a.unitName, b.unitName) ==> a.modality.Rank() <= b.modality.Rank())
    && (TieOn(coll, a.unitName, b.unitName) && a.modality == b.modality ==> a.typeKey.Rank() <= b.typeKey.Rank())
    && (TieOn(coll, a.unitName, b.unitName) && a.modality == b.modality && a.typeKey == b.typeKey ==> coll(a.code, b.code))
  }

  /** A de-duplicated listing is ordered key by key. */
  lemma ListingSorted(records: seq<LinkRecord>, coll: (string, string) -> bool)
    requires TotalPreorder(coll)
    ensures var r := DedupeAndSort(records, coll);
      forall i, j :: 0 <= i < j < |r| ==> ListingPair(coll, r[i], r[j])
  {
    var r := DedupeAndSort(records, coll);
    forall i, j | 0 <= i < j < |r|
      ensures ListingPair(coll, r[i], r[j])
    {
      assert ListingOrder(coll)(r[i], r[j]);
      OrderedPair(coll, r[i], r[j]);
    }
  }

  /** One step of the comparator chain, read key by key. */
  lemma OrderedPair(coll: (string, string) -> bool, a: LinkRecord, b: LinkRecord)
    requires ListingOrder(coll)(a, b)
    ensures ListingPair(coll, a, b)
  {
    assert a.modality == b.modality ==> a.modality.Rank() == b.modality.Rank();
    assert a.typeKey == b.typeKey ==> a.typeKey.Rank() == b.typeKey.Rank();
  }

  // ---------------------------------------------------------------------------
  // The de-duplication key as the page writes it

  /** The page's key: the four identity fields joined with `|`, a missing
      link joining as the empty text. */
  function JoinedKey(rec: LinkRecord): string {
    Join([rec.unitKey, rec.code, rec.typeKey.Name(), rec.url.GetOr("")], "|")
  }

  /** De-duplication and order exactly as written, keyed by the joined text:
      the first record of each joined key survives, every joined key in the
      input is represented, and with a collator the result is in listing
      order. */
  function DedupeAndSortAsWritten(records: seq<LinkRecord>, coll: (string, string) -> bool): (r: seq<LinkRecord>)
    ensures DistinctBy(r, JoinedKey)
    ensures |r| <= |records|
    ensures forall x :: x in r ==> x in records
    ensures forall x :: x in records ==> exists y :: y in r && JoinedKey(y) == JoinedKey(x)
    ensures TotalPreorder(coll) ==> SortedBy(r, ListingOrder(coll))
  {
    assert TotalPreorder(coll) ==> TotalPreorder(ListingOrder(coll)) by {
      if TotalPreorder(coll) {
        ListingOrderPreorder(coll);
      }
    }
    var unique := DedupBy(records, JoinedKey);
    var sorted := SortBy(unique, ListingOrder(coll));
    IsSubseqElements(unique, records);
    DedupSorted(records, JoinedKey, ListingOrder(coll));
    sorted
  }

  /** As written, the first record of each joined key is the one listed. */
  lemma FirstSurvivesAsWritten(records: seq<LinkRecord>, coll: (string, string) -> bool, i: int)
    requires 0 <= i < |records| && FirstOfKey(records, JoinedKey, i)
    ensures records[i] in DedupeAndSortAsWritten(records, coll)
  {
    var unique := DedupBy(records, JoinedKey);
    DedupKeepsFirst(records, JoinedKey, {}, i);
    PermutationSameElements(unique, SortBy(unique, ListingOrder(coll)));
  }

  /** Moving a `|`-separated piece across the first separator does not change
      the joined text. */
  lemma JoinShift(u: string, m: string, c: string, t: string, w: string)
    ensures Join([u, m + "|" + c, t, w], "|") == Join([u + "|" + m, c, t, w], "|")
  {
    assert [u, m + "|" + c, t, w][1..] == [m + "|" + c, t, w];
    assert [m + "|" + c, t, w][1..] == [t, w];
    assert [u + "|" + m, c, t, w][1..] == [c, t, w];
    assert [c, t, w][1..] == [t, w];
  }

  /** Two links that differ in unit and code collapse into one when a `|`
      in the code lines up with the separator: the as-written listing keeps
      one of them, the identity-keyed listing keeps both. */
  lemma JoinedKeyCollision(x: LinkRecord, m: string, coll: (string, string) -> bool)
    ensures var a := x.(code := m + "|" + x.code);
      var b := x.(unitKey := x.unitKey + "|" + m);
      && IdOf(a) != IdOf(b)
      && |DedupeAndSortAsWritten([a, b], coll)| == 1
      && |DedupeAndSort([a, b], coll)| == 2
  {
    var a := x.(code := m + "|" + x.code);
    var b := x.(unitKey := x.unitKey + "|" + m);
    assert |a.unitKey| != |b.unitKey|;
    JoinShift(x.unitKey, m, x.code, x.typeKey.Name(), x.url.GetOr(""));
    assert JoinedKey(a) == JoinedKey(b);
    DedupSameKey(a, b, JoinedKey);
    DedupOtherKey(a, b, IdOf);
  }

  // ---------------------------------------------------------------------------
  // Quality counts

  /** The quality panel: how many links there are, how many are outside the
      wizard pattern, how many have no code, and how many disagree with their
      unit. */
  datatype Qa = Qa(total: nat, invalidUrls: nat, emptyCodes: nat, warnings: nat)

  /** A link that is missing or does not end with the wizard fragment. */
  predicate OffPattern(rec: LinkRecord) {
    rec.url.None? || !EndsWith(rec.url.value, FixedHash())
  }

  predicate NoCode(rec: LinkRecord) { rec.code == "" }

  predicate Warned(rec: LinkRecord) { rec.dataWarning }

  function BuildQa(records: seq<LinkRecord>): (qa: Qa)
    ensures qa.total == |records|
    ensures qa.invalidUrls <= qa.total && qa.emptyCodes <= qa.total && qa.warnings <= qa.total
    ensures qa.invalidUrls == |Filter(records, OffPattern)|
    ensures qa.emptyCodes == |Filter(records, NoCode)|
    ensures qa.warnings == |Filter(records, Warned)|
  {
    Qa(|records|, Count(records, OffPattern), Count(records, NoCode), Count(records, Warned))
  }

  /** The panel of two lists shown together is the sum of their panels. */
  lemma QaAdds(a: seq<LinkRecord>, b: seq<LinkRecord>)
    ensures BuildQa(a + b).total == BuildQa(a).total + BuildQa(b).total
    ensures BuildQa(a + b).invalidUrls == BuildQa(a).invalidUrls + BuildQa(b).invalidUrls
    ensures BuildQa(a + b).emptyCodes == BuildQa(a).emptyCodes + BuildQa(b).emptyCodes
    ensures BuildQa(a + b).warnings == BuildQa(a).warnings + BuildQa(b).warnings
  {
    CountConcat(a, b, OffPattern);
    CountConcat(a, b, NoCode);
    CountConcat(a, b, Warned);
  }

  /** Among built records only the ones whose link could not be normalised
      are counted as off-pattern. */
  lemma OffPatternIsMissing(records: seq<LinkRecord>)
    requires All(records, Sound)
    ensures BuildQa(records).invalidUrls == Count(records, (x: LinkRecord) => x.url.None?)
  {
    CountSame(records, OffPattern, (x: LinkRecord) => x.url.None?);
  }

  /** Records built from the portal listing never disagree with their unit. */
  lemma PortalWarnsNothing(records: seq<LinkRecord>)
    requires All(records, PortalShaped)
    ensures BuildQa(records).warnings == 0
  {
    CountSame(records, Warned, (x: LinkRecord) => false);
    NoneCounted(records);
  }

  lemma {:induction false} NoneCounted(records: seq<LinkRecord>)
    ensures Count(records, (x: LinkRecord) => false) == 0
  {
    if |records| > 0 {
      NoneCounted(records[1..]);
    }
  }

  // ---------------------------------------------------------------------------
  // Filters

  /** The page's filter controls; `"all"` switches a control off. */
  datatype Filters = Filters(query: string, unit: string, modality: string, kind: string)

  /** Whether one record passes the controls, with `q` the normalised query. */
  predicate Passes(f: Filters, q: string, rec: LinkRecord) {
    && (f.unit == "all" || rec.unitKey == f.unit)
    && (f.modality == "all" || rec.modality.Name() == f.modality)
    && (f.kind == "all" || rec.typeKey.Name() == f.kind)
    && (q == "" || Contains(rec.searchable, q))
  }

  /** The records shown for the current controls, in their listed order. */
  function ApplyFilters(records: seq<LinkRecord>, f: Filters): (r: seq<LinkRecord>)
    ensures IsSubseq(r, records)
    ensures forall x :: x in r <==> x in records && Passes(f, Norm(f.query), x)
  {
    var q := Norm(f.query);
    Filter(records, x => Passes(f, q, x))
  }

  /** Filtering what is already filtered changes nothing. */
  lemma FiltersIdempotent(records: seq<LinkRecord>, f: Filters)
    ensures ApplyFilters(ApplyFilters(records, f), f) == ApplyFilters(records, f)
  {
    var q := Norm(f.query);
    FilterIdempotent(records, x => Passes(f, q, x));
  }

  /** With every control switched off and an empty query, everything is shown. */
  lemma NoFilterKeepsAll(records: seq<LinkRecord>, query: string)
    requires Norm(query) == ""
    ensures ApplyFilters(records, Filters(query, "all", "all", "all")) == records
  {
    var f := Filters(query, "all", "all", "all");
    FilterAll(records, x => Passes(f, Norm(f.query), x));
  }

  /** Searching for a record's unit name finds every built record of that unit
      the other controls let through. */
  lemma UnitSearchFinds(records: seq<LinkRecord>, f: Filters, rec: LinkRecord)
    requires rec in records && Findable(rec)
    requires Norm(f.query) == Norm(rec.unitName)
    requires f.unit == "all" || rec.unitKey == f.unit
    requires f.modality == "all" || rec.modality.Name() == f.modality
    requires f.kind == "all" || rec.typeKey.Name() == f.kind
    ensures rec in ApplyFilters(records, f)
  {
    assert Passes(f, Norm(f.query), rec);
  }

  /** Searching for a portal link's code finds its record among the records of
      the links whenever the other controls let it through. */
  lemma CodeSearchFinds(links: seq<PortalLink>, parse: string -> Option<Url>, f: Filters, l: PortalLink)
    requires l in links
    requires Norm(f.query) == Norm(l.item.code.GetOr(""))
    requires f.unit == "all" || l.unitKey == f.unit
    requires f.modality == "all" || ParseModality(l.item.modality.GetOr("") + " " + l.blockKey).Name() == f.modality
    requires f.kind == "all" || ParseType(l.item.kind.GetOr("")).Name() == f.kind
    ensures ItemRecord(l, parse) in ApplyFilters(MapSeq(links, x => ItemRecord(x, parse)), f)
  {
    var records := MapSeq(links, x => ItemRecord(x, parse));
    var rec := ItemRecord(l, parse);
    var k :| 0 <= k < |links| && links[k] == l;
    assert records[k] == rec;
    assert l.item.code.GetOr("") in [l.unitName, rec.processTitle, l.item.code.GetOr(""), l.item.href.GetOr("")];
    assert Passes(f, Norm(f.query), rec);
  }
}

=== FILE: naming.dfy ===
/** The comparison key `normalizeKey` and the slug `toId` of the catalog builder. */
module Naming {
  import opened Text

  predicate NotMark(c: char) { !IsCombiningMark(c) }

  /** `normalizeKey`: trim, lower-case, decompose, drop combining marks and
      collapse whitespace runs to one space. */
  function NormalizeKey(s: string): (r: string)
    ensures forall c :: c in r ==> !IsCombiningMark(c)
    ensures NoDoubleSpace(r)
    ensures forall c :: c in r && IsSpace(c) ==> c == ' '
  {
    CollapseSpaces(KeepChars(Nfd(Lower(Trim(s))), NotMark))
  }

  /** For a name written in plain words the key is the name folded letter by
      letter: lower case, accents dropped, spacing unchanged. */
  lemma NormalizeKeyPlain(s: string)
    requires Plain(s)
    ensures NormalizeKey(s) == Fold(s)
  {
    assert TrimStart(s) == s;
    assert TrimEnd(s) == s;
    var t := Lower(s);
    StripMarksOfPlain(s);
    StripAfterNfd(t, NotMark);
    var u := KeepChars(Nfd(t), NotMark);
    assert u == Fold(s);
    FoldSingleSpaced(s);
    CollapseSpacesSingle(u);
  }

  /** The base letter of every lower-cased plain character is kept by the mark filter. */
  lemma StripMarksOfPlain(s: string)
    requires PlainWords(s)
    ensures forall i :: 0 <= i < |s| ==> NotMark(Base(Lower(s)[i]))
  {
    forall i | 0 <= i < |s|
      ensures NotMark(Base(Lower(s)[i]))
    {
      FoldCharFacts(s[i]);
    }
  }

  /** The key of words joined by single spaces is the folded words, joined the
      same way. */
  lemma KeyOfWords(ws: seq<string>)
    requires |ws| > 0
    requires forall k :: 0 <= k < |ws| ==> PlainWord(ws[k])
    ensures NormalizeKey(Words(ws)) == Words(FoldAll(ws))
  {
    WordsPlain(ws);
    NormalizeKeyPlain(Words(ws));
    FoldWords(ws);
  }

  /** Trimming first does not change the key. */
  lemma NormalizeKeyOfTrim(s: string)
    ensures NormalizeKey(Trim(s)) == NormalizeKey(s)
  {
    TrimIdempotent(s);
  }

  /** `s.replace(/\s+/g, "_")`, applied to a string whose only spaces are single `' '`. */
  function Underscored(s: string): (r: string)
    ensures |r| == |s|
  {
    MapChars(s, c => if c == ' ' then '_' else c)
  }

  predicate WordOrSpace(c: char) { IsWordChar(c) || IsSpace(c) }

  /** `toId`: the key, with everything but `[A-Za-z0-9_]` and whitespace removed
      and each whitespace run turned into `_`. */
  function ToId(name: string): (r: string)
    ensures forall c :: c in r ==> IsWordChar(c)
    ensures |r| <= |NormalizeKey(name)|
  {
    var kept := KeepChars(NormalizeKey(name), WordOrSpace);
    var collapsed := CollapseSpaces(kept);
    var r := Underscored(collapsed);
    assert forall i :: 0 <= i < |collapsed| ==> collapsed[i] in collapsed;
    r
  }

  /** A name whose key has no punctuation gets the key itself as id, with `_` for each space. */
  lemma ToIdOfWordKey(name: string)
    requires forall c :: c in NormalizeKey(name) ==> WordOrSpace(c)
    ensures ToId(name) == Underscored(NormalizeKey(name))
  {
    var k := NormalizeKey(name);
    KeepAll(k, WordOrSpace);
    forall i | 0 <= i < |k| ensures IsSpace(k[i]) ==> k[i] == ' ' {
      assert k[i] in k;
    }
    CollapseSpacesSingle(k);
  }
}

=== FILE: panel.dfy ===
/** The course panel of a unit: for the selected modality tab it groups the
    `{nome, turno}` rows of the table in `window.PORTAL_COURSES` (the shape
    `Legacy` builds; no modelled script sets that global) by course name, lets the visitor search by name
    and pick a shift, and shows either course cards, a "nothing matches"
    notice, or a "nothing registered yet" notice. */
module Panel {
  import opened Wrappers
  import opened Text
  import opened Seqs
  import opened Sorting
  import opened Assoc
  import opened Naming
  import opened Turnos

  // ---------------------------------------------------------------------------
  // Search text

  /** `normalize`: lower-case, decompose, drop the combining marks, trim. */
  function Normalize(s: string): (r: string)
    ensures NoSpaceAtEnds(r)
    ensures forall c :: c in r ==> Settled(c)
  {
    var k := KeepChars(Nfd(Lower(s)), NotMark);
    KeptSettled(s);
    ContainsChars(k, Trim(k));
    Trim(k)
  }

  /** A character that lower-casing, decomposition and mark removal all leave
      alone. */
  predicate Settled(c: char) {
    LowerChar(c) == c && Decompose(c) == [c] && NotMark(c)
  }

  /** The pieces of a lower-cased character's decomposition that are not
      marks are settled. */
  lemma DecomposeLowered(c: char)
    ensures forall x :: x in Decompose(LowerChar(c)) && NotMark(x) ==> Settled(x)
  {
    var d := LowerChar(c);
    assert !('\U{C0}' <= d <= '\U{DE}' && d != '\U{D7}');
    if '\U{E0}' <= d <= '\U{FE}' && LatinBase(d as int - 0xE0) != 0 {
      var b := (LatinBase(d as int - 0xE0) + 0x20) as char;
      assert 'a' <= b <= 'y';
      assert Decompose(d) == [b, LatinMark(d as int - 0xE0) as char];
    }
  }

  lemma {:induction false} KeptSettled(s: string)
    ensures forall x :: x in KeepChars(Nfd(Lower(s)), NotMark) ==> Settled(x)
    decreases |s|
  {
    if |s| > 0 {
      KeptSettled(s[1..]);
      DecomposeLowered(s[0]);
      assert Lower(s) == [LowerChar(s[0])] + Lower(s[1..]);
      NfdAppend([LowerChar(s[0])], Lower(s[1..]));
      assert Nfd([LowerChar(s[0])]) == Decompose(LowerChar(s[0]));
      KeepCharsAppend(Decompose(LowerChar(s[0])), Nfd(Lower(s[1..])), NotMark);
    }
  }

  /** Text made of settled characters goes through every step unchanged. */
  lemma {:induction false} SettledFixed(s: string)
    requires forall c :: c in s ==> Settled(c)
    ensures Lower(s) == s && Nfd(s) == s && KeepChars(s, NotMark) == s
    decreases |s|
  {
    if |s| > 0 {
      SettledFixed(s[1..]);
      assert Settled(s[0]);
      assert Nfd(s) == Decompose(s[0]) + Nfd(s[1..]);
    }
    KeepAll(s, NotMark);
  }

  /** Normalising twice is normalising once. */
  lemma NormalizeIdempotent(s: string)
    ensures Normalize(Normalize(s)) == Normalize(s)
  {
    var r := Normalize(s);
    SettledFixed(r);
    TrimNoEnds(r);
  }

  // ---------------------------------------------------------------------------
  // Markup escaping

  /** The entity `escapeHtml` writes for one character. */
  function EscapeChar(c: char): (e: string)
    ensures |e| >= 1
    ensures forall x :: x in e ==> x != '<' && x != '>' && x != '"' && x != '\''
  {
    if c == '&' then "&amp;"
    else if c == '<' then "&lt;"
    else if c == '>' then "&gt;"
    else if c == '"' then "&quot;"
    else if c == '\'' then "&#039;"
    else [c]
  }

  /** The five entities `escapeHtml` writes. */
  function Entities(): seq<string> {
    ["&amp;", "&lt;", "&gt;", "&quot;", "&#039;"]
  }

  /** The text begins with one of the five entities. */
  predicate StartsWithEntity(t: string) {
    exists e :: e in Entities() && e <= t
  }

  /** Every `&` of the text begins an entity. */
  predicate AmpersandsEscaped(r: string) {
    forall i :: 0 <= i < |r| && r[i] == '&' ==> StartsWithEntity(r[i..])
  }

  /** An `&` in the escape of one character is the start of an entity. */
  lemma EscapeCharAmpersand(c: char, i: nat)
    requires i < |EscapeChar(c)| && EscapeChar(c)[i] == '&'
    ensures i == 0 && EscapeChar(c) in Entities()
  {
  }

  /** Escaping one more character in front keeps every `&` the start of an
      entity. */
  lemma EscapeCharThen(c: char, rest: string)
    requires AmpersandsEscaped(rest)
    ensures AmpersandsEscaped(EscapeChar(c) + rest)
  {
    var e := EscapeChar(c);
    var r := e + rest;
    forall i | 0 <= i < |r| && r[i] == '&'
      ensures StartsWithEntity(r[i..])
    {
      if i < |e| {
        assert e[i] == '&';
        EscapeCharAmpersand(c, i);
        assert e <= r[i..];
      } else {
        assert r[i..] == rest[i - |e|..];
        assert rest[i - |e|] == '&';
      }
    }
  }

  /** `escapeHtml`: the text with the five markup characters written as
      entities; what comes out holds none of `<`, `>`, `"` and `'`, and every
      `&` in it begins one of the five entities. */
  function EscapeHtml(s: string): (r: string)
    ensures |r| >= |s|
    ensures forall x :: x in r ==> x != '<' && x != '>' && x != '"' && x != '\''
    ensures AmpersandsEscaped(r)
  {
    if |s| == 0 then ""
    else
      var rest := EscapeHtml(s[1..]);
      EscapeCharThen(s[0], rest);
      EscapeChar(s[0]) + rest
  }

  /** What a browser shows for escaped text: the five entities read back as
      their characters. */
  function Unescape(t: string): (r: string)
    decreases |t|
  {
    if |t| == 0 then ""
    else if "&amp;" <= t then "&" + Unescape(t[5..])
    else if "&lt;" <= t then "<" + Unescape(t[4..])
    else if "&gt;" <= t then ">" + Unescape(t[4..])
    else if "&quot;" <= t then "\"" + Unescape(t[6..])
    else if "&#039;" <= t then "'" + Unescape(t[6..])
    else [t[0]] + Unescape(t[1..])
  }

  /** Escaped text is shown as the original text. */
  lemma {:induction false} EscapeShown(s: string)
    ensures Unescape(EscapeHtml(s)) == s
    decreases |s|
  {
    if |s| > 0 {
      EscapeShown(s[1..]);
      UnescapeChar(s[0], EscapeHtml(s[1..]));
      assert [s[0]] + s[1..] == s;
    }
  }

  /** One escaped character reads back as itself, whatever follows. */
  lemma UnescapeChar(c: char, rest: string)
    ensures Unescape(EscapeChar(c) + rest) == [c] + Unescape(rest)
  {
    if c == '&' || c == '<' || c == '>' {
      UnescapeShort(c, rest);
    } else if c == '"' || c == '\'' {
      UnescapeLong(c, rest);
    } else {
      UnescapePlain(c, rest);
    }
  }

  lemma UnescapePlain(c: char, rest: string)
    requires c != '&' && c != '<' && c != '>' && c != '"' && c != '\''
    ensures Unescape(EscapeChar(c) + rest) == [c] + Unescape(rest)
  {
    var t := [c] + rest;
    assert t[0] == c;
    assert t[1..] == rest;
  }

  lemma UnescapeShort(c: char, rest: string)
    requires c == '&' || c == '<' || c == '>'
    ensures Unescape(EscapeChar(c) + rest) == [c] + Unescape(rest)
  {
    var e := EscapeChar(c);
    var t := e + rest;
    assert t[|e|..] == rest;
    assert t[..|e|] == e && e <= t;
    assert t[1] == e[1];
  }

  lemma UnescapeLong(c: char, rest: string)
    requires c == '"' || c == '\''
    ensures Unescape(EscapeChar(c) + rest) == [c] + Unescape(rest)
  {
    var e := EscapeChar(c);
    var t := e + rest;
    assert t[|e|..] == rest;
    assert t[..|e|] == e && e <= t;
    assert t[1] == e[1];
  }

  // ---------------------------------------------------------------------------
  // Grouping by course name

  /** One row of a tab's list; either field may be missing. */
  datatype Item = Item(nome: Option<string>, turno: Option<string>)

  /** `(item.nome || "").trim()`. */
  function NameOf(it: Item): string { Trim(it.nome.GetOr("")) }

  /** `(item.turno || "").trim()`. */
  function ShiftOf(it: Item): string { Trim(it.turno.GetOr("")) }

  /** Every row's trimmed name and shift, in list order. */
  function Trimmed(items: seq<Item>): (r: seq<(string, string)>)
    ensures |r| == |items|
    ensures forall i :: 0 <= i < |items| ==> r[i] == (NameOf(items[i]), ShiftOf(items[i]))
  {
    seq(|items|, i requires 0 <= i < |items| => (NameOf(items[i]), ShiftOf(items[i])))
  }

  /** A name's shift set after one more row: `set.add(turno)` for a non-empty
      shift, insertion order kept. */
  function AddShift(shifts: Option<seq<string>>, turno: string): seq<string> {
    var known := shifts.GetOr([]);
    if turno == "" || turno in known then known else known + [turno]
  }

  /** The map from names to shift sets after one more (trimmed) row; a row
      with an empty name is skipped. */
  function AddRow(m: Dict<seq<string>>, row: (string, string)): Dict<seq<string>> {
    if row.0 == "" then m
    else Upsert(m, row.0, (known: Option<seq<string>>) => AddShift(known, row.1))
  }

  /** The map after the whole list of trimmed rows. */
  function Collect(rows: seq<(string, string)>): Dict<seq<string>>
    decreases |rows|
  {
    if |rows| == 0 then [] else AddRow(Collect(rows[..|rows| - 1]), rows[|rows| - 1])
  }

  /** The non-empty names of the rows, in order. */
  function NamesSeen(rows: seq<(string, string)>): seq<string>
    decreases |rows|
  {
    if |rows| == 0 then []
    else
      var row := rows[|rows| - 1];
      NamesSeen(rows[..|rows| - 1]) + (if row.0 != "" then [row.0] else [])
  }

  /** The non-empty shifts of the rows named `nome`, in order. */
  function ShiftsOf(rows: seq<(string, string)>, nome: string): seq<string>
    decreases |rows|
  {
    if |rows| == 0 then []
    else
      var row := rows[|rows| - 1];
      var keep := nome != "" && row.0 == nome && row.1 != "";
      ShiftsOf(rows[..|rows| - 1], nome) + (if keep then [row.1] else [])
  }

  /** A name is seen exactly when some row carries it, and it is not empty. */
  lemma {:induction false} NamesSeenMember(rows: seq<(string, string)>, nome: string)
    ensures nome in NamesSeen(rows) <==> nome != "" && exists i :: 0 <= i < |rows| && rows[i].0 == nome
    decreases |rows|
  {
    if |rows| > 0 {
      var prev := rows[..|rows| - 1];
      NamesSeenMember(prev, nome);
      if exists i :: 0 <= i < |prev| && prev[i].0 == nome {
        var i :| 0 <= i < |prev| && prev[i].0 == nome;
        assert rows[i] == prev[i];
      }
      if exists i :: 0 <= i < |rows| && rows[i].0 == nome {
        var i :| 0 <= i < |rows| && rows[i].0 == nome;
        if i < |prev| {
          assert prev[i] == rows[i];
        }
      }
    }
  }

  /** A shift is listed for a name exactly when some row with that name
      carries it, and neither is empty. */
  lemma {:induction false} ShiftsOfMember(rows: seq<(string, string)>, nome: string, turno: string)
    ensures turno in ShiftsOf(rows, nome) <==>
      nome != "" && turno != "" && (nome, turno) in rows
    decreases |rows|
  {
    if |rows| > 0 {
      var prev := rows[..|rows| - 1];
      ShiftsOfMember(prev, nome, turno);
      assert rows == prev + [rows[|rows| - 1]];
    }
  }

  /** A name no row carries has no shifts. */
  lemma {:induction false} ShiftsOfUnseen(rows: seq<(string, string)>, nome: string)
    requires nome !in NamesSeen(rows)
    ensures ShiftsOf(rows, nome) == []
    decreases |rows|
  {
    if |rows| > 0 {
      ShiftsOfUnseen(rows[..|rows| - 1], nome);
    }
  }

  /** The map the loop builds is the reference grouping: its keys are the
      distinct non-empty names in order of first appearance, and each name's
      set holds the distinct non-empty shifts of its rows in order of first
      appearance. */
  lemma {:induction false} CollectMatches(rows: seq<(string, string)>)
    ensures Keys(Collect(rows)) == Uniq(NamesSeen(rows))
    ensures forall n :: Grouped(rows, n)
    decreases |rows|
  {
    if |rows| > 0 {
      var prev := rows[..|rows| - 1];
      var row := rows[|rows| - 1];
      assert prev + [row] == rows;
      CollectMatches(prev);
      CollectKeys(prev, row);
      forall n
        ensures Grouped(rows, n)
      {
        if n == row.0 && row.0 != "" {
          CollectStep(prev, row);
        } else {
          CollectOther(prev, row, n);
        }
      }
    }
  }

  /** The three definitions, one row further. */
  lemma Snoc(prev: seq<(string, string)>, row: (string, string))
    ensures Collect(prev + [row]) == AddRow(Collect(prev), row)
    ensures NamesSeen(prev + [row]) == NamesSeen(prev) + (if row.0 != "" then [row.0] else [])
    ensures forall n ::
      ShiftsOf(prev + [row], n) == ShiftsOf(prev, n) + (if n != "" && row.0 == n && row.1 != "" then [row.1] else [])
  {
    var rows := prev + [row];
    assert rows[..|rows| - 1] == prev && rows[|rows| - 1] == row;
  }

  /** The keys after one more row. */
  lemma CollectKeys(prev: seq<(string, string)>, row: (string, string))
    requires Keys(Collect(prev)) == Uniq(NamesSeen(prev))
    ensures Keys(Collect(prev + [row])) == Uniq(NamesSeen(prev + [row]))
  {
    Snoc(prev, row);
    if row.0 != "" {
      UniqSnoc(NamesSeen(prev), row.0);
    } else {
      assert NamesSeen(prev + [row]) == NamesSeen(prev);
    }
  }

  /** The sets of other names are untouched by a row. */
  lemma CollectOther(prev: seq<(string, string)>, row: (string, string), n: string)
    requires n != row.0 || row.0 == ""
    requires Grouped(prev, n)
    ensures Grouped(prev + [row], n)
  {
    Snoc(prev, row);
    assert ShiftsOf(prev + [row], n) == ShiftsOf(prev, n);
    assert Get(Collect(prev + [row]), n) == Get(Collect(prev), n);
  }

  /** What the map holds for `n`: the reference set when the name was seen,
      nothing otherwise. */
  predicate Grouped(rows: seq<(string, string)>, n: string) {
    Get(Collect(rows), n) == if n in NamesSeen(rows) then Some(Uniq(ShiftsOf(rows, n))) else None
  }

  /** The set of the row's own name after the row. */
  lemma CollectStep(prev: seq<(string, string)>, row: (string, string))
    requires row.0 != ""
    requires forall n :: Grouped(prev, n)
    ensures Grouped(prev + [row], row.0)
  {
    var rows := prev + [row];
    var nome, turno := row.0, row.1;
    assert rows[..|rows| - 1] == prev && rows[|rows| - 1] == row;
    var before := Get(Collect(prev), nome);
    assert Get(Collect(rows), nome) == Some(AddShift(before, turno));
    var shifts := ShiftsOf(prev, nome);
    assert Grouped(prev, nome);
    if nome !in NamesSeen(prev) {
      ShiftsOfUnseen(prev, nome);
    }
    assert before.GetOr([]) == Uniq(shifts);
    if turno != "" {
      assert ShiftsOf(rows, nome) == shifts + [turno];
      UniqSnoc(shifts, turno);
    } else {
      assert ShiftsOf(rows, nome) == shifts;
    }
  }

  // ---------------------------------------------------------------------------
  // Groups, their order and the shift order

  /** `{nome, turnos}` of a course card. */
  datatype Group = Group(nome: string, turnos: seq<string>)

  /** `sortTurno`'s rank: morning, afternoon, evening, then anything else. */
  function TurnoRank(t: string): int {
    if t == "Matutino" then 1
    else if t == "Vespertino" then 2
    else if t == "Noturno" then 3
    else 99
  }

  function TurnoOrder(): (string, string) -> bool {
    By(TurnoRank, IntLe())
  }

  /** The shift order lists morning before afternoon before evening before any
      other shift, and is a total preorder. */
  lemma TurnoOrderFacts()
    ensures TotalPreorder(TurnoOrder())
    ensures TurnoOrder()("Matutino", "Vespertino") && !TurnoOrder()("Vespertino", "Matutino")
    ensures TurnoOrder()("Vespertino", "Noturno") && !TurnoOrder()("Noturno", "Vespertino")
    ensures forall t :: TurnoRank(t) == 99 ==> TurnoOrder()("Noturno", t) && !TurnoOrder()(t, "Noturno")
  {
    IntLePreorder();
    ByPreorder(TurnoRank, IntLe());
  }

  /** `a.nome.localeCompare(b.nome, "pt-BR") <= 0`, with `coll` the collator. */
  function NameOrder(coll: (string, string) -> bool): (Group, Group) -> bool {
    By((g: Group) => g.nome, coll)
  }

  /** The map's entries as groups, each set sorted by shift rank. */
  function GroupsOf(m: Dict<seq<string>>): (r: seq<Group>)
    ensures |r| == |m|
    ensures forall i :: 0 <= i < |m| ==> r[i] == Group(m[i].0, SortBy(m[i].1, TurnoOrder()))
  {
    seq(|m|, i requires 0 <= i < |m| => Group(m[i].0, SortBy(m[i].1, TurnoOrder())))
  }

  /** The groups of trimmed rows, sorted by name under the collator. */
  function GroupRows(rows: seq<(string, string)>, coll: (string, string) -> bool): (r: seq<Group>)
    ensures TotalPreorder(coll) ==> SortedBy(r, NameOrder(coll))
  {
    assert TotalPreorder(coll) ==> TotalPreorder(NameOrder(coll)) by {
      if TotalPreorder(coll) {
        ByPreorder((g: Group) => g.nome, coll);
      }
    }
    SortBy(GroupsOf(Collect(rows)), NameOrder(coll))
  }

  /** `groupCoursesByName`: the list grouped by trimmed name, sorted by name
      under the collator. */
  function GroupCoursesByName(items: seq<Item>, coll: (string, string) -> bool): (r: seq<Group>)
    ensures TotalPreorder(coll) ==> SortedBy(r, NameOrder(coll))
  {
    GroupRows(Trimmed(items), coll)
  }

  /** No name has two groups. */
  lemma RowGroupsDistinct(rows: seq<(string, string)>, coll: (string, string) -> bool)
    ensures DistinctBy(GroupRows(rows, coll), (g: Group) => g.nome)
  {
    var m := Collect(rows);
    var groups := GroupsOf(m);
    CollectMatches(rows);
    forall i, j | 0 <= i < j < |groups|
      ensures groups[i].nome != groups[j].nome
    {
      assert Keys(m)[i] == groups[i].nome && Keys(m)[j] == groups[j].nome;
    }
    PermutationKeepsDistinctBy(groups, GroupRows(rows, coll), (g: Group) => g.nome);
  }

  /** An entry of the map is a seen name with its reference set. */
  lemma StoredSet(rows: seq<(string, string)>, k: nat)
    requires k < |Collect(rows)|
    ensures Collect(rows)[k].0 in NamesSeen(rows)
    ensures Collect(rows)[k].1 == Uniq(ShiftsOf(rows, Collect(rows)[k].0))
  {
    var m := Collect(rows);
    CollectMatches(rows);
    assert m[k] in m;
    GetStored(m, m[k].0, m[k].1);
    assert Keys(m)[k] == m[k].0;
    assert Grouped(rows, m[k].0);
  }

  /** The sorted groups of a map are its entries, each with its set sorted. */
  lemma SortedGroupsFrom(m: Dict<seq<string>>, coll: (string, string) -> bool, g: Group)
    requires g in SortBy(GroupsOf(m), NameOrder(coll))
    ensures exists k :: 0 <= k < |m| && g.nome == m[k].0 && multiset(g.turnos) == multiset(m[k].1)
  {
    var groups := GroupsOf(m);
    PermutationSameElements(groups, SortBy(groups, NameOrder(coll)));
    assert g in groups;
    var k :| 0 <= k < |groups| && groups[k] == g;
    var shifts := m[k].1;
    var sorted := SortBy(shifts, TurnoOrder());
    assert g == Group(m[k].0, sorted);
    assert multiset(sorted) == multiset(shifts);
  }

  /** Every entry of a map has its group among the sorted groups. */
  lemma SortedGroupsTo(m: Dict<seq<string>>, coll: (string, string) -> bool, k: nat)
    requires k < |m|
    ensures exists g :: g in SortBy(GroupsOf(m), NameOrder(coll)) && g.nome == m[k].0
  {
    var groups := GroupsOf(m);
    PermutationSameElements(groups, SortBy(groups, NameOrder(coll)));
    assert groups[k] in groups;
  }

  /** A group stands for a seen name, and its shifts are that name's distinct
      shifts re-arranged. */
  lemma RowGroupOrigin(rows: seq<(string, string)>, coll: (string, string) -> bool, g: Group)
    requires g in GroupRows(rows, coll)
    ensures g.nome in NamesSeen(rows) && g.nome != ""
    ensures multiset(g.turnos) == multiset(Uniq(ShiftsOf(rows, g.nome)))
  {
    var m := Collect(rows);
    SortedGroupsFrom(m, coll, g);
    var k :| 0 <= k < |m| && g.nome == m[k].0 && multiset(g.turnos) == multiset(m[k].1);
    StoredSet(rows, k);
    NamesSeenMember(rows, g.nome);
  }

  /** Every seen name has a group. */
  lemma RowGroupComplete(rows: seq<(string, string)>, coll: (string, string) -> bool, n: string)
    requires n in NamesSeen(rows)
    ensures exists g :: g in GroupRows(rows, coll) && g.nome == n
  {
    var m := Collect(rows);
    CollectMatches(rows);
    var k :| 0 <= k < |m| && Keys(m)[k] == n;
    SortedGroupsTo(m, coll, k);
  }

  /** A trimmed name occurs in the trimmed rows exactly when some row has it. */
  lemma TrimmedName(items: seq<Item>, n: string)
    ensures n in NamesSeen(Trimmed(items)) <==> n != "" && exists i :: 0 <= i < |items| && NameOf(items[i]) == n
  {
    var rows := Trimmed(items);
    NamesSeenMember(rows, n);
    if exists i :: 0 <= i < |rows| && rows[i].0 == n {
      var i :| 0 <= i < |rows| && rows[i].0 == n;
      assert NameOf(items[i]) == n;
    }
    if exists i :: 0 <= i < |items| && NameOf(items[i]) == n {
      var i :| 0 <= i < |items| && NameOf(items[i]) == n;
      assert rows[i].0 == n;
    }
  }

  /** A trimmed shift is listed for a name exactly when some row with that
      name has it. */
  lemma TrimmedShift(items: seq<Item>, n: string, t: string)
    ensures t in ShiftsOf(Trimmed(items), n) <==>
      n != "" && t != "" && exists i :: 0 <= i < |items| && NameOf(items[i]) == n && ShiftOf(items[i]) == t
  {
    var rows := Trimmed(items);
    ShiftsOfMember(rows, n, t);
    if (n, t) in rows {
      var i :| 0 <= i < |rows| && rows[i] == (n, t);
      assert NameOf(items[i]) == n && ShiftOf(items[i]) == t;
    }
    if exists i :: 0 <= i < |items| && NameOf(items[i]) == n && ShiftOf(items[i]) == t {
      var i :| 0 <= i < |items| && NameOf(items[i]) == n && ShiftOf(items[i]) == t;
      assert rows[i] == (n, t);
    }
  }

  /** One card per name: names are not repeated, every card's name is the
      trimmed non-empty name of some row, and every such name has a card. */
  lemma GroupNames(items: seq<Item>, coll: (string, string) -> bool)
    ensures var r := GroupCoursesByName(items, coll);
      && DistinctBy(r, (g: Group) => g.nome)
      && (forall g :: g in r ==> g.nome != "" && exists i :: 0 <= i < |items| && NameOf(items[i]) == g.nome)
      && (forall i :: 0 <= i < |items| && NameOf(items[i]) != "" ==> exists g :: g in r && g.nome == NameOf(items[i]))
  {
    var rows := Trimmed(items);
    var r := GroupRows(rows, coll);
    RowGroupsDistinct(rows, coll);
    forall g | g in r
      ensures g.nome != "" && exists i :: 0 <= i < |items| && NameOf(items[i]) == g.nome
    {
      RowGroupOrigin(rows, coll, g);
      TrimmedName(items, g.nome);
    }
    forall i | 0 <= i < |items| && NameOf(items[i]) != ""
      ensures exists g :: g in r && g.nome == NameOf(items[i])
    {
      TrimmedName(items, NameOf(items[i]));
      RowGroupComplete(rows, coll, NameOf(items[i]));
    }
  }

  /** Each card's shifts have no repeats and are in shift order. */
  lemma GroupShiftsOrdered(items: seq<Item>, coll: (string, string) -> bool, g: Group)
    requires g in GroupCoursesByName(items, coll)
    ensures Distinct(g.turnos)
    ensures SortedBy(g.turnos, TurnoOrder())
  {
    var rows := Trimmed(items);
    RowGroupOrigin(rows, coll, g);
    PermutationKeepsDistinct(Uniq(ShiftsOf(rows, g.nome)), g.turnos);
    RowGroupSorted(rows, coll, g);
  }

  /** A card shows a shift exactly when some row with the card's name has it
      (trimmed and not empty). */
  lemma GroupShiftMember(items: seq<Item>, coll: (string, string) -> bool, g: Group, t: string)
    requires g in GroupCoursesByName(items, coll)
    ensures t in g.turnos <==>
      t != "" && exists i :: 0 <= i < |items| && NameOf(items[i]) == g.nome && ShiftOf(items[i]) == t
  {
    RowGroupShift(Trimmed(items), coll, g, t);
    TrimmedShift(items, g.nome, t);
  }

  lemma RowGroupShift(rows: seq<(string, string)>, coll: (string, string) -> bool, g: Group, t: string)
    requires g in GroupRows(rows, coll)
    ensures g.nome != ""
    ensures t in g.turnos <==> t in ShiftsOf(rows, g.nome)
  {
    RowGroupOrigin(rows, coll, g);
    var shifts := ShiftsOf(rows, g.nome);
    assert t in g.turnos <==> t in multiset(g.turnos);
    assert t in Uniq(shifts) <==> t in multiset(Uniq(shifts));
  }

  /** A group's shifts are in shift order. */
  lemma RowGroupSorted(rows: seq<(string, string)>, coll: (string, string) -> bool, g: Group)
    requires g in GroupRows(rows, coll)
    ensures SortedBy(g.turnos, TurnoOrder())
  {
    var m := Collect(rows);
    var groups := GroupsOf(m);
    PermutationSameElements(groups, GroupRows(rows, coll));
    TurnoOrderFacts();
  }

  // ---------------------------------------------------------------------------
  // Search, shift chips and what the tab shows

  /** Whether a card passes the search (`q` already normalised) and the shift
      chip; `"todos"` is the chip for every shift. */
  predicate Matches(g: Group, q: string, turn: string) {
    (q == "" || Contains(Normalize(g.nome), q)) && (turn == "todos" || turn in g.turnos)
  }

  /** The cards `renderList` keeps for the search box and the chosen chip. */
  function FilterCourses(groups: seq<Group>, query: string, turn: string): (r: seq<Group>)
    ensures IsSubseq(r, groups)
    ensures forall g :: g in r <==> g in groups && Matches(g, Normalize(query), turn)
  {
    var q := Normalize(query);
    Filter(groups, g => Matches(g, q, turn))
  }

  /** Filtering the shown cards again with the same controls changes nothing. */
  lemma FilterCoursesIdempotent(groups: seq<Group>, query: string, turn: string)
    ensures FilterCourses(FilterCourses(groups, query, turn), query, turn) == FilterCourses(groups, query, turn)
  {
    var q := Normalize(query);
    FilterIdempotent(groups, g => Matches(g, q, turn));
  }

  /** An empty search with the "todos" chip shows every card. */
  lemma NoFilterShowsAll(groups: seq<Group>, query: string)
    requires Normalize(query) == ""
    ensures FilterCourses(groups, query, "todos") == groups
  {
    FilterAll(groups, g => Matches(g, Normalize(query), "todos"));
  }

  /** Typing a course's own name finds its card under any chip it offers. */
  lemma OwnNameFound(groups: seq<Group>, g: Group, turn: string)
    requires g in groups
    requires turn == "todos" || turn in g.turnos
    ensures g in FilterCourses(groups, g.nome, turn)
  {
    NormalizeIdempotent(g.nome);
    ContainsSelf(Normalize(g.nome));
  }

  /** What the tab body shows. */
  datatype View =
    | NotRegistered           // "not registered yet": the tab has no list
    | NoMatch                 // "no course found with this filter"
    | Cards(courses: seq<Group>)

  /** `(coursesData[unit] || {})[tab] || []`. */
  function TabList(data: Dict<Dict<seq<Item>>>, unit: string, tab: string): seq<Item> {
    match Get(data, unit)
    case None => []
    case Some(tabs) => Get(tabs, tab).GetOr([])
  }

  /** `renderTab` and `renderList`: an empty or missing list shows the
      "not registered" notice; otherwise the grouped list is filtered, and no
      card left shows the "no match" notice. */
  function TabView(data: Dict<Dict<seq<Item>>>, unit: string, tab: string, query: string, turn: string,
                   coll: (string, string) -> bool): (v: View)
    ensures v.NotRegistered? <==> |TabList(data, unit, tab)| == 0
    ensures v.Cards? ==> |v.courses| > 0
    ensures v.Cards? ==> v.courses == FilterCourses(GroupCoursesByName(TabList(data, unit, tab), coll), query, turn)
    ensures v.Cards? ==> forall g :: g in v.courses ==>
      g in GroupCoursesByName(TabList(data, unit, tab), coll) && Matches(g, Normalize(query), turn)
    ensures v.NoMatch? <==>
      (|TabList(data, unit, tab)| > 0 && FilterCourses(GroupCoursesByName(TabList(data, unit, tab), coll), query, turn) == [])
  {
    var list := TabList(data, unit, tab);
    if |list| == 0 then NotRegistered
    else
      var groups := GroupCoursesByName(list, coll);
      var shown := FilterCourses(groups, query, turn);
      if |shown| == 0 then NoMatch
      else
        assert shown[0] in shown;
        Cards(shown)
  }

  /** A registered list whose rows all have blank names shows the "no match"
      notice, not the "not registered" one, whatever the search. */
  lemma BlankNamesNoMatch(data: Dict<Dict<seq<Item>>>, unit: string, tab: string, query: string, turn: string,
                          coll: (string, string) -> bool)
    requires |TabList(data, unit, tab)| > 0
    requires forall i :: 0 <= i < |TabList(data, unit, tab)| ==> NameOf(TabList(data, unit, tab)[i]) == ""
    ensures TabView(data, unit, tab, query, turn, coll) == NoMatch
  {
    var list := TabList(data, unit, tab);
    var groups := GroupCoursesByName(list, coll);
    GroupNames(list, coll);
  }

  /** A list with a named row shows cards when nothing is searched and the
      "todos" chip is on. */
  lemma NamedListShown(data: Dict<Dict<seq<Item>>>, unit: string, tab: string, query: string,
                       coll: (string, string) -> bool, i: nat)
    requires i < |TabList(data, unit, tab)| && NameOf(TabList(data, unit, tab)[i]) != ""
    requires Normalize(query) == ""
    ensures TabView(data, unit, tab, query, "todos", coll).Cards?
  {
    var list := TabList(data, unit, tab);
    var groups := GroupCoursesByName(list, coll);
    SomeGroup(list, coll, i);
    NoFilterShowsAll(groups, query);
  }

  /** A named row makes at least one card. */
  lemma SomeGroup(items: seq<Item>, coll: (string, string) -> bool, i: nat)
    requires i < |items| && NameOf(items[i]) != ""
    ensures |GroupCoursesByName(items, coll)| > 0
  {
    var rows := Trimmed(items);
    TrimmedName(items, NameOf(items[i]));
    RowGroupComplete(rows, coll, NameOf(items[i]));
  }

  // ---------------------------------------------------------------------------
  // Cards

  /** A course card: the escaped name and one escaped badge per shift. */
  datatype Card = Card(name: string, badges: seq<string>)

  /** Every text of a card reads back, on screen, as the course's own name and
      shifts, and none of it can open or close markup. */
  function CardOf(g: Group): (c: Card)
    ensures Unescape(c.name) == g.nome
    ensures |c.badges| == |g.turnos|
    ensures forall i :: 0 <= i < |g.turnos| ==> Unescape(c.badges[i]) == g.turnos[i]
    ensures forall x :: x in c.name ==> x != '<' && x != '>'
  {
    EscapeShown(g.nome);
    EscapeEach(g.turnos);
    Card(EscapeHtml(g.nome), seq(|g.turnos|, i requires 0 <= i < |g.turnos| => EscapeHtml(g.turnos[i])))
  }

  lemma EscapeEach(ts: seq<string>)
    ensures forall i :: 0 <= i < |ts| ==> Unescape(EscapeHtml(ts[i])) == ts[i]
  {
    forall i | 0 <= i < |ts|
      ensures Unescape(EscapeHtml(ts[i])) == ts[i]
    {
      EscapeShown(ts[i]);
    }
  }
}

=== FILE: records.dfy ===
/** The link records of the enrolment-links page: the two adapters that build
    them (from the exported spreadsheet and from the portal's own link table),
    the de-duplication and ordering, the quality counters and the filter. */
module Records {
  import opened Wrappers
  import opened Text
  import opened Seqs
  import opened Sorting
  import opened Links
  import opened Titles

  /** One enrolment link as the page lists, filters and exports it. `url` is
      the canonical wizard link, absent when the address was unusable. */
  datatype LinkRecord = LinkRecord(
    unitKey: string,
    unitName: string,
    code: string,
    processTitle: string,
    modality: ModalityKey,
    modalityLabel: string,
    typeKey: TypeKey,
    typeLabel: string,
    url: Option<string>,
    rawUrl: string,
    dataWarning: bool,
    searchable: string)

  /** What every record of either adapter satisfies: labels agree with keys,
      the unit key is in normal form and a present link ends in the wizard
      step. */
  predicate Consistent(rec: LinkRecord) {
    Labelled(rec) && IsUnitKey(rec.unitKey)
  }

  /** Labels agree with keys and a present link ends in the wizard step. */
  predicate Labelled(rec: LinkRecord) {
    && rec.modalityLabel == rec.modality.Label()
    && rec.typeLabel == rec.typeKey.Label()
    && (rec.url.Some? ==> EndsWith(rec.url.value, FixedHash()))
  }

  /** Searching for the record's unit name finds the record. */
  predicate Findable(rec: LinkRecord) {
    Contains(rec.searchable, Norm(rec.unitName))
  }

  /** What every record of either adapter satisfies. */
  predicate Sound(rec: LinkRecord) {
    Consistent(rec) && Findable(rec)
  }

  /** A joined text contains its first piece. */
  lemma JoinHead(parts: seq<string>, sep: string)
    requires |parts| > 0
    ensures Contains(Join(parts, sep), parts[0])
  {
    var r := Join(parts, sep);
    assert parts[0] <= r[0..];
  }

  /** The search text of a record: its pieces joined by spaces, normalised,
      and the first piece is always the unit name. */
  function SearchText(unitName: string, rest: seq<string>): (r: string)
    ensures Contains(r, Norm(unitName))
    ensures forall p :: p in rest ==> Contains(r, Norm(p))
  {
    var parts := [unitName] + rest;
    JoinHead(parts, " ");
    NormContains(Join(parts, " "), unitName);
    PartsFindable(parts);
    Norm(Join(parts, " "))
  }

  /** The search text of a record built from three further parts. */
  lemma SearchTextOfThree(unitName: string, a: string, b: string, c: string)
    ensures forall p :: p in [unitName, a, b, c] ==> Contains(SearchText(unitName, [a, b, c]), Norm(p))
  {
    forall p | p in [unitName, a, b, c]
      ensures Contains(SearchText(unitName, [a, b, c]), Norm(p))
    {
      if p != unitName {
        assert p in [a, b, c];
      }
    }
  }

  /** The normalised joined text contains every normalised part. */
  lemma PartsFindable(parts: seq<string>)
    ensures forall k :: 0 <= k < |parts| ==> Contains(Norm(Join(parts, " ")), Norm(parts[k]))
  {
    forall k | 0 <= k < |parts|
      ensures Contains(Norm(Join(parts, " ")), Norm(parts[k]))
    {
      JoinContains(parts, " ", k);
      NormContains(Join(parts, " "), parts[k]);
    }
  }

  // ---------------------------------------------------------------------------
  // The spreadsheet export

  /** One spreadsheet entry; a missing field is `None`. */
  datatype Entry = Entry(kind: Option<string>, title: Option<string>, url: Option<string>, ps: Option<string>)

  /** One spreadsheet tab; a tab without entries has an empty list. */
  datatype Sheet = Sheet(name: Option<string>, entries: seq<Entry>)

  predicate IsLink(e: Entry) { e.kind == Some("link") }

  /** The Compensa campus shows a name different from its upper-cased key. */
  lemma WestNotUpper(k: string)
    requires k == "compensa"
    ensures HumanUnit(k) != Upper(k)
  {
    // Written as two literals, so that the verifier compares the display
    // name piece by piece instead of character by character.
    UpperOf(k, "COM" + "PENSA");
  }

  /** The name the page shows for the unit a title names: the title's own
      spelling upper-cased, except for the Compensa campus, shown under its
      two-name form. */
  function TitleUnitName(titleUnit: string): (r: string)
    ensures UnitKeyFromName(titleUnit) == "compensa" ==> r == WestDisplayName()
    ensures UnitKeyFromName(titleUnit) != "compensa" ==> r == Upper(titleUnit)
  {
    var unitKey := UnitKeyFromName(titleUnit);
    var mapped := HumanUnit(unitKey);
    assert unitKey == "compensa" ==> mapped != Upper(unitKey) by {
      if unitKey == "compensa" {
        WestNotUpper(unitKey);
      }
    }
    if mapped == Upper(unitKey) then Upper(titleUnit) else mapped
  }

  /** The record of one spreadsheet link. The unit, the code, the process
      title, the modality and the type are read from the title; the code falls
      back to the entry's `ps` parameter when the title has none; the address
      becomes the canonical wizard link; and the record is flagged when its
      process title does not name its unit. */
  function EntryRecord(sheetName: Option<string>, e: Entry, parse: string -> Option<Url>): (r: LinkRecord)
    ensures Sound(r)
    ensures r.unitKey == UnitKeyFromName(SplitTitle(e.title.GetOr("")).unitName)
    ensures r.unitKey == "compensa" ==> r.unitName == WestDisplayName()
    ensures r.unitKey != "compensa" ==> r.unitName == Upper(SplitTitle(e.title.GetOr("")).unitName)
    ensures SplitTitle(e.title.GetOr("")).code != "" ==> r.code == SplitTitle(e.title.GetOr("")).code
    ensures r.code == "" <==> SplitTitle(e.title.GetOr("")).code == "" && e.ps.GetOr("") == ""
    ensures r.processTitle == SplitTitle(e.title.GetOr("")).processTitle
    ensures r.modality == ParseModality(e.title.GetOr(""))
    ensures r.typeKey == ParseType(e.title.GetOr(""))
    ensures r.url == NormalizeWizardUrl(e.url, parse)
    ensures r.rawUrl == e.url.GetOr("")
    ensures r.dataWarning <==> !HasUnitInTitle(r.processTitle, r.unitName)
    ensures forall p :: p in [r.unitName, r.processTitle, sheetName.GetOr(""), e.url.GetOr("")] ==>
      Contains(r.searchable, Norm(p))
  {
    var fullTitle := e.title.GetOr("");
    var split := SplitTitle(fullTitle);
    var unitName := TitleUnitName(split.unitName);
    var modality := ParseModality(fullTitle);
    var typeKey := ParseType(fullTitle);
    SearchTextOfThree(unitName, split.processTitle, sheetName.GetOr(""), e.url.GetOr(""));
    LinkRecord(
      UnitKeyFromName(split.unitName),
      unitName,
      if split.code != "" then split.code else e.ps.GetOr(""),
      split.processTitle,
      modality,
      modality.Label(),
      typeKey,
      typeKey.Label(),
      NormalizeWizardUrl(e.url, parse),
      e.url.GetOr(""),
      !HasUnitInTitle(split.processTitle, unitName),
      SearchText(unitName, [split.processTitle, sheetName.GetOr(""), e.url.GetOr("")]))
  }

  /** One link entry of the spreadsheet, with the name of its tab. */
  datatype SheetLink = SheetLink(sheetName: Option<string>, entry: Entry)

  /** `EntryRecord` as a function of the tagged entry. */
  function RecordOfEntry(parse: string -> Option<Url>): SheetLink -> LinkRecord {
    (x: SheetLink) => EntryRecord(x.sheetName, x.entry, parse)
  }

  /** The link entries of a tab named `sheetName`, in entry order; other
      entries are skipped. */
  function SheetLinks(sheetName: Option<string>, entries: seq<Entry>): seq<SheetLink> {
    if |entries| == 0 then []
    else
      var e := entries[|entries| - 1];
      SheetLinks(sheetName, entries[..|entries| - 1]) + (if IsLink(e) then [SheetLink(sheetName, e)] else [])
  }

  /** A tab contributes one tagged entry per link entry, each a link entry of
      that tab. */
  lemma {:induction false} SheetLinksAreLinks(sheetName: Option<string>, entries: seq<Entry>)
    ensures |SheetLinks(sheetName, entries)| == Count(entries, IsLink)
    ensures forall x :: x in SheetLinks(sheetName, entries) ==>
      x.sheetName == sheetName && IsLink(x.entry) && x.entry in entries
  {
    if |entries| > 0 {
      var pre := entries[..|entries| - 1];
      var e := entries[|entries| - 1];
      assert entries == pre + [e];
      SheetLinksAreLinks(sheetName, pre);
      CountSnoc(pre, e, IsLink);
    }
  }

  /** The link entries of every tab, tab by tab. */
  function DataJsonLinks(sheets: seq<Sheet>): seq<SheetLink> {
    if |sheets| == 0 then []
    else
      var sheet := sheets[|sheets| - 1];
      DataJsonLinks(sheets[..|sheets| - 1]) + SheetLinks(sheet.name, sheet.entries)
  }

  /** Every spreadsheet record is sound. */
  lemma EntryRecordsSound(links: seq<SheetLink>, parse: string -> Option<Url>)
    ensures All(MapSeq(links, RecordOfEntry(parse)), Sound)
  {
    forall k | 0 <= k < |links|
      ensures Sound(RecordOfEntry(parse)(links[k]))
    {
      var r := EntryRecord(links[k].sheetName, links[k].entry, parse);
    }
    MapSeqAll(links, RecordOfEntry(parse), Sound);
  }

  /** One more entry of a tab appends its record when it is a link. */
  lemma SheetStep(sheetName: Option<string>, entries: seq<Entry>, j: nat, f: SheetLink -> LinkRecord)
    requires j < |entries|
    ensures var before := MapSeq(SheetLinks(sheetName, entries[..j]), f);
      MapSeq(SheetLinks(sheetName, entries[..j + 1]), f)
      == if IsLink(entries[j]) then before + [f(SheetLink(sheetName, entries[j]))] else before
  {
    assert entries[..j + 1][..j] == entries[..j];
    if IsLink(entries[j]) {
      MapSeqSnoc(SheetLinks(sheetName, entries[..j]), SheetLink(sheetName, entries[j]), f);
    } else {
      assert SheetLinks(sheetName, entries[..j + 1]) == SheetLinks(sheetName, entries[..j]) + [];
    }
  }

  /** The records of one tab: the record of each link entry, in entry order;
      other entries are skipped. Every record is sound. */
  method SheetRecords(sheet: Sheet, parse: string -> Option<Url>) returns (out: seq<LinkRecord>)
    ensures out == MapSeq(SheetLinks(sheet.name, sheet.entries), RecordOfEntry(parse))
    ensures All(out, Sound)
  {
    var entries := sheet.entries;
    var f := RecordOfEntry(parse);
    out := [];
    for j := 0 to |entries|
      invariant out == MapSeq(SheetLinks(sheet.name, entries[..j]), f)
    {
      SheetStep(sheet.name, entries, j, f);
      if IsLink(entries[j]) {
        out := out + [f(SheetLink(sheet.name, entries[j]))];
      }
    }
    assert entries[..|entries|] == entries;
    EntryRecordsSound(SheetLinks(sheet.name, sheet.entries), parse);
  }

  /** The spreadsheet adapter: the record of each link entry of every tab,
      tab by tab, in entry order. Every record is sound. */
  method NormalizeFromDataJson(sheets: seq<Sheet>, parse: string -> Option<Url>) returns (out: seq<LinkRecord>)
    ensures out == MapSeq(DataJsonLinks(sheets), RecordOfEntry(parse))
    ensures All(out, Sound)
  {
    var f := RecordOfEntry(parse);
    out := [];
    for i := 0 to |sheets|
      invariant out == MapSeq(DataJsonLinks(sheets[..i]), f)
    {
      var recs := SheetRecords(sheets[i], parse);
      assert sheets[..i + 1][..i] == sheets[..i];
      MapSeqConcat(DataJsonLinks(sheets[..i]), SheetLinks(sheets[i].name, sheets[i].entries), f);
      out := out + recs;
    }
    assert sheets[..|sheets|] == sheets;
    EntryRecordsSound(DataJsonLinks(sheets), parse);
  }

  // ---------------------------------------------------------------------------
  // The portal's link table

  /** One link of a block; a missing field is `None`. */
  datatype PortalItem = PortalItem(kind: Option<string>, modality: Option<string>, code: Option<string>, href: Option<string>)

  /** One campus with its blocks of links, keyed by block name in object
      order; a block without links has an empty list. */
  datatype PortalUnit = PortalUnit(
    coursesKey: Option<string>,
    key: Option<string>,
    title: Option<string>,
    blocks: seq<(string, seq<PortalItem>)>)

  /** `a || b || c`: the first non-empty of the three, else the last. */
  function FirstGiven(a: Option<string>, b: Option<string>, c: Option<string>): (r: string)
    ensures a.GetOr("") != "" ==> r == a.value
    ensures a.GetOr("") == "" && b.GetOr("") != "" ==> r == b.value
    ensures a.GetOr("") == "" && b.GetOr("") == "" ==> r == c.GetOr("")
  {
    if a.GetOr("") != "" then a.value
    else if b.GetOr("") != "" then b.value
    else c.GetOr("")
  }

  /** The year-term every portal title ends with. */
  function Term(): string { " - 2026/1" }

  /** What the portal adapter promises of each record. */
  predicate PortalShaped(x: LinkRecord) {
    Sound(x) && !x.dataWarning && x.unitName == HumanUnit(x.unitKey)
  }

  /** A portal record built for the unit with key `unitKey` shown as
      `unitName`. */
  predicate OfUnit(x: LinkRecord, unitKey: string, unitName: string) {
    x.unitKey == unitKey && x.unitName == unitName && Labelled(x) && Findable(x) && !x.dataWarning
  }

  predicate AllOfUnit(s: seq<LinkRecord>, unitKey: string, unitName: string) {
    forall x :: x in s ==> OfUnit(x, unitKey, unitName)
  }

  lemma AllOfUnitConcat(a: seq<LinkRecord>, b: seq<LinkRecord>, unitKey: string, unitName: string)
    requires AllOfUnit(a, unitKey, unitName) && AllOfUnit(b, unitKey, unitName)
    ensures AllOfUnit(a + b, unitKey, unitName)
  {
  }

  /** Records of a unit whose key is in normal form and whose name is its
      display name have the portal shape. */
  lemma UnitShaped(s: seq<LinkRecord>, unitKey: string, unitName: string)
    requires AllOfUnit(s, unitKey, unitName)
    requires IsUnitKey(unitKey) && unitName == HumanUnit(unitKey)
    ensures All(s, PortalShaped)
  {
  }

  /** One portal link, with the key and display name of its unit and the
      name of its block. */
  datatype PortalLink = PortalLink(unitKey: string, unitName: string, blockKey: string, item: PortalItem)

  /** The record of one portal link. The title is synthesised as "TYPE - UNIT
      MODALITY - 2026/1", so it always names its unit and never carries a
      data warning; the type is read from the link's type, the modality from
      the link's own modality followed by the block name, and the address
      becomes the canonical wizard link. */
  function ItemRecord(l: PortalLink, parse: string -> Option<Url>): (r: LinkRecord)
    ensures OfUnit(r, l.unitKey, l.unitName)
    ensures Contains(r.processTitle, l.unitName)
    ensures r.code == Trim(l.item.code.GetOr("")) && NoSpaceAtEnds(r.code)
    ensures r.typeKey == ParseType(l.item.kind.GetOr(""))
    ensures r.modality == ParseModality(l.item.modality.GetOr("") + " " + l.blockKey)
    ensures r.url == NormalizeWizardUrl(l.item.href, parse)
    ensures r.rawUrl == l.item.href.GetOr("")
    ensures r.processTitle == Upper(if l.item.kind.GetOr("") != "" then l.item.kind.value else r.typeKey.Label()) + " - "
      + l.unitName + " " + Upper(r.modality.Label()) + Term()
    ensures forall p :: p in [l.unitName, r.processTitle, l.item.code.GetOr(""), l.item.href.GetOr("")] ==>
      Contains(r.searchable, Norm(p))
  {
    var item := l.item;
    var typeKey := ParseType(item.kind.GetOr(""));
    var modality := ParseModality(item.modality.GetOr("") + " " + l.blockKey);
    var typeText := if item.kind.GetOr("") != "" then item.kind.value else typeKey.Label();
    var head := Upper(typeText) + " - ";
    var processTitle := head + l.unitName + " " + Upper(modality.Label()) + Term();
    ContainsMiddle(head, l.unitName, " ");
    ContainsExtend(head + l.unitName + " ", l.unitName, Upper(modality.Label()));
    ContainsExtend(head + l.unitName + " " + Upper(modality.Label()), l.unitName, Term());
    UnitInTitle(processTitle, l.unitName);
    SearchTextOfThree(l.unitName, processTitle, item.code.GetOr(""), item.href.GetOr(""));
    LinkRecord(
      l.unitKey,
      l.unitName,
      Trim(item.code.GetOr("")),
      processTitle,
      modality,
      modality.Label(),
      typeKey,
      typeKey.Label(),
      NormalizeWizardUrl(item.href, parse),
      item.href.GetOr(""),
      !HasUnitInTitle(processTitle, l.unitName),
      SearchText(l.unitName, [processTitle, item.code.GetOr(""), item.href.GetOr("")]))
  }

  /** The links of one block of a unit, in link order. */
  function BlockLinks(unitKey: string, unitName: string, blockKey: string, items: seq<PortalItem>): seq<PortalLink> {
    MapSeq(items, (it: PortalItem) => PortalLink(unitKey, unitName, blockKey, it))
  }

  /** The links of a unit's blocks, block by block in object order. */
  function UnitLinks(unitKey: string, unitName: string, blocks: seq<(string, seq<PortalItem>)>): seq<PortalLink> {
    if |blocks| == 0 then []
    else
      var last := blocks[|blocks| - 1];
      UnitLinks(unitKey, unitName, blocks[..|blocks| - 1]) + BlockLinks(unitKey, unitName, last.0, last.1)
  }

  /** The unit name a portal unit is keyed by: its courses key, else its key,
      else its title. */
  function UnitText(u: PortalUnit): string {
    FirstGiven(u.coursesKey, u.key, u.title)
  }

  /** The key of a portal unit, derived from its name; it is in normal form. */
  function UnitKeyOf(u: PortalUnit): (r: string)
    ensures IsUnitKey(r)
  {
    UnitKeyFromName(UnitText(u))
  }

  /** The links of a unit, under its key and display name. */
  function UnitLinksOf(u: PortalUnit): seq<PortalLink> {
    UnitLinks(UnitKeyOf(u), HumanUnit(UnitKeyOf(u)), u.blocks)
  }

  /** The links of every unit, unit by unit. */
  function PortalLinks(units: seq<PortalUnit>): seq<PortalLink> {
    if |units| == 0 then []
    else PortalLinks(units[..|units| - 1]) + UnitLinksOf(units[|units| - 1])
  }

  /** `ItemRecord` as a function of the link. */
  function RecordOfLink(parse: string -> Option<Url>): PortalLink -> LinkRecord {
    (l: PortalLink) => ItemRecord(l, parse)
  }

  /** One more link of a block adds its record at the end. */
  lemma BlockLinksSnoc(unitKey: string, unitName: string, blockKey: string, items: seq<PortalItem>, j: nat)
    requires j < |items|
    ensures BlockLinks(unitKey, unitName, blockKey, items[..j + 1])
         == BlockLinks(unitKey, unitName, blockKey, items[..j]) + [PortalLink(unitKey, unitName, blockKey, items[j])]
  {
  }

  /** The records of one block: the record of each link, in link order, all
      under the unit. */
  method BlockRecords(unitKey: string, unitName: string, blockKey: string, links: seq<PortalItem>, parse: string -> Option<Url>)
    returns (out: seq<LinkRecord>)
    ensures out == MapSeq(BlockLinks(unitKey, unitName, blockKey, links), RecordOfLink(parse))
    ensures AllOfUnit(out, unitKey, unitName)
  {
    var f := RecordOfLink(parse);
    out := [];
    for j := 0 to |links|
      invariant out == MapSeq(BlockLinks(unitKey, unitName, blockKey, links[..j]), f)
      invariant AllOfUnit(out, unitKey, unitName)
    {
      var l := PortalLink(unitKey, unitName, blockKey, links[j]);
      var rec := ItemRecord(l, parse);
      BlockLinksSnoc(unitKey, unitName, blockKey, links, j);
      MapSeqSnoc(BlockLinks(unitKey, unitName, blockKey, links[..j]), l, f);
      AllOfUnitConcat(out, [rec], unitKey, unitName);
      out := out + [rec];
    }
    assert links[..|links|] == links;
  }

  /** The records of a unit's blocks: the record of each link, block by block
      in object order, all under the unit. */
  method BlocksRecords(unitKey: string, unitName: string, blocks: seq<(string, seq<PortalItem>)>, parse: string -> Option<Url>)
    returns (out: seq<LinkRecord>)
    ensures out == MapSeq(UnitLinks(unitKey, unitName, blocks), RecordOfLink(parse))
    ensures AllOfUnit(out, unitKey, unitName)
  {
    var f := RecordOfLink(parse);
    out := [];
    for i := 0 to |blocks|
      invariant out == MapSeq(UnitLinks(unitKey, unitName, blocks[..i]), f)
      invariant AllOfUnit(out, unitKey, unitName)
    {
      var recs := BlockRecords(unitKey, unitName, blocks[i].0, blocks[i].1, parse);
      assert blocks[..i + 1][..i] == blocks[..i];
      MapSeqConcat(UnitLinks(unitKey, unitName, blocks[..i]), BlockLinks(unitKey, unitName, blocks[i].0, blocks[i].1), f);
      AllOfUnitConcat(out, recs, unitKey, unitName);
      out := out + recs;
    }
    assert blocks[..|blocks|] == blocks;
  }

  /** The records of one unit: the record of each link, block by block, all
      under the unit's key and display name, so all of portal shape. */
  method UnitRecords(u: PortalUnit, parse: string -> Option<Url>) returns (out: seq<LinkRecord>)
    ensures out == MapSeq(UnitLinksOf(u), RecordOfLink(parse))
    ensures All(out, PortalShaped)
  {
    var unitKey := UnitKeyOf(u);
    var unitName := HumanUnit(unitKey);
    out := BlocksRecords(unitKey, unitName, u.blocks, parse);
    UnitShaped(out, unitKey, unitName);
  }

  /** One more unit appends the records of its links. */
  lemma PortalStep(units: seq<PortalUnit>, i: nat, f: PortalLink -> LinkRecord)
    requires i < |units|
    ensures MapSeq(PortalLinks(units[..i + 1]), f) == MapSeq(PortalLinks(units[..i]), f) + MapSeq(UnitLinksOf(units[i]), f)
  {
    assert units[..i + 1][..i] == units[..i];
    MapSeqConcat(PortalLinks(units[..i]), UnitLinksOf(units[i]), f);
  }

  /** The portal adapter: the record of each link, unit by unit and block by
      block. Every record is consistent, names its unit in its title and
      shows the unit's display name. */
  method NormalizeFromPortalLinks(units: seq<PortalUnit>, parse: string -> Option<Url>) returns (out: seq<LinkRecord>)
    ensures out == MapSeq(PortalLinks(units), RecordOfLink(parse))
    ensures All(out, PortalShaped)
  {
    var f := RecordOfLink(parse);
    out := [];
    for i := 0 to |units|
      invariant out == MapSeq(PortalLinks(units[..i]), f)
      invariant All(out, PortalShaped)
    {
      var recs := UnitRecords(units[i], parse);
      AllConcat(out, recs, PortalShaped);
      PortalStep(units, i, f);
      out := out + recs;
    }
    assert units[..|units|] == units;
  }
}

=== FILE: seqs.dfy ===
/** Sequence operations that stand in for JavaScript's `Array.prototype.filter`,
    `flatMap`, `Array.from(new Set(..))` and a `Set`-guarded de-duplication loop. */
module Seqs {

  /** No value occurs twice. */
  predicate Distinct<T(==)>(s: seq<T>) {
    forall i, j :: 0 <= i < j < |s| ==> s[i] != s[j]
  }

  /** No two positions carry the same key. */
  predicate DistinctBy<T(==), K(==)>(s: seq<T>, key: T -> K) {
    forall i, j :: 0 <= i < j < |s| ==> key(s[i]) != key(s[j])
  }

  /** `a` is `b` with some elements left out, order kept. */
  predicate IsSubseq<T(==)>(a: seq<T>, b: seq<T>)
    decreases |b|
  {
    |a| == 0 || (|b| > 0 && (if a[0] == b[0] then IsSubseq(a[1..], b[1..]) else IsSubseq(a, b[1..])))
  }

  lemma {:induction false} IsSubseqRefl<T>(s: seq<T>)
    ensures IsSubseq(s, s)
    decreases |s|
  {
    if |s| > 0 {
      IsSubseqRefl(s[1..]);
    }
  }

  lemma {:induction false} IsSubseqElements<T>(a: seq<T>, b: seq<T>)
    requires IsSubseq(a, b)
    ensures |a| <= |b|
    ensures forall x :: x in a ==> x in b
    decreases |b|
  {
    if |a| > 0 {
      assert a == [a[0]] + a[1..];
      assert b == [b[0]] + b[1..];
      if a[0] == b[0] {
        IsSubseqElements(a[1..], b[1..]);
      } else {
        IsSubseqElements(a, b[1..]);
      }
    }
  }

  /** `Array.prototype.filter`. */
  function Filter<T(==)>(s: seq<T>, p: T -> bool): (r: seq<T>)
    ensures IsSubseq(r, s)
    ensures forall x :: x in r ==> x in s && p(x)
    ensures forall x :: x in s && p(x) ==> x in r
    ensures |r| <= |s|
  {
    if |s| == 0 then []
    else if p(s[0]) then [s[0]] + Filter(s[1..], p)
    else Filter(s[1..], p)
  }

  lemma {:induction false} FilterAll<T>(s: seq<T>, p: T -> bool)
    requires forall x :: x in s ==> p(x)
    ensures Filter(s, p) == s
  {
    if |s| > 0 {
      FilterAll(s[1..], p);
    }
  }

  /** The number of elements satisfying `p` (`s.filter(p).length`). */
  function Count<T>(s: seq<T>, p: T -> bool): (n: nat)
    ensures n == |Filter(s, p)|
  {
    if |s| == 0 then 0
    else if p(s[0]) then 1 + Count(s[1..], p)
    else Count(s[1..], p)
  }

  /** Every element satisfies `p`. */
  predicate All<T(==)>(s: seq<T>, p: T -> bool) {
    forall x :: x in s ==> p(x)
  }

  lemma AllConcat<T>(a: seq<T>, b: seq<T>, p: T -> bool)
    requires All(a, p) && All(b, p)
    ensures All(a + b, p)
  {
  }

  /** Counting over a sequence extended by one element. */
  lemma {:induction false} CountSnoc<T>(s: seq<T>, x: T, p: T -> bool)
    ensures Count(s + [x], p) == Count(s, p) + (if p(x) then 1 else 0)
  {
    if |s| > 0 {
      assert (s + [x])[1..] == s[1..] + [x];
      CountSnoc(s[1..], x, p);
    }
  }

  /** Two tests that agree on every element count the same. */
  lemma {:induction false} CountSame<T>(s: seq<T>, p: T -> bool, q: T -> bool)
    requires forall x :: x in s ==> p(x) == q(x)
    ensures Count(s, p) == Count(s, q)
  {
    if |s| > 0 {
      CountSame(s[1..], p, q);
    }
  }

  /** Counting over two sequences one after the other adds up. */
  lemma {:induction false} CountConcat<T>(a: seq<T>, b: seq<T>, p: T -> bool)
    ensures Count(a + b, p) == Count(a, p) + Count(b, p)
  {
    if |a| > 0 {
      assert (a + b)[0] == a[0];
      assert (a + b)[1..] == a[1..] + b;
      CountConcat(a[1..], b, p);
    } else {
      assert a + b == b;
    }
  }

  /** Filtering twice by the same test is filtering once. */
  lemma {:induction false} FilterIdempotent<T>(s: seq<T>, p: T -> bool)
    ensures Filter(Filter(s, p), p) == Filter(s, p)
  {
    FilterAll(Filter(s, p), p);
  }

  /** Filtering distributes over concatenation. */
  lemma {:induction false} FilterConcat<T>(a: seq<T>, b: seq<T>, p: T -> bool)
    ensures Filter(a + b, p) == Filter(a, p) + Filter(b, p)
  {
    if |a| > 0 {
      assert (a + b)[0] == a[0];
      assert (a + b)[1..] == a[1..] + b;
      FilterConcat(a[1..], b, p);
    } else {
      assert a + b == b;
    }
  }

  /** Concatenation of a sequence of sequences (`flatMap`'s flattening step). */
  function Concat<T(==)>(ss: seq<seq<T>>): (r: seq<T>)
    ensures |r| == TotalLength(ss)
  {
    if |ss| == 0 then [] else ss[0] + Concat(ss[1..])
  }

  function TotalLength<T(==)>(ss: seq<seq<T>>): nat {
    if |ss| == 0 then 0 else |ss[0]| + TotalLength(ss[1..])
  }

  /** Where the `k`-th block starts inside `Concat(ss)`. */
  function Offset<T(==)>(ss: seq<seq<T>>, k: nat): nat
    requires k <= |ss|
  {
    if k == 0 then 0 else |ss[0]| + Offset(ss[1..], k - 1)
  }

  /** Element `j` of block `k` sits at `Offset(ss, k) + j`, so the flattening
      keeps block order and the order inside each block. */
  lemma {:induction false} ConcatIndex<T>(ss: seq<seq<T>>, k: nat, j: nat)
    requires k < |ss| && j < |ss[k]|
    ensures Offset(ss, k) + j < |Concat(ss)|
    ensures Concat(ss)[Offset(ss, k) + j] == ss[k][j]
  {
    if k > 0 {
      ConcatIndex(ss[1..], k - 1, j);
    }
  }

  /** The position of the first occurrence of `x` in `s`. */
  function FirstIndex<T(==)>(s: seq<T>, x: T): (i: nat)
    requires x in s
    ensures i < |s| && s[i] == x
    ensures forall j :: 0 <= j < i ==> s[j] != x
  {
    if s[0] == x then 0 else 1 + FirstIndex(s[1..], x)
  }

  /** The elements of `r`, all drawn from `s`, appear in the order of their
      first occurrences in `s`. */
  predicate InFirstOrder<T(==)>(r: seq<T>, s: seq<T>) {
    forall i, j :: 0 <= i < j < |r| && r[i] in s && r[j] in s ==> FirstIndex(s, r[i]) < FirstIndex(s, r[j])
  }

  /** `Array.from(new Set(s))`: every value of `s` once, in the order of its
      first occurrence. */
  function Uniq<T(==)>(s: seq<T>): (r: seq<T>)
    ensures Distinct(r)
    ensures forall x :: x in r ==> x in s
    ensures forall x :: x in s ==> x in r
    ensures InFirstOrder(r, s)
    ensures |r| <= |s|
    ensures Distinct(s) ==> r == s
  {
    if |s| == 0 then []
    else
      var p := Uniq(s[..|s| - 1]);
      var x := s[|s| - 1];
      UniqStep(s, p);
      if x in p then p else p + [x]
  }

  /** One step of `Uniq`: what holds of the values of `s` without its last
      element holds of `s` once that element is added when new. */
  lemma UniqStep<T>(s: seq<T>, p: seq<T>)
    requires |s| > 0
    requires Distinct(p) && |p| <= |s| - 1
    requires forall y :: y in p <==> y in s[..|s| - 1]
    requires InFirstOrder(p, s[..|s| - 1])
    requires Distinct(s[..|s| - 1]) ==> p == s[..|s| - 1]
    ensures var r := if s[|s| - 1] in p then p else p + [s[|s| - 1]];
      && Distinct(r)
      && (forall x :: x in r ==> x in s)
      && (forall x :: x in s ==> x in r)
      && InFirstOrder(r, s)
      && |r| <= |s|
      && (Distinct(s) ==> r == s)
  {
    assert s == s[..|s| - 1] + [s[|s| - 1]];
    UniqOrderStep(s, p);
  }

  /** Appending the last element of `s`, when new, keeps the first-occurrence
      order of the distinct values of the rest. */
  lemma UniqOrderStep<T>(s: seq<T>, p: seq<T>)
    requires |s| > 0
    requires forall y :: y in p <==> y in s[..|s| - 1]
    requires InFirstOrder(p, s[..|s| - 1])
    ensures InFirstOrder(if s[|s| - 1] in p then p else p + [s[|s| - 1]], s)
  {
    var x, pre := s[|s| - 1], s[..|s| - 1];
    forall y | y in pre
      ensures FirstIndex(s, y) == FirstIndex(pre, y) < |s| - 1
    {
      FirstIndexPrefix(s, y);
    }
    if x !in p {
      assert FirstIndex(s, x) == |s| - 1;
      var q := p + [x];
      forall i, j | 0 <= i < j < |q| && q[i] in s && q[j] in s
        ensures FirstIndex(s, q[i]) < FirstIndex(s, q[j])
      {
        if j < |p| {
          assert q[i] == p[i] && q[j] == p[j];
        }
      }
    }
  }

  /** A value of a prefix without the last element is first met inside it. */
  lemma FirstIndexPrefix<T>(s: seq<T>, y: T)
    requires |s| > 0 && y in s[..|s| - 1]
    ensures FirstIndex(s, y) == FirstIndex(s[..|s| - 1], y)
  {
    var pre := s[..|s| - 1];
    var i := FirstIndex(pre, y);
    var k := FirstIndex(s, y);
    assert s[i] == y;
    assert k <= i;
    assert pre[k] == y;
  }

  /** A `Set`-guarded loop: keep an element only when its key is new. */
  function DedupBy<T(==), K(==)>(s: seq<T>, key: T -> K): (r: seq<T>)
    ensures DistinctBy(r, key)
    ensures IsSubseq(r, s)
    ensures forall x :: x in s ==> exists y :: y in r && key(y) == key(x)
  {
    DedupFrom(s, key, {})
  }

  /** The de-duplication loop after the keys in `seen` have been recorded. */
  function DedupFrom<T(==), K(==)>(s: seq<T>, key: T -> K, seen: set<K>): (r: seq<T>)
    ensures DistinctBy(r, key)
    ensures IsSubseq(r, s)
    ensures forall y :: y in r ==> key(y) !in seen
    ensures forall x :: x in s && key(x) !in seen ==> exists y :: y in r && key(y) == key(x)
    decreases |s|
  {
    if |s| == 0 then []
    else if key(s[0]) in seen then DedupFrom(s[1..], key, seen)
    else
      var rest := DedupFrom(s[1..], key, seen + {key(s[0])});
      IsSubseqElements(rest, s[1..]);
      [s[0]] + rest
  }

  /** De-duplicating two elements with the same key keeps the first. */
  lemma DedupSameKey<T, K>(a: T, b: T, key: T -> K)
    requires key(a) == key(b)
    ensures DedupBy([a, b], key) == [a]
  {
    var s := [a, b];
    assert s[1..] == [b];
    assert [b][1..] == [];
    var rest := DedupFrom([b], key, {key(a)});
    assert rest == [];
    assert key(a) !in {};
    assert DedupFrom(s, key, {}) == [a] + rest;
  }

  /** De-duplicating two elements with different keys keeps both. */
  lemma DedupOtherKey<T, K>(a: T, b: T, key: T -> K)
    requires key(a) != key(b)
    ensures DedupBy([a, b], key) == [a, b]
  {
    var s := [a, b];
    assert s[1..] == [b];
    assert [b][1..] == [];
    var rest := DedupFrom([b], key, {key(a)});
    assert rest == [b];
    assert key(a) !in {};
    assert DedupFrom(s, key, {}) == [a] + rest;
  }

  /** `i` is the first position holding its key. */
  predicate FirstOfKey<T(==), K(==)>(s: seq<T>, key: T -> K, i: int)
    requires 0 <= i < |s|
  {
    forall k :: 0 <= k < i ==> key(s[k]) != key(s[i])
  }

  /** Every first occurrence of a key not yet seen survives de-duplication. */
  lemma {:induction false} DedupKeepsFirst<T, K>(s: seq<T>, key: T -> K, seen: set<K>, i: int)
    requires 0 <= i < |s| && key(s[i]) !in seen && FirstOfKey(s, key, i)
    ensures s[i] in DedupFrom(s, key, seen)
    decreases |s|
  {
    if i > 0 {
      var t := s[1..];
      assert t[i - 1] == s[i];
      forall k | 0 <= k < i - 1 ensures key(t[k]) != key(t[i - 1]) {
        assert t[k] == s[k + 1];
      }
      assert FirstOfKey(t, key, i - 1);
      if key(s[0]) in seen {
        DedupKeepsFirst(t, key, seen, i - 1);
        assert DedupFrom(s, key, seen) == DedupFrom(t, key, seen);
      } else {
        assert key(s[i]) != key(s[0]);
        var seen' := seen + {key(s[0])};
        DedupKeepsFirst(t, key, seen', i - 1);
        assert DedupFrom(s, key, seen) == [s[0]] + DedupFrom(t, key, seen');
      }
    }
  }

  /** Only first occurrences survive de-duplication. */
  lemma {:induction false} DedupOnlyFirst<T, K>(s: seq<T>, key: T -> K, seen: set<K>, y: T)
    requires y in DedupFrom(s, key, seen)
    ensures exists i :: 0 <= i < |s| && s[i] == y && FirstOfKey(s, key, i)
    decreases |s|
  {
    var isNew := key(s[0]) !in seen;
    var seen' := if isNew then seen + {key(s[0])} else seen;
    var rest := DedupFrom(s[1..], key, seen');
    assert DedupFrom(s, key, seen) == if isNew then [s[0]] + rest else rest;
    if isNew && y == s[0] {
      assert FirstOfKey(s, key, 0);
    } else {
      assert y in rest;
      DedupOnlyFirst(s[1..], key, seen', y);
      var i :| 0 <= i < |s| - 1 && s[1..][i] == y && FirstOfKey(s[1..], key, i);
      assert key(y) !in seen';
      forall k | 0 <= k < i + 1
        ensures key(s[k]) != key(s[i + 1])
      {
        if k > 0 {
          assert s[k] == s[1..][k - 1];
        }
      }
      assert FirstOfKey(s, key, i + 1);
    }
  }

  /** Multiset bookkeeping: a value at two positions is counted at least twice. */
  lemma TwiceCounted<T>(s: seq<T>, i: int, j: int)
    requires 0 <= i < j < |s| && s[i] == s[j]
    ensures multiset(s)[s[i]] >= 2
  {
    assert s == s[..j] + s[j..];
    assert s[i] in s[..j];
    assert s[j] in s[j..];
    assert multiset(s) == multiset(s[..j]) + multiset(s[j..]);
  }

  lemma {:induction false} CountedOnce<T>(s: seq<T>, x: T)
    requires Distinct(s)
    ensures multiset(s)[x] <= 1
  {
    if |s| > 0 {
      CountedOnce(s[1..], x);
      assert s == [s[0]] + s[1..];
      assert s[0] !in s[1..];
    }
  }

  /** Re-arranging a sequence keeps its keys pairwise distinct. */
  lemma PermutationKeepsDistinctBy<T, K>(s: seq<T>, r: seq<T>, key: T -> K)
    requires multiset(r) == multiset(s)
    requires DistinctBy(s, key)
    ensures DistinctBy(r, key)
  {
    assert Distinct(s);
    forall i, j | 0 <= i < j < |r|
      ensures key(r[i]) != key(r[j])
    {
      if key(r[i]) == key(r[j]) {
        assert r[i] in multiset(s) && r[j] in multiset(s);
        var a :| 0 <= a < |s| && s[a] == r[i];
        var b :| 0 <= b < |s| && s[b] == r[j];
        assert a == b;
        TwiceCounted(r, i, j);
        CountedOnce(s, r[i]);
        assert false;
      }
    }
  }

  /** Re-arranging a duplicate-free sequence keeps it duplicate-free. */
  lemma PermutationKeepsDistinct<T>(s: seq<T>, r: seq<T>)
    requires multiset(r) == multiset(s)
    requires Distinct(s)
    ensures Distinct(r)
  {
    PermutationKeepsDistinctBy(s, r, (x: T) => x);
  }

  /** A re-arrangement has the same elements. */
  lemma PermutationSameElements<T>(a: seq<T>, b: seq<T>)
    requires multiset(a) == multiset(b)
    ensures forall x :: x in a <==> x in b
  {
    forall x
      ensures x in a <==> x in b
    {
      assert x in a <==> x in multiset(a);
      assert x in b <==> x in multiset(b);
    }
  }

  /** Blocks of equal length `n` start at multiples of `n`. */
  lemma {:induction false} OffsetUniform<T>(ss: seq<seq<T>>, n: nat, k: nat)
    requires k <= |ss|
    requires forall i :: 0 <= i < |ss| ==> |ss[i]| == n
    ensures Offset(ss, k) == k * n
    ensures TotalLength(ss) == |ss| * n
  {
    if |ss| > 0 {
      OffsetUniform(ss[1..], n, if k == 0 then 0 else k - 1);
    }
  }

  /** Appending only values already present leaves the first occurrences as they are. */
  lemma {:induction false} UniqAbsorb<T>(s: seq<T>, t: seq<T>)
    requires forall x :: x in t ==> x in s
    ensures Uniq(s + t) == Uniq(s)
  {
    if |t| > 0 {
      var t' := t[..|t| - 1];
      assert s + t == (s + t') + [t[|t| - 1]];
      assert (s + t)[..|s + t| - 1] == s + t';
      UniqAbsorb(s, t');
    } else {
      assert s + t == s;
    }
  }

  /** One more element: kept when new, dropped when already present. */
  lemma UniqSnoc<T>(s: seq<T>, x: T)
    ensures Uniq(s + [x]) == if x in Uniq(s) then Uniq(s) else Uniq(s) + [x]
  {
    assert (s + [x])[..|s + [x]| - 1] == s;
  }

  lemma UniqSnocCongruent<T>(p: seq<T>, q: seq<T>, x: T)
    requires Uniq(p) == Uniq(q)
    ensures Uniq(p + [x]) == Uniq(q + [x])
  {
    UniqSnoc(p, x);
    UniqSnoc(q, x);
  }

  lemma SnocSplit<T>(u: seq<T>, b: seq<T>)
    requires |b| > 0
    ensures u + b == (u + b[..|b| - 1]) + [b[|b| - 1]]
  {
  }

  /** `uniq(uniq(a).concat(b))` is `uniq(a.concat(b))`: merging step by step
      is the same as merging everything at once. */
  lemma {:induction false} UniqOfUniq<T>(a: seq<T>, b: seq<T>)
    ensures Uniq(Uniq(a) + b) == Uniq(a + b)
  {
    if |b| > 0 {
      var b', x := b[..|b| - 1], b[|b| - 1];
      var p, q := Uniq(a) + b', a + b';
      UniqOfUniq(a, b');
      UniqSnocCongruent(p, q, x);
      SnocSplit(Uniq(a), b);
      SnocSplit(a, b);
    } else {
      assert Uniq(a) + b == Uniq(a);
      assert a + b == a;
    }
  }

  /** A value is in the flattening exactly when it is in one of the blocks. */
  lemma {:induction false} ConcatMember<T>(ss: seq<seq<T>>, x: T)
    ensures x in Concat(ss) <==> exists k :: 0 <= k < |ss| && x in ss[k]
  {
    if |ss| > 0 {
      ConcatMember(ss[1..], x);
      if x in Concat(ss[1..]) {
        var k :| 0 <= k < |ss| - 1 && x in ss[1..][k];
        assert x in ss[k + 1];
      }
      if exists k :: 0 <= k < |ss| && x in ss[k] {
        var k :| 0 <= k < |ss| && x in ss[k];
        if k > 0 {
          assert x in ss[1..][k - 1];
        }
      }
    }
  }

  /** `s.map(f)`. */
  function MapSeq<A, B>(s: seq<A>, f: A -> B): (r: seq<B>)
    ensures |r| == |s|
    ensures forall k :: 0 <= k < |s| ==> r[k] == f(s[k])
  {
    seq(|s|, k requires 0 <= k < |s| => f(s[k]))
  }

  /** Mapping distributes over concatenation. */
  lemma MapSeqConcat<A, B>(a: seq<A>, b: seq<A>, f: A -> B)
    ensures MapSeq(a + b, f) == MapSeq(a, f) + MapSeq(b, f)
  {
    var l, r := MapSeq(a + b, f), MapSeq(a, f) + MapSeq(b, f);
    forall k | 0 <= k < |l|
      ensures l[k] == r[k]
    {
      if k < |a| {
        assert (a + b)[k] == a[k];
      } else {
        assert (a + b)[k] == b[k - |a|];
      }
    }
  }

  /** Mapping two sequences one after the other: the images follow each
      other, and a property of every image of both carries over. */
  lemma MapSeqConcatAll<A, B>(a: seq<A>, b: seq<A>, f: A -> B, p: B -> bool)
    requires All(MapSeq(a, f), p) && All(MapSeq(b, f), p)
    ensures MapSeq(a + b, f) == MapSeq(a, f) + MapSeq(b, f)
    ensures All(MapSeq(a + b, f), p)
  {
    MapSeqConcat(a, b, f);
    AllConcat(MapSeq(a, f), MapSeq(b, f), p);
  }

  /** Mapping one more element appends its image. */
  lemma MapSeqSnoc<A, B>(s: seq<A>, x: A, f: A -> B)
    ensures MapSeq(s + [x], f) == MapSeq(s, f) + [f(x)]
  {
    MapSeqConcat(s, [x], f);
  }

  /** Every image satisfies `p` when `p` holds of `f` at every element. */
  lemma MapSeqAll<A, B>(s: seq<A>, f: A -> B, p: B -> bool)
    requires forall k :: 0 <= k < |s| ==> p(f(s[k]))
    ensures All(MapSeq(s, f), p)
  {
  }
}

=== FILE: sorting.dfy ===
/** `Array.prototype.sort` with a comparator, as a stable insertion sort over a
    "sorts before or together with" relation `le` (a comparator `cmp` is read as
    `le(a, b) <==> cmp(a, b) <= 0`).

    The pt-BR `localeCompare` the portal sorts with is not modelled; every sort
    takes its string order as a parameter and promises sortedness whenever that
    order is a total preorder, which is what a collator provides. */
module Sorting {

  ghost predicate Total<T(!new)>(le: (T, T) -> bool) {
    forall a, b :: le(a, b) || le(b, a)
  }

  ghost predicate Transitive<T(!new)>(le: (T, T) -> bool) {
    forall a, b, c :: le(a, b) && le(b, c) ==> le(a, c)
  }

  /** What a collator's `compare(a, b) <= 0` is: total and transitive, with ties allowed. */
  ghost predicate TotalPreorder<T(!new)>(le: (T, T) -> bool) {
    Total(le) && Transitive(le)
  }

  predicate SortedBy<T>(s: seq<T>, le: (T, T) -> bool) {
    forall i, j :: 0 <= i < j < |s| ==> le(s[i], s[j])
  }

  /** Insert `x` in front of the first element it may precede. */
  function Insert<T>(x: T, s: seq<T>, le: (T, T) -> bool): (r: seq<T>)
    ensures multiset(r) == multiset(s) + multiset{x}
    ensures |r| == |s| + 1
    ensures forall y :: y in r ==> y == x || y in s
  {
    if |s| == 0 then [x]
    else if le(x, s[0]) then [x] + s
    else
      assert s == [s[0]] + s[1..];
      [s[0]] + Insert(x, s[1..], le)
  }

  lemma {:induction false} InsertSorted<T(!new)>(x: T, s: seq<T>, le: (T, T) -> bool)
    requires TotalPreorder(le)
    requires SortedBy(s, le)
    ensures SortedBy(Insert(x, s, le), le)
  {
    if |s| > 0 && !le(x, s[0]) {
      var rest := Insert(x, s[1..], le);
      InsertSorted(x, s[1..], le);
      assert le(s[0], x);
      forall y | y in rest
        ensures le(s[0], y)
      {
        if y != x {
          var j :| 0 <= j < |s[1..]| && s[1..][j] == y;
          assert y == s[j + 1];
        }
      }
      var r := [s[0]] + rest;
      forall i, j | 0 <= i < j < |r|
        ensures le(r[i], r[j])
      {
        if i == 0 {
          assert r[j] == rest[j - 1];
          assert r[j] in rest;
        } else {
          assert r[i] == rest[i - 1] && r[j] == rest[j - 1];
        }
      }
    }
  }

  lemma InsertKeepsSorted<T(!new)>(x: T, s: seq<T>, le: (T, T) -> bool)
    ensures TotalPreorder(le) && SortedBy(s, le) ==> SortedBy(Insert(x, s, le), le)
  {
    if TotalPreorder(le) && SortedBy(s, le) {
      InsertSorted(x, s, le);
    }
  }

  /** Stable sort: the result is a permutation of `s`, ordered by `le` when `le`
      is a total preorder. */
  function SortBy<T(!new)>(s: seq<T>, le: (T, T) -> bool): (r: seq<T>)
    ensures multiset(r) == multiset(s)
    ensures |r| == |s|
    ensures TotalPreorder(le) ==> SortedBy(r, le)
  {
    if |s| == 0 then []
    else
      var rest := SortBy(s[1..], le);
      assert s == [s[0]] + s[1..];
      InsertKeepsSorted(s[0], rest, le);
      Insert(s[0], rest, le)
  }

  /** A sorted sequence that is sorted again is left as it is. */
  lemma {:induction false} SortSorted<T(!new)>(s: seq<T>, le: (T, T) -> bool)
    requires SortedBy(s, le)
    ensures SortBy(s, le) == s
  {
    if |s| > 0 {
      assert SortedBy(s[1..], le);
      SortSorted(s[1..], le);
      if |s| > 1 {
        assert le(s[0], s[1..][0]);
      }
    }
  }

  /** Compare by a projected key. */
  function By<T, K>(key: T -> K, le: (K, K) -> bool): (T, T) -> bool {
    (a: T, b: T) => le(key(a), key(b))
  }

  /** `first(a, b) || second(a, b)` in comparator form: `first` decides unless
      it ties, in which case `second` decides. */
  function Then<T>(first: (T, T) -> bool, second: (T, T) -> bool): (T, T) -> bool {
    (a: T, b: T) => (first(a, b) && !first(b, a)) || (first(a, b) && first(b, a) && second(a, b))
  }

  /** Numeric `a - b <= 0`. */
  function IntLe(): (int, int) -> bool {
    (a: int, b: int) => a <= b
  }

  lemma ByPreorder<T(!new), K(!new)>(key: T -> K, le: (K, K) -> bool)
    requires TotalPreorder(le)
    ensures TotalPreorder(By(key, le))
  {
    var r := By(key, le);
    forall a, b, c | r(a, b) && r(b, c)
      ensures r(a, c)
    {
      assert le(key(a), key(b)) && le(key(b), key(c));
    }
  }

  lemma ThenPreorder<T(!new)>(first: (T, T) -> bool, second: (T, T) -> bool)
    requires TotalPreorder(first) && TotalPreorder(second)
    ensures TotalPreorder(Then(first, second))
  {
    var r := Then(first, second);
    forall a, b | !r(a, b)
      ensures r(b, a)
    {
      assert first(a, b) || first(b, a);
      assert second(a, b) || second(b, a);
    }
    forall a, b, c | r(a, b) && r(b, c)
      ensures r(a, c)
    {
      assert first(a, c);
      if first(c, a) {
        assert first(b, a) && first(c, b);
        assert second(a, b) && second(b, c);
      }
    }
  }

  lemma IntLePreorder()
    ensures TotalPreorder(IntLe())
  {
  }
}

=== FILE: text.dfy ===
/** Character-level string primitives shared by every part of the portal:
    JavaScript's `trim`, `\s`, `toLowerCase`/`toUpperCase`, NFD decomposition,
    substring tests, `split` and `join`, all on `string` (a `seq<char>`).

    Case mapping and canonical decomposition are modelled for Basic Latin and
    Latin-1 Supplement, the range the portal's Portuguese data lives in. */
module Text {

  /** JavaScript's `\s` class, which is also exactly what `String.prototype.trim`
      removes: WhiteSpace plus LineTerminator of ECMA-262. */
  predicate IsSpace(c: char) {
    c == ' ' || c == '\t' || c == '\n' || c == '\r' || c == '\U{B}' || c == '\U{C}'
    || c == '\U{A0}' || c == '\U{1680}' || ('\U{2000}' <= c <= '\U{200A}')
    || c == '\U{2028}' || c == '\U{2029}' || c == '\U{202F}' || c == '\U{205F}'
    || c == '\U{3000}' || c == '\U{FEFF}'
  }

  predicate IsAsciiDigit(c: char) { '0' <= c <= '9' }

  /** `[A-Za-z0-9_]`, the regular-expression class `\w` without the `u` flag. */
  predicate IsWordChar(c: char) {
    ('a' <= c <= 'z') || ('A' <= c <= 'Z') || IsAsciiDigit(c) || c == '_'
  }

  /** A combining diacritical mark, U+0300 to U+036F. */
  predicate IsCombiningMark(c: char) { '\U{300}' <= c <= '\U{36F}' }

  predicate NoSpaceAtEnds(s: string) {
    |s| == 0 || (!IsSpace(s[0]) && !IsSpace(s[|s| - 1]))
  }

  /** No two adjacent characters are both whitespace. */
  predicate NoDoubleSpace(s: string) {
    forall i :: 0 <= i < |s| - 1 ==> !(IsSpace(s[i]) && IsSpace(s[i + 1]))
  }

  /** Leading whitespace removed; what is removed is all whitespace. */
  function TrimStart(s: string): (r: string)
    ensures |r| <= |s| && r == s[|s| - |r|..]
    ensures |r| > 0 ==> !IsSpace(r[0])
    ensures forall i :: 0 <= i < |s| - |r| ==> IsSpace(s[i])
  {
    if |s| > 0 && IsSpace(s[0]) then TrimStart(s[1..]) else s
  }

  /** Trailing whitespace removed; what is removed is all whitespace. */
  function TrimEnd(s: string): (r: string)
    ensures |r| <= |s| && r == s[..|r|]
    ensures |r| > 0 ==> !IsSpace(r[|r| - 1])
    ensures forall i :: |r| <= i < |s| ==> IsSpace(s[i])
  {
    if |s| > 0 && IsSpace(s[|s| - 1]) then TrimEnd(s[..|s| - 1]) else s
  }

  /** `String.prototype.trim`. */
  function Trim(s: string): (r: string)
    ensures NoSpaceAtEnds(r)
    ensures Contains(s, r)
    ensures (forall c :: c in s ==> !IsSpace(c)) ==> r == s
  {
    var a := TrimStart(s);
    var r := TrimEnd(a);
    assert r <= s[|s| - |a|..];
    r
  }

  lemma TrimIdempotent(s: string)
    ensures Trim(Trim(s)) == Trim(s)
  {
    var t := Trim(s);
    assert |t| > 0 ==> !IsSpace(t[0]) && !IsSpace(t[|t| - 1]);
    assert TrimStart(t) == t;
    assert TrimEnd(t) == t;
  }

  function LowerChar(c: char): (d: char)
  {
    if 'A' <= c <= 'Z' || ('\U{C0}' <= c <= '\U{DE}' && c != '\U{D7}')
    then (c as int + 32) as char
    else c
  }

  /** `String.prototype.toLowerCase` on Basic Latin and Latin-1. */
  function Lower(s: string): (r: string)
    ensures |r| == |s|
    ensures forall i :: 0 <= i < |s| ==> r[i] == LowerChar(s[i])
  {
    seq(|s|, i requires 0 <= i < |s| => LowerChar(s[i]))
  }

  /** The upper-case mapping of one character; `ß` becomes `SS`. */
  function UpperChar(c: char): (u: string)
  {
    if 'a' <= c <= 'z' || ('\U{E0}' <= c <= '\U{FE}' && c != '\U{F7}') then [(c as int - 32) as char]
    else if c == '\U{DF}' then "SS"
    else if c == '\U{FF}' then ['\U{178}']
    else if c == '\U{B5}' then ['\U{39C}']
    else [c]
  }

  /** `String.prototype.toUpperCase` on Basic Latin and Latin-1. */
  function Upper(s: string): (r: string)
    ensures |r| >= |s|
    ensures forall c :: c in r ==> !('a' <= c <= 'z')
  {
    if |s| == 0 then [] else UpperChar(s[0]) + Upper(s[1..])
  }

  /** Base letter (upper case) of the Latin-1 letter at offset `k` from U+00C0,
      or 0 when that letter has no canonical decomposition (Æ, Ð, ×, Ø, Þ, ß). */
  function LatinBase(k: int): int {
    if 0 <= k <= 5 then 0x41          // À Á Â Ã Ä Å
    else if k == 7 then 0x43          // Ç
    else if 8 <= k <= 11 then 0x45    // È É Ê Ë
    else if 12 <= k <= 15 then 0x49   // Ì Í Î Ï
    else if k == 17 then 0x4E         // Ñ
    else if 18 <= k <= 22 then 0x4F   // Ò Ó Ô Õ Ö
    else if 25 <= k <= 28 then 0x55   // Ù Ú Û Ü
    else if k == 29 then 0x59         // Ý
    else 0
  }

  /** The combining mark that follows `LatinBase(k)` in the decomposition. */
  function LatinMark(k: int): int {
    if k == 7 then 0x327
    else if k == 17 || k == 3 || k == 21 then 0x303
    else if k == 5 then 0x30A
    else if k == 4 || k == 11 || k == 15 || k == 22 || k == 28 then 0x308
    else if k == 0 || k == 8 || k == 12 || k == 18 || k == 25 then 0x300
    else if k == 2 || k == 10 || k == 14 || k == 20 || k == 27 then 0x302
    else 0x301
  }

  /** The first character of a decomposition: the base letter. */
  function Base(c: char): char {
    Decompose(c)[0]
  }

  /** NFD of one character: the base letter followed by its combining mark. */
  function Decompose(c: char): (d: string)
    ensures 1 <= |d| <= 2
    ensures |d| == 2 ==> !IsCombiningMark(d[0]) && !IsSpace(d[0]) && IsCombiningMark(d[1])
    ensures |d| == 1 ==> d[0] == c
  {
    if c < '\U{C0}' then [c]
    else if c == '\U{FF}' then ['y', '\U{308}']
    else if '\U{C0}' <= c <= '\U{DF}' && LatinBase(c as int - 0xC0) != 0 then
      [LatinBase(c as int - 0xC0) as char, LatinMark(c as int - 0xC0) as char]
    else if '\U{E0}' <= c <= '\U{FE}' && LatinBase(c as int - 0xE0) != 0 then
      [(LatinBase(c as int - 0xE0) + 0x20) as char, LatinMark(c as int - 0xE0) as char]
    else [c]
  }

  /** `String.prototype.normalize("NFD")`. */
  function Nfd(s: string): (r: string)
    ensures |r| >= |s|
    ensures forall c :: c in r && IsSpace(c) ==> c in s
  {
    if |s| == 0 then [] else Decompose(s[0]) + Nfd(s[1..])
  }

  /** The characters of `s` that satisfy `keep`, in order. */
  function KeepChars(s: string, keep: char -> bool): (r: string)
    ensures |r| <= |s|
    ensures forall c :: c in r <==> c in s && keep(c)
  {
    if |s| == 0 then []
    else if keep(s[0]) then [s[0]] + KeepChars(s[1..], keep)
    else KeepChars(s[1..], keep)
  }

  /** `s.replace(/\s+/g, " ")`: every maximal run of whitespace becomes one space. */
  function CollapseSpaces(s: string): (r: string)
    ensures |r| <= |s|
    ensures NoDoubleSpace(r)
    ensures forall c :: c in r && IsSpace(c) ==> c == ' '
    ensures forall c :: c in r && c != ' ' ==> c in s
    ensures |s| > 0 ==> |r| > 0 && (IsSpace(r[0]) <==> IsSpace(s[0]))
    decreases |s|
  {
    if |s| == 0 then []
    else if IsSpace(s[0]) then [' '] + CollapseSpaces(TrimStart(s))
    else [s[0]] + CollapseSpaces(s[1..])
  }

  /** `s.replace(/[set]/g, " ")`-style substitution of single characters. */
  function MapChars(s: string, f: char -> char): (r: string)
    ensures |r| == |s|
    ensures forall i :: 0 <= i < |s| ==> r[i] == f(s[i])
  {
    seq(|s|, i requires 0 <= i < |s| => f(s[i]))
  }

  predicate StartsWith(s: string, prefix: string) { prefix <= s }

  predicate EndsWith(s: string, suffix: string) {
    |suffix| <= |s| && s[|s| - |suffix|..] == suffix
  }

  /** `s.includes(sub)`. */
  predicate Contains(s: string, sub: string) {
    exists i :: 0 <= i <= |s| && sub <= s[i..]
  }

  lemma ContainsEmpty(s: string)
    ensures Contains(s, "")
  {
    assert "" <= s[0..];
  }

  lemma ContainsSelf(s: string)
    ensures Contains(s, s)
  {
    assert s <= s[0..];
  }

  /** `s.split(sep)` for a non-empty separator: the pieces between occurrences
      of `sep`, scanned left to right. */
  function Split(s: string, sep: string): (r: seq<string>)
    requires |sep| > 0
    ensures |r| >= 1
    decreases |s|
  {
    SplitFrom(s, sep, 0)
  }

  function SplitFrom(s: string, sep: string, i: nat): (r: seq<string>)
    requires |sep| > 0 && i <= |s|
    ensures |r| >= 1
    decreases |s| - i
  {
    if i + |sep| > |s| then [s]
    else if sep <= s[i..] then [s[..i]] + SplitFrom(s[i + |sep|..], sep, 0)
    else SplitFrom(s, sep, i + 1)
  }

  /** `parts.join(sep)`. */
  function Join(parts: seq<string>, sep: string): (r: string)
    ensures |parts| == 0 ==> r == ""
    ensures |parts| == 1 ==> r == parts[0]
    ensures |parts| > 0 ==> parts[0] <= r
  {
    if |parts| == 0 then ""
    else if |parts| == 1 then parts[0]
    else parts[0] + sep + Join(parts[1..], sep)
  }

  /** Characters of the portal's fixed names and labels: letters (Latin-1
      accented letters included), digits, the space and common punctuation. */
  predicate PlainChar(c: char) {
    ('a' <= c <= 'z') || ('A' <= c <= 'Z') || IsAsciiDigit(c) || c == ' '
    || c == '(' || c == ')' || c == '-' || c == '.' || c == ',' || c == '/' || c == '%'
    || c == '\U{2013}' || c == '\U{2014}'
    || ('\U{C0}' <= c <= '\U{FF}' && c != '\U{D7}' && c != '\U{F7}')
  }

  /** Plain characters, single spaces between words. */
  predicate PlainWords(s: string) {
    (forall i :: 0 <= i < |s| ==> PlainChar(s[i]))
    && (forall i :: 0 <= i < |s| - 1 && s[i] == ' ' ==> s[i + 1] != ' ')
  }

  lemma PlainWordsSingleSpaced(s: string)
    requires PlainWords(s)
    ensures NoDoubleSpace(s)
    ensures forall i :: 0 <= i < |s| ==> IsSpace(s[i]) ==> s[i] == ' '
  {
    forall i | 0 <= i < |s| - 1
      ensures !(IsSpace(s[i]) && IsSpace(s[i + 1]))
    {
      assert PlainChar(s[i]) && PlainChar(s[i + 1]);
    }
  }

  /** Plain words with no space at either end. */
  predicate Plain(s: string) {
    PlainWords(s) && NoSpaceAtEnds(s)
  }

  /** Lower-case, decompose and keep the base letter: `é` and `É` both fold to `e`. */
  function FoldChar(c: char): char {
    Decompose(LowerChar(c))[0]
  }

  function Fold(s: string): (r: string)
    ensures |r| == |s|
  {
    MapChars(s, FoldChar)
  }

  lemma FoldCharFacts(c: char)
    requires PlainChar(c)
    ensures PlainChar(LowerChar(c))
    ensures PlainChar(FoldChar(c))
    ensures FoldChar(c) == ' ' <==> c == ' '
    ensures IsSpace(FoldChar(c)) <==> c == ' '
    ensures IsSpace(LowerChar(c)) <==> c == ' '
    ensures !IsCombiningMark(FoldChar(c))
    ensures !IsCombiningMark(LowerChar(c))
  {
    LowerCharFacts(c);
    FoldOfLower(c);
  }

  lemma LowerCharFacts(c: char)
    requires PlainChar(c)
    ensures PlainChar(LowerChar(c))
    ensures IsSpace(LowerChar(c)) <==> c == ' '
    ensures !IsCombiningMark(LowerChar(c))
  {
  }

  lemma FoldOfLower(c: char)
    requires PlainChar(c)
    ensures PlainChar(FoldChar(c))
    ensures FoldChar(c) == ' ' <==> c == ' '
    ensures IsSpace(FoldChar(c)) <==> c == ' '
    ensures !IsCombiningMark(FoldChar(c))
  {
  }

  lemma {:induction false} KeepCharsAppend(a: string, b: string, keep: char -> bool)
    ensures KeepChars(a + b, keep) == KeepChars(a, keep) + KeepChars(b, keep)
  {
    if |a| > 0 {
      assert (a + b)[1..] == a[1..] + b;
      KeepCharsAppend(a[1..], b, keep);
    } else {
      assert a + b == b;
    }
  }

  /** Stripping the marks NFD introduced leaves the base letters, one per character. */
  lemma {:induction false} StripAfterNfd(t: string, keep: char -> bool)
    requires forall i :: 0 <= i < |t| ==> keep(Base(t[i]))
    requires forall i :: 0 <= i < |t| ==> |Decompose(t[i])| == 2 ==> !keep(Decompose(t[i])[1])
    ensures KeepChars(Nfd(t), keep) == MapChars(t, Base)
  {
    if |t| > 0 {
      StripAfterNfd(t[1..], keep);
      StripStep(t, keep);
    }
  }

  lemma StripStep(t: string, keep: char -> bool)
    requires |t| > 0 && keep(Base(t[0]))
    requires |Decompose(t[0])| == 2 ==> !keep(Decompose(t[0])[1])
    requires KeepChars(Nfd(t[1..]), keep) == MapChars(t[1..], Base)
    ensures KeepChars(Nfd(t), keep) == MapChars(t, Base)
  {
    var d := Decompose(t[0]);
    KeepDecomposed(t[0], keep);
    KeepJoin(d, Nfd(t[1..]), keep, Base(t[0]), MapChars(t[1..], Base));
    MapCons(t, Base);
    assert Nfd(t) == d + Nfd(t[1..]);
  }

  lemma KeepJoin(d: string, r: string, keep: char -> bool, b: char, m: string)
    requires KeepChars(d, keep) == [b] && KeepChars(r, keep) == m
    ensures KeepChars(d + r, keep) == [b] + m
  {
    KeepCharsAppend(d, r, keep);
  }

  lemma MapCons(t: string, f: char -> char)
    requires |t| > 0
    ensures MapChars(t, f) == [f(t[0])] + MapChars(t[1..], f)
  {
    assert MapChars(t, f)[1..] == MapChars(t[1..], f);
  }

  lemma KeepDecomposed(c: char, keep: char -> bool)
    requires keep(Base(c))
    requires |Decompose(c)| == 2 ==> !keep(Decompose(c)[1])
    ensures KeepChars(Decompose(c), keep) == [Base(c)]
  {
    var d := Decompose(c);
    if |d| == 2 {
      assert KeepChars(d, keep) == [d[0]] + KeepChars(d[1..], keep);
    }
  }

  /** Collapsing whitespace changes nothing when every space stands alone. */
  lemma {:induction false} CollapseSpacesSingle(u: string)
    requires NoDoubleSpace(u)
    requires forall i :: 0 <= i < |u| ==> IsSpace(u[i]) ==> u[i] == ' '
    ensures CollapseSpaces(u) == u
  {
    if |u| > 0 {
      if IsSpace(u[0]) {
        assert |u| > 1 ==> !IsSpace(u[1]);
        assert TrimStart(u) == TrimStart(u[1..]) == u[1..];
      }
      CollapseSpacesSingle(u[1..]);
    }
  }

  lemma {:induction false} MapCharsAppend(a: string, b: string, f: char -> char)
    ensures MapChars(a + b, f) == MapChars(a, f) + MapChars(b, f)
  {
  }

  lemma PlainWordsAppend(a: string, b: string)
    requires PlainWords(a) && PlainWords(b)
    requires |a| > 0 && |b| > 0 ==> a[|a| - 1] != ' ' || b[0] != ' '
    ensures PlainWords(a + b)
  {
    var s := a + b;
    forall i | 0 <= i < |s| - 1 && s[i] == ' '
      ensures s[i + 1] != ' '
    {
      if i + 1 < |a| {
        assert s[i] == a[i] && s[i + 1] == a[i + 1];
      } else if i >= |a| {
        assert s[i] == b[i - |a|] && s[i + 1] == b[i + 1 - |a|];
      }
    }
  }

  /** Folding plain words keeps every space single and a plain `' '`. */
  lemma FoldSingleSpaced(s: string)
    requires PlainWords(s)
    ensures NoDoubleSpace(Fold(s))
    ensures forall i :: 0 <= i < |s| ==> IsSpace(Fold(s)[i]) ==> Fold(s)[i] == ' '
  {
    var u := Fold(s);
    forall i | 0 <= i < |u| - 1
      ensures !(IsSpace(u[i]) && IsSpace(u[i + 1]))
    {
      FoldCharFacts(s[i]);
      FoldCharFacts(s[i + 1]);
    }
    forall i | 0 <= i < |u|
      ensures IsSpace(u[i]) ==> u[i] == ' '
    {
      FoldCharFacts(s[i]);
    }
  }

  /** One word of a plain name: non-empty, plain characters, no space. */
  predicate PlainWord(w: string) {
    |w| > 0 && forall i :: 0 <= i < |w| ==> PlainChar(w[i]) && w[i] != ' '
  }

  /** A word in the weaker sense the joining needs: non-empty and without `' '`. */
  predicate Word(w: string) {
    |w| > 0 && ' ' !in w
  }

  /** `words.join(" ")`. */
  function Words(ws: seq<string>): string {
    Join(ws, " ")
  }

  /** Plain words joined by single spaces make a plain name that starts with the
      first word. */
  lemma {:induction false} WordsPlain(ws: seq<string>)
    requires |ws| > 0
    requires forall k :: 0 <= k < |ws| ==> PlainWord(ws[k])
    ensures Plain(Words(ws))
    ensures Words(ws)[..|ws[0]|] == ws[0]
  {
    var w := ws[0];
    assert PlainWords(w) by {
      forall i | 0 <= i < |w| ensures PlainChar(w[i]) { assert PlainWord(ws[0]); }
    }
    assert !IsSpace(w[0]) && !IsSpace(w[|w| - 1]) by { assert PlainWord(ws[0]); }
    if |ws| > 1 {
      var rest := ws[1..];
      WordsPlain(rest);
      var r := Words(rest);
      assert r[..|ws[1]|] == ws[1];
      assert PlainWord(ws[1]);
      assert r[0] == ws[1][0] && r[0] != ' ';
      PlainWordsAppend(w, " ");
      PlainWordsAppend(w + " ", r);
      assert Words(ws) == w + " " + r;
    }
  }

  /** Every word of `ws`, folded. */
  function FoldAll(ws: seq<string>): (r: seq<string>)
    ensures |r| == |ws|
    ensures forall k :: 0 <= k < |ws| ==> r[k] == Fold(ws[k])
  {
    seq(|ws|, k requires 0 <= k < |ws| => Fold(ws[k]))
  }

  /** Folding a joined name folds each word and keeps the single spaces. */
  lemma {:induction false} FoldWords(ws: seq<string>)
    ensures Fold(Words(ws)) == Words(FoldAll(ws))
  {
    if |ws| > 1 {
      FoldWords(ws[1..]);
      assert FoldAll(ws)[1..] == FoldAll(ws[1..]);
      MapCharsAppend(ws[0], " ", FoldChar);
      MapCharsAppend(ws[0] + " ", Words(ws[1..]), FoldChar);
    } else if |ws| == 0 {
      assert Fold("") == "";
    }
  }

  /** Folding keeps a plain word a word. */
  lemma FoldWordIsWord(w: string)
    requires PlainWord(w)
    ensures Word(Fold(w))
  {
    forall i | 0 <= i < |w| ensures Fold(w)[i] != ' ' {
      FoldCharFacts(w[i]);
    }
  }

  lemma SpaceAfterFirstWord(ws: seq<string>)
    requires |ws| > 1
    ensures |ws[0]| < |Words(ws)| && Words(ws)[|ws[0]|] == ' '
  {
    assert Words(ws) == ws[0] + " " + Words(ws[1..]);
  }

  /** Joining words with single spaces loses nothing: the words can be read back. */
  lemma {:induction false} WordsInjective(a: seq<string>, b: seq<string>)
    requires forall k :: 0 <= k < |a| ==> Word(a[k])
    requires forall k :: 0 <= k < |b| ==> Word(b[k])
    requires Words(a) == Words(b)
    ensures a == b
  {
    var s := Words(a);
    if |a| > 1 && |b| > 1 {
      assert Word(a[0]) && Word(b[0]);
      assert s == a[0] + " " + Words(a[1..]);
      assert s == b[0] + " " + Words(b[1..]);
      if |a[0]| < |b[0]| {
        SpaceAfterFirstWord(a);
        assert false;
      } else if |b[0]| < |a[0]| {
        SpaceAfterFirstWord(b);
        assert false;
      } else {
        assert a[0] == s[..|a[0]|] == b[0];
        assert Words(a[1..]) == s[|a[0]| + 1..] == Words(b[1..]);
        WordsInjective(a[1..], b[1..]);
        assert a == [a[0]] + a[1..];
        assert b == [b[0]] + b[1..];
      }
    }
  }

  /** Keeping every character is the identity. */
  lemma {:induction false} KeepAll(s: string, keep: char -> bool)
    requires forall c :: c in s ==> keep(c)
    ensures KeepChars(s, keep) == s
  {
    if |s| > 0 {
      KeepAll(s[1..], keep);
    }
  }

  /** Trimming a string with no space at either end changes nothing. */
  lemma TrimNoEnds(s: string)
    requires NoSpaceAtEnds(s)
    ensures Trim(s) == s
  {
    assert TrimStart(s) == s;
    assert TrimEnd(s) == s;
  }

  /** Trimming keeps a property every character has, and keeps text free of
      doubled whitespace. */
  lemma TrimKeeps(u: string, p: char -> bool)
    requires forall c :: c in u ==> p(c)
    requires NoDoubleSpace(u)
    ensures forall c :: c in Trim(u) ==> p(c)
    ensures NoDoubleSpace(Trim(u))
  {
    var k := Trim(u);
    ContainsChars(u, k);
    var a, b := TrimBounds(u);
    SliceNoPair(u, a, b, IsSpace);
  }

  /** A slice of a text with no two adjacent `q` characters has none either. */
  lemma SliceNoPair(u: string, a: nat, b: nat, q: char -> bool)
    requires a <= b <= |u|
    requires forall i :: 0 <= i < |u| - 1 ==> !(q(u[i]) && q(u[i + 1]))
    ensures forall i :: 0 <= i < |u[a..b]| - 1 ==> !(q(u[a..b][i]) && q(u[a..b][i + 1]))
  {
    var k := u[a..b];
    forall i | 0 <= i < |k| - 1
      ensures !(q(k[i]) && q(k[i + 1]))
    {
      assert k[i] == u[a + i] && k[i + 1] == u[a + i + 1];
    }
  }

  lemma TrimBounds(s: string) returns (a: nat, b: nat)
    ensures a <= b <= |s| && Trim(s) == s[a..b]
    ensures forall k :: 0 <= k < a ==> IsSpace(s[k])
    ensures forall k :: b <= k < |s| ==> IsSpace(s[k])
  {
    var ts := TrimStart(s);
    a := |s| - |ts|;
    b := a + |TrimEnd(ts)|;
    assert ts == s[a..];
    forall k | b <= k < |s|
      ensures IsSpace(s[k])
    {
      assert s[k] == ts[k - a];
    }
  }

  /** Every character of a substring occurs in the string. */
  lemma ContainsChars(s: string, t: string)
    requires Contains(s, t)
    ensures forall c :: c in t ==> c in s
  {
    var i :| 0 <= i <= |s| && t <= s[i..];
    forall c | c in t
      ensures c in s
    {
      var k :| 0 <= k < |t| && t[k] == c;
      assert s[i + k] == c;
    }
  }

  /** Every part of a joined text occurs in it. */
  lemma {:induction false} JoinContains(parts: seq<string>, sep: string, k: nat)
    requires k < |parts|
    ensures Contains(Join(parts, sep), parts[k])
    decreases k
  {
    var r := Join(parts, sep);
    if k == 0 {
      assert parts[0] <= r[0..];
    } else {
      var rest := Join(parts[1..], sep);
      JoinContains(parts[1..], sep, k - 1);
      assert r == parts[0] + sep + rest;
      assert rest <= r[|parts[0] + sep|..];
      ContainsTrans(r, rest, parts[k]);
    }
  }

  lemma ContainsMiddle(a: string, t: string, b: string)
    ensures Contains(a + t + b, t)
  {
    assert t <= (a + t + b)[|a|..];
  }

  /** Appending text keeps what was found. */
  lemma ContainsExtend(s: string, t: string, b: string)
    requires Contains(s, t)
    ensures Contains(s + b, t)
  {
    var i :| 0 <= i <= |s| && t <= s[i..];
    assert t <= (s + b)[i..];
  }

  lemma ContainsTrans(a: string, b: string, c: string)
    requires Contains(a, b) && Contains(b, c)
    ensures Contains(a, c)
  {
    var i :| 0 <= i <= |a| && b <= a[i..];
    var j :| 0 <= j <= |b| && c <= b[j..];
    assert c <= a[i + j..] by {
      forall k | 0 <= k < |c|
        ensures c[k] == a[i + j + k]
      {
        assert c[k] == b[j + k];
      }
    }
  }

  /** A substring splits its string into three parts. */
  lemma ContainsSplit(s: string, t: string) returns (x: string, y: string)
    requires Contains(s, t)
    ensures s == x + t + y
  {
    var i :| 0 <= i <= |s| && t <= s[i..];
    x, y := s[..i], s[i + |t|..];
    assert s == s[..i] + s[i..i + |t|] + s[i + |t|..];
  }

  /** A substring with no space at its ends survives trimming. */
  lemma ContainsTrim(s: string, t: string)
    requires Contains(s, t) && NoSpaceAtEnds(t)
    ensures Contains(Trim(s), t)
  {
    if |t| == 0 {
      ContainsEmpty(Trim(s));
    } else {
      var i :| 0 <= i <= |s| && t <= s[i..];
      var a, b := TrimBounds(s);
      OutsideSpaces(s, t, i, a, b);
      ContainsSlice(s, t, i, a, b);
    }
  }

  lemma OutsideSpaces(s: string, t: string, i: int, a: int, b: int)
    requires NoSpaceAtEnds(t) && |t| > 0 && 0 <= i <= |s| && t <= s[i..]
    requires 0 <= a <= b <= |s|
    requires forall k :: 0 <= k < a ==> IsSpace(s[k])
    requires forall k :: b <= k < |s| ==> IsSpace(s[k])
    ensures a <= i && i + |t| <= b
  {
    assert s[i] == t[0];
    assert s[i + |t| - 1] == t[|t| - 1];
  }

  lemma ContainsSlice(s: string, t: string, i: int, a: int, b: int)
    requires 0 <= a <= i && i + |t| <= b <= |s| && t <= s[i..]
    ensures Contains(s[a..b], t)
  {
    assert t <= s[a..b][i - a..];
  }

  /** A property of every character of two texts holds for every character
      of the two together. */
  lemma CharsConcat(a: string, b: string, p: char -> bool)
    requires forall i :: 0 <= i < |a| ==> p(a[i])
    requires forall i :: 0 <= i < |b| ==> p(b[i])
    ensures forall i :: 0 <= i < |a + b| ==> p((a + b)[i])
  {
    forall i | 0 <= i < |a + b|
      ensures p((a + b)[i])
    {
      if i < |a| {
        assert (a + b)[i] == a[i];
      } else {
        assert (a + b)[i] == b[i - |a|];
      }
    }
  }

  lemma LowerAppend(a: string, b: string)
    ensures Lower(a + b) == Lower(a) + Lower(b)
  {
  }

  lemma {:induction false} NfdAppend(a: string, b: string)
    ensures Nfd(a + b) == Nfd(a) + Nfd(b)
  {
    if |a| > 0 {
      assert (a + b)[1..] == a[1..] + b;
      NfdAppend(a[1..], b);
    } else {
      assert a + b == b;
    }
  }

  lemma ContainsLower(s: string, t: string)
    requires Contains(s, t)
    ensures Contains(Lower(s), Lower(t))
  {
    var x, y := ContainsSplit(s, t);
    LowerAppend(x, t);
    LowerAppend(x + t, y);
    ContainsMiddle(Lower(x), Lower(t), Lower(y));
  }

  lemma ContainsNfd(s: string, t: string)
    requires Contains(s, t)
    ensures Contains(Nfd(s), Nfd(t))
  {
    var x, y := ContainsSplit(s, t);
    NfdAppend(x, t);
    NfdAppend(x + t, y);
    ContainsMiddle(Nfd(x), Nfd(t), Nfd(y));
  }

  lemma ContainsKeep(s: string, t: string, keep: char -> bool)
    requires Contains(s, t)
    ensures Contains(KeepChars(s, keep), KeepChars(t, keep))
  {
    var x, y := ContainsSplit(s, t);
    KeepCharsAppend(x, t, keep);
    KeepCharsAppend(x + t, y, keep);
    ContainsMiddle(KeepChars(x, keep), KeepChars(t, keep), KeepChars(y, keep));
  }

  /** A string that lacks one of a pattern's characters does not contain it. */
  lemma MissingChar(s: string, t: string, c: char)
    requires c in t && c !in s
    ensures !Contains(s, t)
  {
    if Contains(s, t) {
      ContainsChars(s, t);
    }
  }

  /** Leading whitespace is removed up to the first other character. */
  lemma {:induction false} TrimStartSpaces(w: string, b: string)
    requires forall i :: 0 <= i < |w| ==> IsSpace(w[i])
    requires |b| == 0 || !IsSpace(b[0])
    ensures TrimStart(w + b) == b
  {
    if |w| > 0 {
      assert (w + b)[1..] == w[1..] + b;
      TrimStartSpaces(w[1..], b);
    } else {
      assert w + b == b;
    }
  }

  /** A run of whitespace between two runs of other characters collapses to
      one space. */
  lemma {:induction false} CollapseAround(a: string, w: string, b: string)
    requires forall i :: 0 <= i < |a| ==> !IsSpace(a[i])
    requires |w| > 0 && forall i :: 0 <= i < |w| ==> IsSpace(w[i])
    requires |b| == 0 || !IsSpace(b[0])
    ensures CollapseSpaces(a + w + b) == a + " " + CollapseSpaces(b)
  {
    var s := a + w + b;
    if |a| > 0 {
      assert s[0] == a[0] && !IsSpace(s[0]);
      assert s[1..] == a[1..] + w + b;
      CollapseAround(a[1..], w, b);
      assert CollapseSpaces(s) == [a[0]] + CollapseSpaces(s[1..]);
      assert [a[0]] + (a[1..] + " " + CollapseSpaces(b)) == a + " " + CollapseSpaces(b);
    } else {
      assert s == w + b;
      CollapseRun(w, b);
    }
  }

  /** A run of whitespace in front of other text collapses to one space. */
  lemma CollapseRun(w: string, b: string)
    requires |w| > 0 && forall i :: 0 <= i < |w| ==> IsSpace(w[i])
    requires |b| == 0 || !IsSpace(b[0])
    ensures CollapseSpaces(w + b) == " " + CollapseSpaces(b)
  {
    var s := w + b;
    assert s[0] == w[0];
    TrimStartSpaces(w, b);
  }

  /** Splitting at the first occurrence of the separator: what precedes it
      is the first piece. */
  lemma {:induction false} SplitAt(a: string, b: string, sep: string, i: nat)
    requires |sep| > 0 && i <= |a|
    requires forall j :: i <= j < |a| ==> !(sep <= (a + sep + b)[j..])
    ensures SplitFrom(a + sep + b, sep, i) == [a] + Split(b, sep)
    decreases |a| - i
  {
    var s := a + sep + b;
    if i == |a| {
      assert sep <= s[i..];
      assert s[..i] == a;
      assert s[i + |sep|..] == b;
    } else {
      SplitAt(a, b, sep, i + 1);
    }
  }

  /** A string without the separator is one piece. */
  lemma {:induction false} SplitWhole(s: string, sep: string, i: nat)
    requires |sep| > 0 && i <= |s|
    requires forall j :: i <= j && j + |sep| <= |s| ==> !(sep <= s[j..])
    ensures SplitFrom(s, sep, i) == [s]
    decreases |s| - i
  {
    if i + |sep| <= |s| {
      SplitWhole(s, sep, i + 1);
    }
  }
}

=== FILE: titles.dfy ===
/** Reading a spreadsheet process title such as
    `12345 VESTIBULAR - SEDE PRESENCIAL - 2026/1`: the numeric process code in
    front, the unit named by the second ` - `-separated part with its study
    mode stripped, and the title without its code. The mode suffixes are
    end-anchored, case-insensitive regular expressions, modelled by a small
    matcher. */
module Titles {
  import opened Wrappers
  import opened Text
  import opened Seqs

  /** One element of a suffix pattern: a run of at least `min` whitespace
      characters (`\s*` or `\s+`), or one character out of a set (a letter
      under the `i` flag, or a bracket class). */
  datatype Atom = Spaces(min: nat) | OneOf(chars: set<char>)

  type Pattern = seq<Atom>

  /** Whether the whole of `s` matches `p`. */
  predicate Matches(s: string, p: Pattern)
    decreases |s|, |p|
  {
    if |p| == 0 then |s| == 0
    else match p[0]
      case OneOf(cs) => |s| > 0 && s[0] in cs && Matches(s[1..], p[1..])
      case Spaces(m) =>
        (m == 0 && Matches(s, p[1..]))
        || (|s| > 0 && IsSpace(s[0]) && Matches(s[1..], [Spaces(if m == 0 then 0 else m - 1)] + p[1..]))
  }

  /** One character of a literal under the `i` flag: an ASCII letter in either
      case, anything else as itself. */
  function Letter(c: char): Atom {
    if 'A' <= c <= 'Z' then OneOf({c, (c as int + 32) as char}) else OneOf({c})
  }

  /** The study-mode suffixes removed from a unit name, in the order they are
      tried: ` 100% EAD`, ` SEMIPRESENCIAL FLEX`, ` SEMIPRESENCIAL`,
      ` HÍBRIDO` (or `HIBRIDO`), ` PRESENCIAL`, ` EAD` and ` FLEX`, each
      preceded by whitespace and anchored at the end. */
  function Modes(): seq<Pattern> {
    [ [Spaces(1)] + Word("100%") + [Spaces(0)] + Word("EAD"),
      [Spaces(1)] + Word("SEMIPRESENCIAL") + [Spaces(1)] + Word("FLEX"),
      [Spaces(1)] + Word("SEMIPRESENCIAL"),
      [Spaces(1), Letter('H'), OneOf({'\U{CD}', 'I', '\U{ED}', 'i'})] + Word("BRIDO"),
      [Spaces(1)] + Word("PRESENCIAL"),
      [Spaces(1)] + Word("EAD"),
      [Spaces(1)] + Word("FLEX") ]
  }

  /** A literal word under the `i` flag, one character at a time. */
  function Word(w: string): Pattern {
    MapSeq(w, Letter)
  }

  /** The characters a mode suffix can end with. */
  function ModeEnds(): set<char> {
    {'D', 'd', 'X', 'x', 'L', 'l', 'O', 'o'}
  }

  /** The pattern ends in a character set drawn from `cs`. */
  predicate EndsIn(p: Pattern, cs: set<char>) {
    |p| > 0 && p[|p| - 1].OneOf? && p[|p| - 1].chars <= cs
  }

  /** A match of `p` starts at position `j` and runs to the end of `s`. */
  predicate MatchesAt(s: string, p: Pattern, j: nat)
    requires j <= |s|
  {
    Matches(s[j..], p)
  }

  /** The start of the leftmost match of `p` that runs to the end of `s`,
      searching from position `i`. */
  function MatchFrom(s: string, p: Pattern, i: nat): (r: Option<nat>)
    requires i <= |s|
    ensures r.Some? ==> i <= r.value <= |s| && MatchesAt(s, p, r.value)
    ensures r.Some? ==> forall j :: i <= j < r.value ==> !MatchesAt(s, p, j)
    ensures r.None? ==> forall j :: i <= j <= |s| ==> !MatchesAt(s, p, j)
    decreases |s| - i
  {
    if MatchesAt(s, p, i) then Some(i)
    else if i == |s| then None
    else MatchFrom(s, p, i + 1)
  }

  /** `s.replace(rgx, "")` for an end-anchored, non-global `rgx`: the
      leftmost match is cut off, or `s` is left as it is. */
  function RemoveMatch(s: string, p: Pattern): (r: string)
    ensures r <= s
    ensures Contains(s, r)
  {
    RemoveFrom(s, p, 0)
  }

  /** `RemoveMatch` once the positions before `i` are known not to match. */
  function RemoveFrom(s: string, p: Pattern, i: nat): (r: string)
    requires i <= |s|
    ensures r <= s
    ensures Contains(s, r)
    decreases |s| - i
  {
    if MatchesAt(s, p, i) then
      assert s[..i] <= s[0..];
      s[..i]
    else if i == |s| then
      ContainsSelf(s);
      s
    else RemoveFrom(s, p, i + 1)
  }

  /** A match at `v` with none between `i` and `v` is the leftmost one. */
  lemma LeftmostAt(s: string, p: Pattern, i: nat, v: nat)
    requires i <= v <= |s| && MatchesAt(s, p, v)
    requires forall j :: i <= j < v ==> !MatchesAt(s, p, j)
    ensures MatchFrom(s, p, i) == Some(v)
  {
  }

  /** The cut happens at the leftmost match. */
  lemma {:induction false} RemoveAtLeftmost(s: string, p: Pattern, i: nat)
    requires i <= |s|
    ensures RemoveFrom(s, p, i) == match MatchFrom(s, p, i) case Some(j) => s[..j] case None => s
    decreases |s| - i
  {
    if !MatchesAt(s, p, i) && i < |s| {
      RemoveAtLeftmost(s, p, i + 1);
    }
  }

  /** One pattern removed and the rest trimmed. */
  function StripOne(s: string, p: Pattern): (r: string)
    ensures Contains(s, r) && NoSpaceAtEnds(r)
  {
    var cut := RemoveMatch(s, p);
    var t := Trim(cut);
    ContainsTrans(s, cut, t);
    t
  }

  /** Each pattern in turn is removed and the rest trimmed. */
  function StripAll(s: string, ps: seq<Pattern>): (r: string)
    ensures Contains(s, r)
    ensures |ps| > 0 ==> NoSpaceAtEnds(r)
    decreases |ps|
  {
    if |ps| == 0 then
      ContainsSelf(s);
      s
    else
      var t := StripOne(s, ps[0]);
      var r := StripAll(t, ps[1..]);
      ContainsTrans(s, t, r);
      r
  }

  /** A match of a pattern ending in a character set ends with a character
      of that set. */
  lemma {:induction false} MatchesEnd(t: string, p: Pattern)
    requires |p| > 0 && p[|p| - 1].OneOf?
    requires Matches(t, p)
    ensures |t| > 0 && t[|t| - 1] in p[|p| - 1].chars
    decreases |t|, |p|
  {
    match p[0]
    case OneOf(cs) =>
      if |p| > 1 {
        MatchesEnd(t[1..], p[1..]);
      }
    case Spaces(m) =>
      if m == 0 && Matches(t, p[1..]) {
        MatchesEnd(t, p[1..]);
      } else {
        MatchesEnd(t[1..], [Spaces(if m == 0 then 0 else m - 1)] + p[1..]);
      }
  }

  /** Every pattern ends in a character set drawn from `cs`. */
  predicate AllEndIn(ps: seq<Pattern>, cs: set<char>) {
    forall k :: 0 <= k < |ps| ==> EndsIn(ps[k], cs)
  }

  /** A pattern cannot match anywhere in a string whose last character it
      cannot end with. */
  lemma {:induction false} RemoveBlocked(s: string, p: Pattern, i: nat, cs: set<char>)
    requires i <= |s| && |s| > 0 && EndsIn(p, cs) && s[|s| - 1] !in cs
    ensures RemoveFrom(s, p, i) == s
    decreases |s| - i
  {
    if MatchesAt(s, p, i) {
      MatchesEnd(s[i..], p);
      assert false;
    }
    if i < |s| {
      RemoveBlocked(s, p, i + 1, cs);
    }
  }

  /** A trimmed string whose last character no pattern can end with passes
      through the suffix removal unchanged. */
  lemma {:induction false} StripBlocked(s: string, ps: seq<Pattern>, cs: set<char>)
    requires |s| > 0 && NoSpaceAtEnds(s) && s[|s| - 1] !in cs && AllEndIn(ps, cs)
    ensures StripAll(s, ps) == s
    decreases |ps|
  {
    if |ps| > 0 {
      assert EndsIn(ps[0], cs);
      RemoveBlocked(s, ps[0], 0, cs);
      TrimNoEnds(s);
      StripBlocked(s, ps[1..], cs);
    }
  }

  /** Every study-mode suffix ends in one of the letters D, X, L or O. */
  lemma ModesEnd()
    ensures AllEndIn(Modes(), ModeEnds())
  {
  }

  /** No study-mode suffix matches anywhere in `u`. */
  predicate NoModeSuffix(u: string) {
    forall k :: 0 <= k < |Modes()| ==> MatchFrom(u, Modes()[k], 0).None?
  }

  /** A trimmed text that no pattern matches passes through the suffix
      removal unchanged. */
  lemma {:induction false} StripNone(s: string, ps: seq<Pattern>)
    requires NoSpaceAtEnds(s)
    requires forall k :: 0 <= k < |ps| ==> MatchFrom(s, ps[k], 0).None?
    ensures StripAll(s, ps) == s
    decreases |ps|
  {
    if |ps| > 0 {
      StripOneUnchanged(s, ps[0]);
      assert forall k :: 0 <= k < |ps| - 1 ==> ps[1..][k] == ps[k + 1];
      StripNone(s, ps[1..]);
    }
  }

  /** The patterns from the `n`-th on leave a text that none of them
      matches unchanged. */
  lemma StripNoneFrom(s: string, ps: seq<Pattern>, n: nat)
    requires n <= |ps| && NoSpaceAtEnds(s)
    requires forall k :: n <= k < |ps| ==> MatchFrom(s, ps[k], 0).None?
    ensures StripAll(s, ps[n..]) == s
  {
    assert forall k :: 0 <= k < |ps| - n ==> ps[n..][k] == ps[n + k];
    StripNone(s, ps[n..]);
  }

  /** When the `n`-th pattern alone changes `s`, into a text the later
      patterns do not match, the suffix removal gives that text. */
  lemma StripOnlyAt(s: string, ps: seq<Pattern>, n: nat, u: string)
    requires n < |ps| && NoSpaceAtEnds(u)
    requires forall k {:trigger StripOne(s, ps[k])} :: 0 <= k < n ==> StripOne(s, ps[k]) == s
    requires StripOne(s, ps[n]) == u
    requires forall k :: n < k < |ps| ==> MatchFrom(u, ps[k], 0).None?
    ensures StripAll(s, ps) == u
  {
    StripAllSkip(s, ps, n);
    var rest := ps[n..];
    assert rest[0] == ps[n] && rest[1..] == ps[n + 1..];
    StripNoneFrom(u, ps, n + 1);
  }

  lemma StripOneUnchanged(s: string, p: Pattern)
    requires NoSpaceAtEnds(s) && MatchFrom(s, p, 0).None?
    ensures StripOne(s, p) == s
  {
    RemoveAtLeftmost(s, p, 0);
    TrimNoEnds(s);
  }

  /** The first `n` patterns leaving a text unchanged can be skipped. */
  lemma {:induction false} StripAllSkip(s: string, ps: seq<Pattern>, n: nat)
    requires n <= |ps|
    requires forall k {:trigger StripOne(s, ps[k])} :: 0 <= k < n ==> StripOne(s, ps[k]) == s
    ensures StripAll(s, ps) == StripAll(s, ps[n..])
    decreases n
  {
    if n > 0 {
      StripAllFirst(s, ps);
      var rest := ps[1..];
      forall k | 0 <= k < n - 1
        ensures StripOne(s, rest[k]) == s
      {
        assert rest[k] == ps[k + 1];
      }
      StripAllSkip(s, rest, n - 1);
      assert rest[n - 1..] == ps[n..];
    }
  }

  /** A first pattern that leaves the text unchanged can be skipped. */
  lemma StripAllFirst(s: string, ps: seq<Pattern>)
    requires |ps| > 0 && StripOne(s, ps[0]) == s
    ensures StripAll(s, ps) == StripAll(s, ps[1..])
  {
  }

  /** Every study-mode suffix begins with a run of at least one whitespace
      character. */
  lemma ModesStartWithSpace(k: nat)
    requires k < |Modes()|
    ensures |Modes()[k]| > 0 && Modes()[k][0] == Spaces(1)
  {
  }

  /** Whatever a pattern starting with `\s+` matches starts with whitespace. */
  lemma SpaceFirst(t: string, p: Pattern)
    requires |p| > 0 && p[0] == Spaces(1) && Matches(t, p)
    ensures |t| > 0 && IsSpace(t[0])
  {
  }

  /** A text without whitespace carries no study-mode suffix: a single-word
      unit name such as `SEDE` or `SUL` is kept whole. */
  lemma NoSpaceNoMode(u: string)
    requires forall i :: 0 <= i < |u| ==> !IsSpace(u[i])
    ensures NoModeSuffix(u)
  {
    forall k, j | 0 <= k < |Modes()| && 0 <= j <= |u|
      ensures !MatchesAt(u, Modes()[k], j)
    {
      ModesStartWithSpace(k);
      if j < |u| {
        assert u[j..][0] == u[j];
      }
      if MatchesAt(u, Modes()[k], j) {
        SpaceFirst(u[j..], Modes()[k]);
      }
    }
  }

  /** A pattern made of single characters only. */
  predicate AllOneOf(q: Pattern) {
    forall i :: 0 <= i < |q| ==> q[i].OneOf?
  }

  /** Single-character patterns match exactly the texts of their length whose
      characters fall in their sets. */
  lemma {:induction false} LettersOnly(t: string, q: Pattern)
    requires AllOneOf(q) && Matches(t, q)
    ensures |t| == |q| && forall i :: 0 <= i < |q| ==> t[i] in q[i].chars
    decreases |q|
  {
    if |q| > 0 {
      LettersOnly(t[1..], q[1..]);
      forall i | 0 < i < |q|
        ensures t[i] in q[i].chars
      {
        assert t[1..][i - 1] == t[i] && q[1..][i - 1] == q[i];
      }
    }
  }

  lemma {:induction false} LettersMatch(t: string, q: Pattern)
    requires AllOneOf(q) && |t| == |q| && forall i :: 0 <= i < |q| ==> t[i] in q[i].chars
    ensures Matches(t, q)
    decreases |q|
  {
    if |q| > 0 {
      forall i | 0 <= i < |q| - 1
        ensures t[1..][i] in q[1..][i].chars
      {
        assert t[1..][i] == t[i + 1] && q[1..][i] == q[i + 1];
      }
      LettersMatch(t[1..], q[1..]);
    }
  }

  /** A match of `p` followed by single characters `q` ends in characters of
      `q`'s sets, and what comes before them matches `p`. */
  lemma {:induction false} EndSplit(t: string, p: Pattern, q: Pattern)
    requires AllOneOf(q) && Matches(t, p + q)
    ensures |t| >= |q| && Matches(t[..|t| - |q|], p)
    ensures forall i :: 0 <= i < |q| ==> t[|t| - |q| + i] in q[i].chars
    decreases |t|, |p|, 2
  {
    if |p| == 0 {
      assert p + q == q;
      LettersOnly(t, q);
    } else if p[0].OneOf? {
      EndSplitChar(t, p, q);
    } else {
      EndSplitSpaces(t, p, q);
    }
  }

  lemma {:induction false} EndSplitChar(t: string, p: Pattern, q: Pattern)
    requires AllOneOf(q) && |p| > 0 && p[0].OneOf? && Matches(t, p + q)
    ensures |t| >= |q| && Matches(t[..|t| - |q|], p)
    ensures forall i :: 0 <= i < |q| ==> t[|t| - |q| + i] in q[i].chars
    decreases |t|, |p|, 1
  {
    var pq := p + q;
    assert pq[0] == p[0] && pq[1..] == p[1..] + q;
    EndSplit(t[1..], p[1..], q);
    EndShift(t, q);
  }

  lemma {:induction false} EndSplitSpaces(t: string, p: Pattern, q: Pattern)
    requires AllOneOf(q) && |p| > 0 && p[0].Spaces? && Matches(t, p + q)
    ensures |t| >= |q| && Matches(t[..|t| - |q|], p)
    ensures forall i :: 0 <= i < |q| ==> t[|t| - |q| + i] in q[i].chars
    decreases |t|, |p|, 1
  {
    if p[0].min == 0 && Matches(t, p[1..] + q) {
      EndSplit(t, p[1..], q);
    } else {
      EndSplitEat(t, p, q);
    }
  }

  /** The case where the leading run of whitespace takes the first
      character. */
  lemma {:induction false} EndSplitEat(t: string, p: Pattern, q: Pattern)
    requires AllOneOf(q) && |p| > 0 && p[0].Spaces? && Matches(t, p + q)
    requires !(p[0].min == 0 && Matches(t, p[1..] + q))
    ensures |t| >= |q| && Matches(t[..|t| - |q|], p)
    ensures forall i :: 0 <= i < |q| ==> t[|t| - |q| + i] in q[i].chars
    decreases |t|, |p|, 0
  {
    var pq := p + q;
    assert pq[0] == p[0] && pq[1..] == p[1..] + q;
    var m := p[0].min;
    var m' := if m == 0 then 0 else m - 1;
    assert [Spaces(m')] + pq[1..] == ([Spaces(m')] + p[1..]) + q;
    EndSplit(t[1..], [Spaces(m')] + p[1..], q);
    EndShift(t, q);
  }

  /** The tail facts of `t[1..]` are those of `t`. */
  lemma EndShift(t: string, q: Pattern)
    requires AllOneOf(q) && |t| > 0 && |t[1..]| >= |q|
    requires forall i :: 0 <= i < |q| ==> t[1..][|t[1..]| - |q| + i] in q[i].chars
    ensures t[..|t| - |q|][1..] == t[1..][..|t[1..]| - |q|]
    ensures forall i :: 0 <= i < |q| ==> t[|t| - |q| + i] in q[i].chars
  {
    forall i | 0 <= i < |q|
      ensures t[|t| - |q| + i] in q[i].chars
    {
      assert t[1..][|t[1..]| - |q| + i] == t[|t| - |q| + i];
    }
  }

  /** What a lone `\s*` or `\s+` matches is all whitespace. */
  lemma {:induction false} SpacesOnly(x: string, m: nat)
    requires Matches(x, [Spaces(m)])
    ensures forall i :: 0 <= i < |x| ==> IsSpace(x[i])
    decreases |x|
  {
    if |x| > 0 {
      var m' := if m == 0 then 0 else m - 1;
      assert [Spaces(m)][1..] == [];
      assert [Spaces(m')] + [Spaces(m)][1..] == [Spaces(m')];
      SpacesOnly(x[1..], m');
      forall i | 0 < i < |x|
        ensures IsSpace(x[i])
      {
        assert x[1..][i - 1] == x[i];
      }
    }
  }

  /** The unit name used when a title names none. It is written as two
      literals so that the verifier does not unfold it character by character
      wherever a record's unit name is compared with it. */
  function Outros(): string { "OUT" + "ROS" }

  /** What a spreadsheet title is read into. */
  datatype TitleParts = TitleParts(code: string, unitName: string, processTitle: string)

  predicate NonEmpty(x: string) { |x| > 0 }

  /** The title's code: the digits of its first space-separated token. */
  function CodeOf(raw: string): (code: string)
    ensures forall c :: c in code ==> IsAsciiDigit(c)
  {
    KeepChars(Split(raw, " ")[0], IsAsciiDigit)
  }

  /** `raw` is `code`, then only whitespace, then `rest`. */
  predicate CodeThenRest(raw: string, code: string, rest: string) {
    |code| + |rest| <= |raw|
    && raw[..|code|] == code
    && raw[|raw| - |rest|..] == rest
    && forall i :: |code| <= i < |raw| - |rest| ==> IsSpace(raw[i])
  }

  /** Whether the title starts with its code, so that the code is removed. */
  predicate LeadingCode(raw: string, code: string) {
    code != "" && StartsWith(raw, code)
  }

  /** The title without its code: the code and the whitespace after it are
      removed when the title starts with the code. */
  function WithoutCode(raw: string, code: string): (r: string)
    ensures LeadingCode(raw, code) ==> CodeThenRest(raw, code, r) && (|r| > 0 ==> !IsSpace(r[0]))
    ensures !LeadingCode(raw, code) ==> r == raw
  {
    if LeadingCode(raw, code) then TrimStart(raw[|code|..]) else raw
  }

  /** The non-empty trimmed ` - `-separated parts of a title. */
  function Parts(s: string): (r: seq<string>)
    ensures forall x :: x in r ==> Contains(s, x)
  {
    var r := Filter(MapSeq(Split(s, " - "), Trim), NonEmpty);
    PartInside(s, r);
    r
  }

  /** The fallback name carries no study-mode suffix. */
  lemma OutrosKept(modes: seq<Pattern>)
    requires AllEndIn(modes, ModeEnds())
    ensures StripAll(Outros(), modes) == Outros()
  {
    var o := Outros();
    assert o[|o| - 1] == 'S';
    StripBlocked(o, modes, ModeEnds());
  }

  /** The unit part of a title: its second part, or the fallback. */
  function PickUnit(parts: seq<string>): (r: string)
    ensures r == Outros() || r in parts
  {
    if |parts| >= 2 then parts[1] else Outros()
  }

  /** The unit name after the suffixes `modes` are removed, or the fallback
      when nothing is left. */
  function UnitName(picked: string, modes: seq<Pattern>): (r: string)
    requires |modes| > 0 && AllEndIn(modes, ModeEnds())
    ensures r != "" && NoSpaceAtEnds(r)
    ensures r == Outros() || Contains(picked, r)
    ensures picked == Outros() ==> r == Outros()
  {
    var unit := StripAll(picked, modes);
    if picked == Outros() then
      OutrosKept(modes);
      Outros()
    else if unit == "" then Outros() else unit
  }

  /** Splits a spreadsheet title, removing the suffixes `modes` from the
      unit name. The code is all digits, the unit name is never empty and has
      no surrounding whitespace, and it is either the fallback `OUTROS` or a
      piece of the process title, which is the trimmed title less a leading
      code. */
  function SplitTitleWith(fullTitle: string, modes: seq<Pattern>): (r: TitleParts)
    requires |modes| > 0 && AllEndIn(modes, ModeEnds())
    ensures forall c :: c in r.code ==> IsAsciiDigit(c)
    ensures r.unitName != "" && NoSpaceAtEnds(r.unitName)
    ensures r.unitName == Outros() || Contains(r.processTitle, r.unitName)
    ensures LeadingCode(Trim(fullTitle), r.code) ==>
      CodeThenRest(Trim(fullTitle), r.code, r.processTitle) && (|r.processTitle| > 0 ==> !IsSpace(r.processTitle[0]))
    ensures !LeadingCode(Trim(fullTitle), r.code) ==> r.processTitle == Trim(fullTitle)
  {
    var raw := Trim(fullTitle);
    var code := CodeOf(raw);
    var withoutCode := WithoutCode(raw, code);
    var picked := PickUnit(Parts(withoutCode));
    var unit := UnitName(picked, modes);
    assert unit != Outros() ==> Contains(withoutCode, unit) by {
      if unit != Outros() {
        ContainsTrans(withoutCode, picked, unit);
      }
    }
    TitleParts(code, unit, withoutCode)
  }

  /** The page's title reader, with its seven study-mode suffixes. */
  function SplitTitle(fullTitle: string): (r: TitleParts)
    ensures forall c :: c in r.code ==> IsAsciiDigit(c)
    ensures r.unitName != "" && NoSpaceAtEnds(r.unitName)
    ensures r.unitName == Outros() || Contains(r.processTitle, r.unitName)
    ensures LeadingCode(Trim(fullTitle), r.code) ==>
      CodeThenRest(Trim(fullTitle), r.code, r.processTitle) && (|r.processTitle| > 0 ==> !IsSpace(r.processTitle[0]))
    ensures !LeadingCode(Trim(fullTitle), r.code) ==> r.processTitle == Trim(fullTitle)
  {
    ModesEnd();
    SplitTitleWith(fullTitle, Modes())
  }

  /** Every part of a title occurs in it. */
  lemma PartInside(s: string, parts: seq<string>)
    requires parts == Filter(MapSeq(Split(s, " - "), Trim), NonEmpty)
    ensures forall x :: x in parts ==> Contains(s, x)
  {
    var pieces := Split(s, " - ");
    SplitInside(s, " - ", 0);
    TrimmedInside(s, pieces);
  }

  /** The trimmed pieces of a string occur in it when the pieces do. */
  lemma TrimmedInside(s: string, pieces: seq<string>)
    requires forall k :: 0 <= k < |pieces| ==> Contains(s, pieces[k])
    ensures forall x :: x in MapSeq(pieces, Trim) ==> Contains(s, x)
  {
    var trimmed := MapSeq(pieces, Trim);
    forall x | x in trimmed
      ensures Contains(s, x)
    {
      var k :| 0 <= k < |trimmed| && trimmed[k] == x;
      ContainsTrans(s, pieces[k], x);
    }
  }

  /** Every piece of a split occurs in the split string. */
  lemma {:induction false} SplitInside(s: string, sep: string, i: nat)
    requires |sep| > 0 && i <= |s|
    ensures forall k :: 0 <= k < |SplitFrom(s, sep, i)| ==> Contains(s, SplitFrom(s, sep, i)[k])
    decreases |s| - i
  {
    var r := SplitFrom(s, sep, i);
    if i + |sep| > |s| {
      ContainsSelf(s);
    } else if sep <= s[i..] {
      var rest := s[i + |sep|..];
      SplitInside(rest, sep, 0);
      assert s[..i] <= s[0..];
      assert rest <= s[i + |sep|..];
      forall k | 0 <= k < |r|
        ensures Contains(s, r[k])
      {
        if k > 0 {
          assert r[k] == SplitFrom(rest, sep, 0)[k - 1];
          ContainsTrans(s, rest, r[k]);
        }
      }
    } else {
      SplitInside(s, sep, i + 1);
    }
  }

  /** A title of the usual shape `<code> <process> - <unit> - <term>` reads
      back into its code, its unit and its text after the code, as long as no
      study-mode suffix matches the unit and neither the process nor the unit
      contains the separator. */
  lemma TitleRoundTrip(code: string, a: string, u: string, t: string)
    requires |code| > 0 && forall c :: c in code ==> IsAsciiDigit(c)
    requires |a| > 0 && NoSpaceAtEnds(a) && !Contains(a + " ", " - ")
    requires |u| > 0 && NoSpaceAtEnds(u) && !Contains(u + " ", " - ") && NoModeSuffix(u)
    requires |t| > 0 && NoSpaceAtEnds(t)
    ensures SplitTitle(code + " " + a + " - " + u + " - " + t) == TitleParts(code, u, a + " - " + u + " - " + t)
  {
    StripNone(u, Modes());
    TitleOfParts(code, a, u, t, u);
  }

  /** A title whose unit part carries the study mode, as in
      `<code> <process> - <unit> PRESENCIAL - <term>`, reads back into its
      code, its unit without the mode and its text after the code, under the
      same conditions on the unit. */
  lemma TitleModeRoundTrip(code: string, a: string, u: string, t: string)
    requires |code| > 0 && forall c :: c in code ==> IsAsciiDigit(c)
    requires |a| > 0 && NoSpaceAtEnds(a) && !Contains(a + " ", " - ")
    requires |u| > 0 && NoSpaceAtEnds(u) && !Contains(u + " ", " - ") && NoModeSuffix(u)
    requires |t| > 0 && NoSpaceAtEnds(t)
    ensures SplitTitle(code + " " + a + " - " + (u + " PRESENCIAL") + " - " + t)
         == TitleParts(code, u, a + " - " + (u + " PRESENCIAL") + " - " + t)
  {
    PresencialPart(u);
    PresencialStripped(u);
    TitleOfParts(code, a, u + " PRESENCIAL", t, u);
  }

  /** `u PRESENCIAL` is a unit part as `TitleOfParts` needs it. */
  lemma PresencialPart(u: string)
    requires |u| > 0 && NoSpaceAtEnds(u) && !Contains(u + " ", " - ")
    ensures var part := u + " PRESENCIAL";
      |part| > 0 && NoSpaceAtEnds(part) && !Contains(part + " ", " - ") && part != Outros()
  {
    var part := u + " PRESENCIAL";
    assert part[0] == u[0] && part[|part| - 1] == 'L';
    NoSepWithPresencial(u);
    var o := Outros();
    assert o[|o| - 1] == 'S';
  }

  /** A title `<code> <process> - <part> - <term>` reads back into its code,
      the unit `u` its unit part leaves once the mode suffixes are removed, and
      its text after the code. */
  lemma TitleOfParts(code: string, a: string, part: string, t: string, u: string)
    requires |code| > 0 && forall c :: c in code ==> IsAsciiDigit(c)
    requires |a| > 0 && NoSpaceAtEnds(a) && !Contains(a + " ", " - ")
    requires |part| > 0 && NoSpaceAtEnds(part) && !Contains(part + " ", " - ")
    requires |t| > 0 && NoSpaceAtEnds(t)
    requires StripAll(part, Modes()) == u && u != "" && (part == Outros() ==> u == Outros())
    ensures SplitTitle(code + " " + a + " - " + part + " - " + t) == TitleParts(code, u, a + " - " + part + " - " + t)
  {
    var body := a + " - " + part + " - " + t;
    var title := code + " " + body;
    TitleShape(code, a, part, t);
    CodeAndBody(code, body);
    BodyParts(a, part, t);
    ModesEnd();
    ReadTitle(title, Modes(), code, body, part, u);
  }

  /** `<code> <process> - <part> - <term>` is the code, a space and the
      body, which keeps the ends of the process and the term. */
  lemma TitleShape(code: string, a: string, part: string, t: string)
    requires |a| > 0 && NoSpaceAtEnds(a) && |t| > 0 && NoSpaceAtEnds(t)
    ensures var body := a + " - " + part + " - " + t;
      code + " " + body == code + " " + a + " - " + part + " - " + t
      && |body| > 0 && NoSpaceAtEnds(body)
  {
    var body := a + " - " + part + " - " + t;
    assert body[0] == a[0] && body[|body| - 1] == t[|t| - 1];
  }

  /** What `SplitTitleWith` returns, given each of its steps. */
  lemma ReadTitle(title: string, modes: seq<Pattern>, code: string, body: string, part: string, u: string)
    requires |modes| > 0 && AllEndIn(modes, ModeEnds())
    requires Trim(title) == title && CodeOf(title) == code && WithoutCode(title, code) == body
    requires PickUnit(Parts(body)) == part && StripAll(part, modes) == u && u != ""
    requires part == Outros() ==> u == Outros()
    ensures SplitTitleWith(title, modes) == TitleParts(code, u, body)
  {
  }

  /** A literal word matches its own pattern. */
  lemma WordMatches(w: string)
    ensures Matches(w, Word(w))
  {
    LettersMatch(w, Word(w));
  }

  /** The ` PRESENCIAL` suffix: a run of whitespace, then ten letters, and
      ` PRESENCIAL` itself matches it. */
  lemma PresencialPattern()
    ensures Modes()[4] == [Spaces(1)] + Word("PRESENCIAL")
    ensures AllOneOf(Word("PRESENCIAL")) && |Word("PRESENCIAL")| == 10
    ensures Matches(" PRESENCIAL", [Spaces(1)] + Word("PRESENCIAL"))
  {
    var w := " PRESENCIAL";
    var q := Word("PRESENCIAL");
    assert w[1..] == "PRESENCIAL";
    WordMatches("PRESENCIAL");
    assert ([Spaces(0)] + q)[1..] == q;
    assert Matches(w[1..], [Spaces(0)] + q);
    assert ([Spaces(1)] + q)[1..] == q;
  }

  /** The ` SEMIPRESENCIAL` suffix: a run of whitespace, then fourteen
      letters, the fourth of which is an I. */
  lemma SemipresencialPattern()
    ensures Modes()[2] == [Spaces(1)] + Word("SEMIPRESENCIAL")
    ensures AllOneOf(Word("SEMIPRESENCIAL")) && |Word("SEMIPRESENCIAL")| == 14
    ensures ' ' !in Word("SEMIPRESENCIAL")[3].chars
  {
    assert Word("SEMIPRESENCIAL")[3] == Letter('I');
  }

  /** A pattern ending in single characters `q` matches nowhere in a text
      whose `i`-th character from the place `q` would start is outside
      `q[i]`'s set. */
  lemma TailLetterBlocks(s: string, p: Pattern, q: Pattern, i: nat, j: nat)
    requires AllOneOf(q) && i < |q| && j <= |s|
    requires |s| >= |q| ==> s[|s| - |q| + i] !in q[i].chars
    ensures !MatchesAt(s, p + q, j)
  {
    var t := s[j..];
    if |t| >= |q| {
      assert t[|t| - |q| + i] == s[|s| - |q| + i];
    }
    if MatchesAt(s, p + q, j) {
      EndSplit(t, p, q);
    }
  }

  /** A whitespace-led word suffix `w` after a text `u` that does not end in
      whitespace matches nowhere inside `u`: what precedes the letters would
      have to be all whitespace. */
  lemma SuffixNotEarlier(u: string, w: string, q: Pattern, j: nat)
    requires |u| > 0 && !IsSpace(u[|u| - 1]) && AllOneOf(q) && |w| == |q| + 1 && j < |u|
    ensures !MatchesAt(u + w, [Spaces(1)] + q, j)
  {
    var s := u + w;
    var t := s[j..];
    var x := t[..|t| - |q|];
    assert x[|x| - 2] == u[|u| - 1];
    if MatchesAt(s, [Spaces(1)] + q, j) {
      EndSplit(t, [Spaces(1)], q);
      SpacesOnly(x, 1);
    }
  }

  /** Such a suffix, when it matches, is found right after `u`. */
  lemma SuffixLeftmost(u: string, w: string, q: Pattern)
    requires |u| > 0 && !IsSpace(u[|u| - 1]) && AllOneOf(q) && |w| == |q| + 1
    requires Matches(w, [Spaces(1)] + q)
    ensures MatchFrom(u + w, [Spaces(1)] + q, 0) == Some(|u|)
  {
    var s := u + w;
    var p := [Spaces(1)] + q;
    assert s[|u|..] == w;
    forall j | 0 <= j < |u|
      ensures !MatchesAt(s, p, j)
    {
      SuffixNotEarlier(u, w, q, j);
    }
    LeftmostAt(s, p, 0, |u|);
  }

  /** The four suffixes tried before ` PRESENCIAL` leave `u PRESENCIAL` as
      it is: three end in letters other than L, and ` SEMIPRESENCIAL` would
      need an I where the space before PRESENCIAL is. */
  lemma BeforePresencial(u: string, k: nat)
    requires |u| > 0 && NoSpaceAtEnds(u) && k < 4
    ensures StripOne(u + " PRESENCIAL", Modes()[k]) == u + " PRESENCIAL"
  {
    var s := u + " PRESENCIAL";
    var p := Modes()[k];
    assert s[0] == u[0] && s[|s| - 1] == 'L';
    if k == 2 {
      SemipresencialPattern();
      var q := Word("SEMIPRESENCIAL");
      assert |s| >= |q| ==> s[|s| - |q| + 3] == ' ';
      forall j | 0 <= j <= |s|
        ensures !MatchesAt(s, p, j)
      {
        TailLetterBlocks(s, [Spaces(1)], q, 3, j);
      }
      StripOneUnchanged(s, p);
    } else {
      var cs := p[|p| - 1].chars;
      assert 'L' !in cs;
      RemoveBlocked(s, p, 0, cs);
      TrimNoEnds(s);
    }
  }

  /** ` PRESENCIAL` is cut off `u PRESENCIAL`, leaving `u`. */
  lemma PresencialCut(u: string)
    requires |u| > 0 && NoSpaceAtEnds(u)
    ensures StripOne(u + " PRESENCIAL", Modes()[4]) == u
  {
    var s := u + " PRESENCIAL";
    PresencialPattern();
    SuffixLeftmost(u, " PRESENCIAL", Word("PRESENCIAL"));
    RemoveAtLeftmost(s, Modes()[4], 0);
    assert s[..|u|] == u;
    TrimNoEnds(u);
  }

  /** The suffix removal turns `u PRESENCIAL` into `u` when no suffix matches
      `u` itself. */
  lemma PresencialStripped(u: string)
    requires |u| > 0 && NoSpaceAtEnds(u) && NoModeSuffix(u)
    ensures StripAll(u + " PRESENCIAL", Modes()) == u
  {
    var s := u + " PRESENCIAL";
    var m := Modes();
    forall k | 0 <= k < 4
      ensures StripOne(s, m[k]) == s
    {
      BeforePresencial(u, k);
    }
    PresencialCut(u);
    StripOnlyAt(s, m, 4, u);
  }

  /** A unit part with its mode word still contains no separator. */
  lemma NoSepWithPresencial(u: string)
    requires |u| > 0 && NoSpaceAtEnds(u) && !Contains(u + " ", " - ")
    ensures !Contains(u + " PRESENCIAL" + " ", " - ")
  {
    var w := u + " PRESENCIAL" + " ";
    assert '-' !in " PRESENCIAL";
    forall i | 0 <= i <= |w|
      ensures !(" - " <= w[i..])
    {
      if i + 3 <= |u| + 1 {
        var x := (u + " ")[i..i + 3];
        assert x <= (u + " ")[i..];
        assert x != " - ";
        assert w[i..i + 3] == x;
      } else if i == |u| - 1 {
        assert w[i] == u[|u| - 1];
      } else if i + 3 <= |w| {
        assert w[i + 1] == " PRESENCIAL"[i + 1 - |u|];
      }
    }
  }

  /** `<code> <body>` has that code, and without it that body. */
  lemma CodeAndBody(code: string, body: string)
    requires |code| > 0 && forall c :: c in code ==> IsAsciiDigit(c)
    requires |body| > 0 && NoSpaceAtEnds(body)
    ensures var title := code + " " + body;
      Trim(title) == title && CodeOf(title) == code && WithoutCode(title, code) == body
  {
    TitleTrimmed(code, body);
    CodeOfTitle(code, body);
    BodyOfTitle(code, body);
  }

  lemma TitleTrimmed(code: string, body: string)
    requires |code| > 0 && forall c :: c in code ==> IsAsciiDigit(c)
    requires |body| > 0 && NoSpaceAtEnds(body)
    ensures Trim(code + " " + body) == code + " " + body
  {
    var title := code + " " + body;
    assert title[0] == code[0] && code[0] in code;
    assert title[|title| - 1] == body[|body| - 1];
    TrimNoEnds(title);
  }

  lemma BodyOfTitle(code: string, body: string)
    requires |code| > 0 && forall c :: c in code ==> IsAsciiDigit(c)
    requires |body| > 0 && NoSpaceAtEnds(body)
    ensures WithoutCode(code + " " + body, code) == body
  {
    var title := code + " " + body;
    assert title[..|code|] == code;
    assert title[|code|..] == " " + body;
    TrimStartOne(body);
  }

  lemma CodeOfTitle(code: string, body: string)
    requires forall c :: c in code ==> IsAsciiDigit(c)
    ensures CodeOf(code + " " + body) == code
  {
    FirstToken(code, body);
    KeepAll(code, IsAsciiDigit);
  }

  /** The first space-separated token of `code + " " + rest` is the code. */
  lemma FirstToken(code: string, rest: string)
    requires forall c :: c in code ==> IsAsciiDigit(c)
    ensures Split(code + " " + rest, " ")[0] == code
  {
    var s := code + " " + rest;
    forall j | 0 <= j < |code|
      ensures !(" " <= s[j..])
    {
      assert s[j] == code[j];
      assert code[j] in code;
    }
    SplitAt(code, rest, " ", 0);
  }

  lemma TrimStartOne(x: string)
    requires |x| > 0 && !IsSpace(x[0])
    ensures TrimStart(" " + x) == x
  {
    assert (" " + x)[1..] == x;
  }

  /** The first two parts of `a - u - t` are `a` and `u`. */
  lemma BodyParts(a: string, u: string, t: string)
    requires |a| > 0 && NoSpaceAtEnds(a) && !Contains(a + " ", " - ")
    requires |u| > 0 && NoSpaceAtEnds(u) && !Contains(u + " ", " - ")
    ensures PickUnit(Parts(a + " - " + u + " - " + t)) == u
  {
    BodyPieces(a, u, t);
    TrimNoEnds(a);
    TrimNoEnds(u);
    LeadingParts(Split(a + " - " + u + " - " + t, " - "));
  }

  /** Splitting `a - u - t` gives `a`, `u` and the pieces of `t`. */
  lemma BodyPieces(a: string, u: string, t: string)
    requires |a| > 0 && NoSpaceAtEnds(a) && !Contains(a + " ", " - ")
    requires |u| > 0 && NoSpaceAtEnds(u) && !Contains(u + " ", " - ")
    ensures Split(a + " - " + u + " - " + t, " - ") == [a, u] + Split(t, " - ")
  {
    var sep := " - ";
    var rest := u + sep + t;
    assert a + sep + u + sep + t == a + sep + rest;
    NoSepBefore(a, rest);
    SplitAt(a, rest, sep, 0);
    NoSepBefore(u, t);
    SplitAt(u, t, sep, 0);
  }

  /** Two leading pieces that trimming leaves non-empty are the first two parts. */
  lemma LeadingParts(pieces: seq<string>)
    requires |pieces| >= 2 && Trim(pieces[0]) != "" && Trim(pieces[1]) != ""
    ensures PickUnit(Filter(MapSeq(pieces, Trim), NonEmpty)) == Trim(pieces[1])
  {
    var trimmed := MapSeq(pieces, Trim);
    assert Filter(trimmed, NonEmpty) == [trimmed[0]] + Filter(trimmed[1..], NonEmpty);
    assert Filter(trimmed[1..], NonEmpty) == [trimmed[1]] + Filter(trimmed[2..], NonEmpty);
  }

  /** No separator starts inside `a` when `a` is followed by one. */
  lemma NoSepBefore(a: string, b: string)
    requires |a| > 0 && NoSpaceAtEnds(a) && !Contains(a + " ", " - ")
    ensures forall j :: 0 <= j < |a| ==> !(" - " <= (a + " - " + b)[j..])
  {
    forall j | 0 <= j < |a|
      ensures !(" - " <= (a + " - " + b)[j..])
    {
      NoSepAt(a, b, j);
    }
  }

  lemma NoSepAt(a: string, b: string, j: nat)
    requires |a| > 0 && NoSpaceAtEnds(a) && !Contains(a + " ", " - ") && j < |a|
    ensures !(" - " <= (a + " - " + b)[j..])
  {
    var s := a + " - " + b;
    if j + 3 <= |a| + 1 {
      var w := (a + " ")[j..j + 3];
      assert w <= (a + " ")[j..];
      assert w != " - ";
      assert s[j..j + 3] == w;
    } else {
      assert s[j] == a[|a| - 1];
    }
  }
}

=== FILE: turnos.dfy ===
/** The two helpers of the raw offer table that expand shift tables into
    `{nome, turno}` pairs. */
module Turnos {
  import opened Wrappers
  import opened Seqs
  import opened Assoc

  /** `{nome, turno}`. */
  datatype Shift = Shift(nome: string, turno: string)

  /** `(turnos || [])`: a missing list counts as empty. */
  function OrEmpty(ts: Option<seq<string>>): seq<string> {
    ts.GetOr([])
  }

  /** One name paired with each of its shifts, in order. */
  function Pairs(nome: string, turnos: seq<string>): (r: seq<Shift>)
    ensures |r| == |turnos|
    ensures forall j :: 0 <= j < |turnos| ==> r[j] == Shift(nome, turnos[j])
  {
    seq(|turnos|, j requires 0 <= j < |turnos| => Shift(nome, turnos[j]))
  }

  /** The blocks `expandTurnosMap` flattens: one per entry of the map. */
  function TurnosMapBlocks(m: Dict<Option<seq<string>>>): (r: seq<seq<Shift>>)
    ensures |r| == |m|
    ensures forall k :: 0 <= k < |m| ==> r[k] == Pairs(m[k].0, OrEmpty(m[k].1))
  {
    seq(|m|, k requires 0 <= k < |m| => Pairs(m[k].0, OrEmpty(m[k].1)))
  }

  /** `expandTurnosMap`: every name with each of its shifts, in map order and
      then in list order. */
  function ExpandTurnosMap(m: Dict<Option<seq<string>>>): (r: seq<Shift>)
    ensures |r| == TotalLength(TurnosMapBlocks(m))
  {
    Concat(TurnosMapBlocks(m))
  }

  /** Shift `j` of entry `k` is at position `Offset + j`: map order first, list
      order second. */
  lemma ExpandTurnosMapOrder(m: Dict<Option<seq<string>>>, k: nat, j: nat)
    requires k < |m| && j < |OrEmpty(m[k].1)|
    ensures Offset(TurnosMapBlocks(m), k) + j < |ExpandTurnosMap(m)|
    ensures ExpandTurnosMap(m)[Offset(TurnosMapBlocks(m), k) + j] == Shift(m[k].0, OrEmpty(m[k].1)[j])
  {
    ConcatIndex(TurnosMapBlocks(m), k, j);
  }

  /** A pair is produced exactly when its shift is listed under its name. */
  lemma ExpandTurnosMapMembers(m: Dict<Option<seq<string>>>, s: Shift)
    ensures s in ExpandTurnosMap(m) <==>
      exists k :: 0 <= k < |m| && m[k].0 == s.nome && s.turno in OrEmpty(m[k].1)
  {
    var blocks := TurnosMapBlocks(m);
    ConcatMember(blocks, s);
    if s in ExpandTurnosMap(m) {
      var k :| 0 <= k < |blocks| && s in blocks[k];
      var j :| 0 <= j < |blocks[k]| && blocks[k][j] == s;
      assert OrEmpty(m[k].1)[j] == s.turno;
    }
    if exists k :: 0 <= k < |m| && m[k].0 == s.nome && s.turno in OrEmpty(m[k].1) {
      var k :| 0 <= k < |m| && m[k].0 == s.nome && s.turno in OrEmpty(m[k].1);
      var j :| 0 <= j < |OrEmpty(m[k].1)| && OrEmpty(m[k].1)[j] == s.turno;
      assert blocks[k][j] == s;
    }
  }

  /** The blocks `expandFixedTurnos` flattens: one per name. */
  function FixedBlocks(ns: seq<string>, ts: seq<string>): (r: seq<seq<Shift>>)
    ensures |r| == |ns|
    ensures forall i :: 0 <= i < |ns| ==> r[i] == Pairs(ns[i], ts)
  {
    seq(|ns|, i requires 0 <= i < |ns| => Pairs(ns[i], ts))
  }

  /** Where shift `j` of name `i` lands when every name has `t` shifts. */
  function Pos(i: nat, j: nat, t: nat): nat { i * t + j }

  /** `expandFixedTurnos`: every name with every shift of one shared list,
      name-major. */
  function ExpandFixedTurnos(names: Option<seq<string>>, turnos: Option<seq<string>>): (r: seq<Shift>)
    ensures |r| == |OrEmpty(names)| * |OrEmpty(turnos)|
    ensures forall i, j :: 0 <= i < |OrEmpty(names)| && 0 <= j < |OrEmpty(turnos)| ==>
      Pos(i, j, |OrEmpty(turnos)|) < |r| && r[Pos(i, j, |OrEmpty(turnos)|)] == Shift(OrEmpty(names)[i], OrEmpty(turnos)[j])
  {
    var ns, ts := OrEmpty(names), OrEmpty(turnos);
    FixedLayout(ns, ts);
    Concat(FixedBlocks(ns, ts))
  }

  /** The flattened blocks hold `|ns| * |ts|` pairs, shift `j` of name `i` at
      position `i * |ts| + j`. */
  lemma FixedLayout(ns: seq<string>, ts: seq<string>)
    ensures |Concat(FixedBlocks(ns, ts))| == |ns| * |ts|
    ensures forall i, j :: 0 <= i < |ns| && 0 <= j < |ts| ==>
      Pos(i, j, |ts|) < |Concat(FixedBlocks(ns, ts))| && Concat(FixedBlocks(ns, ts))[Pos(i, j, |ts|)] == Shift(ns[i], ts[j])
  {
    FixedLength(ns, ts);
    forall i, j | 0 <= i < |ns| && 0 <= j < |ts|
      ensures Pos(i, j, |ts|) < |Concat(FixedBlocks(ns, ts))| && Concat(FixedBlocks(ns, ts))[Pos(i, j, |ts|)] == Shift(ns[i], ts[j])
    {
      FixedAt(ns, ts, i, j);
    }
  }

  /** `|ns|` blocks of `|ts|` pairs each. */
  lemma FixedLength(ns: seq<string>, ts: seq<string>)
    ensures |Concat(FixedBlocks(ns, ts))| == |ns| * |ts|
  {
    OffsetUniform(FixedBlocks(ns, ts), |ts|, 0);
  }

  /** Shift `j` of name `i` in the flattened blocks. */
  lemma FixedAt(ns: seq<string>, ts: seq<string>, i: nat, j: nat)
    requires i < |ns| && j < |ts|
    ensures Pos(i, j, |ts|) < |Concat(FixedBlocks(ns, ts))|
    ensures Concat(FixedBlocks(ns, ts))[Pos(i, j, |ts|)] == Shift(ns[i], ts[j])
  {
    var blocks := FixedBlocks(ns, ts);
    OffsetUniform(blocks, |ts|, i);
    ConcatIndex(blocks, i, j);
  }

  /** A pair is produced exactly when its name and its shift are both listed. */
  lemma ExpandFixedTurnosMembers(names: Option<seq<string>>, turnos: Option<seq<string>>, s: Shift)
    ensures s in ExpandFixedTurnos(names, turnos) <==> s.nome in OrEmpty(names) && s.turno in OrEmpty(turnos)
  {
    var ns, ts := OrEmpty(names), OrEmpty(turnos);
    var blocks := FixedBlocks(ns, ts);
    ConcatMember(blocks, s);
    if s in ExpandFixedTurnos(names, turnos) {
      var i :| 0 <= i < |blocks| && s in blocks[i];
      var j :| 0 <= j < |blocks[i]| && blocks[i][j] == s;
      assert ts[j] == s.turno;
    }
    if s.nome in ns && s.turno in ts {
      var i :| 0 <= i < |ns| && ns[i] == s.nome;
      var j :| 0 <= j < |ts| && ts[j] == s.turno;
      assert blocks[i][j] == s;
    }
  }
}

=== FILE: wrappers.dfy ===
/** Optional values: JavaScript's `undefined`/`null` versus a present value. */
module Wrappers {

  datatype Option<T> = None | Some(value: T) {
    function GetOr(default: T): (r: T)
      ensures Some? ==> r == value
      ensures None? ==> r == default
    {
      match this
      case None => default
      case Some(v) => v
    }
  }
}
